=== FILE: README.md ===
# Topshelf.Unix, Linux runtime: a Dafny model

Topshelf.Unix hosts a Topshelf service on Linux under Mono. It installs the service as an
`/etc/init.d` script registered with `update-rc.d`, and finds out whether the service is
running by reading the process table. It also runs the service in the foreground until
SIGINT, SIGTERM, a stop request or a fatal exception ends it. This project models the
sequential logic of that runtime as immutable values and pure functions, and proves what
each part promises:

- **Staged transaction engine** (`TransactionManager`). An ordered list of stages, each with
  an optional action and an optional compensating action. `Execute` runs them in order. On
  the first failure it rolls back every stage entered so far, the failed one first, and raises
  one aggregate error. The standalone `Rollback` undoes every stage, last first. A run is a
  report: the stage calls in order, the events handed to the log function, and the outcome.
- **Command-line grammar** (`CommandLineGrammar`, shared by `TopshelfHelper` and `MonoHelper`).
  The tokenizer of the regular expression `("[^"]*")|([^\s]+)` is written as a hand scanner.
  The program path is skipped. A three-way classifier sorts parameters, switches and verbs into
  a dictionary whose keys compare ignoring case. The serializer has two variants: Topshelf's
  output has a leading space and gives `" "` for a null dictionary, Mono's has neither.
  Dictionaries are association lists in insertion order, with a comparer (`Ordinal` or
  `OrdinalIgnoreCase`) that decides key equality.
- **Service status** (`ServiceStatus`, `TopshelfHelper.GetStatus`,
  `LinuxServiceController.GetStatus`). The status is resolved over a process table, given as
  a sequence of records. The two callers join the instance name with `@` and `$`
  respectively.
- **`/proc` parsing** (`LinuxProcess`). The `stat` line gives the pid, the name and the state
  letter. The `cmdline` file gives the NUL-separated arguments. The processes are listed with
  unreadable entries skipped, and filtered by name.
- **Service controller** (`LinuxServiceController`). `service <name> start|stop` and the
  exit-code check. The `TimeSpan` overloads. The execute-bit filter over `/etc/init.d`.
- **Installer** (`LinuxHostInstaller`, `BaseHostServiceInstaller`). The three-stage install
  transaction and the error counting of `Install` and `Uninstall`. The descriptor-field
  builders and the template substitution. The reserved-key merge that builds the installed
  command line. The optional hook slots.
- **Host run loop and signal dispatch** (`LinuxServiceHost`, `LinuxSignalListener`). These
  are state machines driven by an explicit sequence of events: wait results, stop requests,
  faults. The stop signal is a set-once boolean.

Everything the runtime reads from the machine is a parameter: the process table, the files
under `/etc/init.d`, the outcome of each shell command, `stat`, `chmod`, and the framework's
own installers. `MonoHelper.ExecuteShellCommand` becomes a `Shell` function from the command
text to a `ProcessResult` (completed, optional exit code, output). The model's values are
immutable, so "works on a copy of the caller's dictionary" holds by construction.

The model follows the code as written:

- `Stage` does not check that a stage name is non-empty.
- `LinuxServiceController.GetStatus` builds the instance key as `name$instance`, not
  `name@instance`.
- Status resolution answers Running as soon as one process matches, however many match.
- `Listen` does not refuse a second call.
- A non-terminating unhandled exception is only logged; it neither stops the host nor sets
  the exit code.
- A process whose `cmdline` cannot be read is kept with an empty command line, which never
  matches, rather than being dropped.

## Model

| member | source | states |
|---|---|---|
| TransactionManager.New | Topshelf.Unix/Runtime/Linux/TransactionManager.cs:14-18 | a new manager keeps the log function it is given and has no stages |
| TransactionManager.Stage | Topshelf.Unix/Runtime/Linux/TransactionManager.cs:25-30 | the new stage is appended after all earlier ones, which are kept unchanged and in order, and the log function is kept |
| TransactionManager.WriteLog | Topshelf.Unix/Runtime/Linux/TransactionManager.cs:97-109 | an event reaches the log function exactly when there is one; whatever that function does is ignored |
| TransactionManager.StageExecute | Topshelf.Unix/Runtime/Linux/TransactionManager.cs:135-148 | a stage without an action succeeds; a failing action's error is wrapped with the stage name |
| TransactionManager.StageRollback | Topshelf.Unix/Runtime/Linux/TransactionManager.cs:150-163 | a stage without a compensating action succeeds; a failing one's error is wrapped with the stage name |
| TransactionManager.ExecuteFrom | Topshelf.Unix/Runtime/Linux/TransactionManager.cs:37-57 | from any stage on: the stages run in order up to the first failure; that stage and every earlier one are then rolled back, latest first; the aggregate is the failure followed by the rollback errors in the order they occurred |
| TransactionManager.Execute | Topshelf.Unix/Runtime/Linux/TransactionManager.cs:33-58 | with no failing stage, each stage is executed once in declaration order and nothing is rolled back; when stage k fails first, stages 0..k are executed, k down to 0 are rolled back, no later stage is touched, and one aggregate holds k's error and then the rollback errors |
| TransactionManager.Rollback | Topshelf.Unix/Runtime/Linux/TransactionManager.cs:61-95 | every stage is rolled back, last declared first, whatever the earlier rollbacks did; an aggregate of the rollback errors is raised exactly when some rollback fails |
| TransactionManager.LogDoesNotMatter | Topshelf.Unix/Runtime/Linux/TransactionManager.cs:97-109 | a missing or different log function never changes which stages are called or how Execute or Rollback ends |
| TransactionManager.StageRunsLast | Topshelf.Unix/Runtime/Linux/TransactionManager.cs:25-58 | a stage added last runs after all earlier ones: the calls are the old run's followed by its execution |
| TransactionManager.SecondOfThreeFails | Topshelf.Unix/Runtime/Linux/TransactionManager.cs:35-55 | of three stages where the second fails, the third never runs, the second then the first are rolled back, and the aggregate starts with the second's error |
| TransactionManager.ThirdOfThreeFails | Topshelf.Unix/Runtime/Linux/TransactionManager.cs:35-55 | of three stages where the third fails, all three are rolled back in reverse order and the aggregate starts with the third's error |
| TransactionManager.ExecuteOfThree | Topshelf.Unix/Runtime/Linux/TransactionManager.cs:33-58 | a run of three stages succeeds exactly when each of the three actions does |
| TransactionManager.RollbackOfThree | Topshelf.Unix/Runtime/Linux/TransactionManager.cs:61-95 | rolling back three stages calls the third, second and first, and succeeds exactly when each of their rollbacks does |
| CommandLineGrammar.Tokenize | Topshelf.Unix/TopshelfHelper.cs:54 | every token is non-empty and is either a quoted run or free of white space |
| CommandLineGrammar.TokenizeWord | Topshelf.Unix/TopshelfHelper.cs:54 | a word followed by white space or the end is one token |
| CommandLineGrammar.TokenizeQuoted | Topshelf.Unix/TopshelfHelper.cs:54 | a quoted run, white space inside it included, is one token wherever it stands |
| CommandLineGrammar.TokenizeSpaced | Topshelf.Unix/TopshelfHelper.cs:54 | tokenizing well-formed tokens, each preceded by a space, gives back the tokens |
| CommandLineGrammar.TokenizeBlank | Topshelf.Unix/TopshelfHelper.cs:52-54 | white space alone holds no tokens |
| CommandLineGrammar.Classify | Topshelf.Unix/TopshelfHelper.cs:70-86 | `-x` with a second character other than `-` names a parameter; `--x` with a third character other than `-` is a switch; any other token is a verb |
| CommandLineGrammar.ParseArgs | Topshelf.Unix/TopshelfHelper.cs:56-87 | the loop over the tokens after the program path keeps keys distinct ignoring case and never moves or drops an earlier key |
| CommandLineGrammar.ParseCommandLine | Topshelf.Unix/TopshelfHelper.cs:48-91 | blank input gives an empty dictionary, and the keys are always distinct ignoring case |
| CommandLineGrammar.ParseSkipsProgram | Topshelf.Unix/TopshelfHelper.cs:54 | the program path is discarded: the dictionary depends only on the later tokens |
| CommandLineGrammar.ParameterTakesNextToken | Topshelf.Unix/TopshelfHelper.cs:64-68 | the token after a parameter name is its value, quotes trimmed from both ends, even when it looks like a name or switch |
| CommandLineGrammar.TrailingParameterIgnored | Topshelf.Unix/TopshelfHelper.cs:70-74 | a parameter name with nothing after it adds no entry |
| CommandLineGrammar.LaterVerbOverwrites | Topshelf.Unix/TopshelfHelper.cs:50-86 | a later verb whose key equals an earlier one ignoring case overwrites its value, without adding an entry |
| CommandLineGrammar.ParseVerbToken | Topshelf.Unix/TopshelfHelper.cs:82-86 | a verb token stores its key with a null value |
| CommandLineGrammar.ParseSwitchToken | Topshelf.Unix/TopshelfHelper.cs:76-80 | a switch token stores its key with the value true |
| CommandLineGrammar.PutIsMapUpdate | Topshelf.Unix/TopshelfHelper.cs:64-86 | `result[key] = value` keeps keys distinct and acts as a map update: the key holds the value, every other key keeps its own, a new key is appended |
| CommandLineGrammar.RoundTripTokens | Topshelf.Unix/TopshelfHelper.cs:48-136 | parsing the emitted tokens of a well-formed dictionary gives back its surviving entries (false switches and empty values dropped) |
| CommandLineGrammar.EmitTokensEmpty | Topshelf.Unix/TopshelfHelper.cs:99-127 | no token is emitted exactly when every entry is a false switch or an empty value |
| TopshelfHelper.GetStatus | Topshelf.Unix/TopshelfHelper.cs:14-45 | Running exactly when some `mono` process announces the service, as `name` or `name@instance`, ignoring case; Stopped otherwise |
| TopshelfHelper.BuildCommandLine | Topshelf.Unix/TopshelfHelper.cs:93-136 | a null dictionary gives `" "`; otherwise the emitted tokens, each preceded by one space, with no trailing space |
| TopshelfHelper.BuildShape | Topshelf.Unix/TopshelfHelper.cs:95-135 | a non-null dictionary builds to `""` when nothing survives and otherwise to text starting with one space |
| TopshelfHelper.RoundTrip | Topshelf.Unix/TopshelfHelper.cs:48-136 | a program path followed by a built command line parses back to the dictionary without its false switches and empty values |
| TopshelfHelper.NormalizeCommandLine | Topshelf.Unix/TopshelfHelper.cs:139-144 | a blank command line normalises to `""`, and any normal form is empty or starts with a space |
| TopshelfHelper.NormalizeBuilt | Topshelf.Unix/TopshelfHelper.cs:139-144 | a command line that is already a build stays as it is when normalised |
| TopshelfHelper.ParseAndBuildExample | Topshelf.Unix/TopshelfHelper.cs:48-136 | `-name "My Service" --verbose start` after a program path parses to `name`, `verbose` and `start` in order, and builds back to the same text |
| MonoHelper.LinuxIsUnix | Topshelf.Unix/MonoHelper.cs:23-39 | every Linux platform id is a Unix one, and 6 is the one Unix id that is not Linux |
| MonoHelper.FormatCommand | Topshelf.Unix/MonoHelper.cs:155 | the timeout is passed on, and a template without a placeholder runs as itself, trimmed |
| MonoHelper.FormatSplice | Topshelf.Unix/MonoHelper.cs:155 | a placeholder between a non-blank head and tail gives head, argument, tail |
| MonoHelper.BuildCommandLine | Topshelf.Unix/MonoHelper.cs:101-144 | the emitted tokens joined by single spaces; `""` for a null dictionary |
| MonoHelper.BuildOfNothing | Topshelf.Unix/MonoHelper.cs:103-143 | a dictionary with no surviving entry, the empty one included, builds to `""` |
| MonoHelper.TopshelfBuildAddsLeadingSpace | Topshelf.Unix/MonoHelper.cs:101-144 | Topshelf's build is Mono's with one leading space whenever anything is emitted |
| MonoHelper.RoundTrip | Topshelf.Unix/MonoHelper.cs:56-144 | a program path, a space and a built command line parse back to the dictionary without its false switches and empty values |
| MonoHelper.ProgramAlone | Topshelf.Unix/MonoHelper.cs:56-99 | a program path followed by one space holds no arguments |
| MonoHelper.NormalizeCommandLine | Topshelf.Unix/MonoHelper.cs:49-54 | a blank command line normalises to `""` |
| MonoHelper.NormalizeBuilt | Topshelf.Unix/MonoHelper.cs:49-54 | a command line that is already a build stays as it is when normalised |
| ServiceStatus.Scan | Topshelf.Unix/TopshelfHelper.cs:18-44 | the scan over the `mono` processes finds the service exactly when one of them announces it |
| ServiceStatus.GetStatus | Topshelf.Unix/Runtime/Linux/LinuxServiceController.cs:25-56 | Running exactly when a process named `mono` announces the service; Stopped otherwise, an empty table included |
| ServiceStatus.ScanOfMonoProcesses | Topshelf.Unix/TopshelfHelper.cs:16-18 | scanning the `mono` processes finds the service exactly when some process of the whole table is named `mono` and announces it |
| ServiceStatus.AnnouncesServiceName | Topshelf.Unix/TopshelfHelper.cs:27-38 | a command line naming the service and no instance announces exactly that name, ignoring case |
| ServiceStatus.AnnouncesInstanceName | Topshelf.Unix/TopshelfHelper.cs:30-38 | a command line naming the service and a non-empty instance announces the two joined by the separator |
| ServiceStatus.LookupEmitted | Topshelf.Unix/TopshelfHelper.cs:99-127 | dropping the entries a build omits keeps every surviving lookup, and omitted ones read back as missing |
| LinuxProcess.StateOf | Topshelf.Unix/Runtime/Linux/LinuxProcess.cs:172-194 | a letter names a known state exactly when, upper-cased, it is one of R, S, D, Z, T, W, and that state's letter is the upper-cased one |
| LinuxProcess.StateLetterRoundTrip | Topshelf.Unix/Runtime/Linux/LinuxProcess.cs:174-193 | each known state is read back from its letter, in either case |
| LinuxProcess.ParseProcessStatus | Topshelf.Unix/Runtime/Linux/LinuxProcess.cs:156-201 | empty text gives the default record; text without a space gives no name and state Unknown; a name has no space and no `(` in front or `)` at the end; the id is a 32-bit value |
| LinuxProcess.FromFields | Topshelf.Unix/Runtime/Linux/LinuxProcess.cs:164-197 | the id is the first field parsed as a 32-bit integer, or 0 when it does not parse; there is a name exactly when there is a second field, and it is that field with its parentheses trimmed; the state is Unknown without a non-empty third field, and otherwise the state table looked up on that field's first character, so a name holding a space shifts the fields |
| LinuxProcess.IdField | Topshelf.Unix/Runtime/Linux/LinuxProcess.cs:166 | the parsed value when the field is a 32-bit decimal, and 0 when it is not |
| LinuxProcess.NameWithSpaceShiftsFields | Topshelf.Unix/Runtime/Linux/LinuxProcess.cs:162-176 | for `<pid> (Web Content) S 1` the name is `Web` and the state is Unknown, read from the `C` after the space |
| LinuxProcess.NameOfField | Topshelf.Unix/Runtime/Linux/LinuxProcess.cs:170 | the trimmed name neither starts with `(` nor ends with `)`, and has no space when the field has none |
| LinuxProcess.ParseStatLine | Topshelf.Unix/Runtime/Linux/LinuxProcess.cs:156-201 | a kernel `stat` line (pid, parenthesised name, state letter, more fields) is read back as that pid, name and state |
| LinuxProcess.ParseCommandLine | Topshelf.Unix/Runtime/Linux/LinuxProcess.cs:203-212 | empty text gives `""`, and no NUL is ever left in the result |
| LinuxProcess.ParseCommandLineOfArgv | Topshelf.Unix/Runtime/Linux/LinuxProcess.cs:203-212 | NUL-terminated arguments come back joined by single spaces |
| LinuxProcess.Snapshot | Topshelf.Unix/Runtime/Linux/LinuxProcess.cs:100-154 | a record carries the directory's pid; an unreadable `stat` gives no name and state Unknown, an unreadable `cmdline` gives `""` |
| LinuxProcess.GetProcesses | Topshelf.Unix/Runtime/Linux/LinuxProcess.cs:72-97 | a record is returned exactly for each directory whose name parses as an integer and whose process opens; every other directory is skipped |
| LinuxProcess.GetProcessesByName | Topshelf.Unix/Runtime/Linux/LinuxProcess.cs:67-70 | exactly the processes whose name equals the argument, ordinally |
| LinuxProcess.GetProcessesAppend | Topshelf.Unix/Runtime/Linux/LinuxProcess.cs:72-97 | records come out in directory order: one more directory appends its record at the end exactly when it is listed |
| LinuxProcess.GetProcessesByNameAppend | Topshelf.Unix/Runtime/Linux/LinuxProcess.cs:67-70 | the name filter keeps the order: one more process is appended at the end exactly when its name matches |
| LinuxServiceController.GetStatus | Topshelf.Unix/Runtime/Linux/LinuxServiceController.cs:25-56 | Running exactly when some `mono` process announces the service as `name` or `name$instance`, ignoring case |
| LinuxServiceController.Commands | Topshelf.Unix/Runtime/Linux/LinuxServiceController.cs:64-88 | the shell runs `service <name> start` and `service <name> stop` |
| LinuxServiceController.Start | Topshelf.Unix/Runtime/Linux/LinuxServiceController.cs:64-72 | succeeds exactly when the command exited with 0; otherwise it throws, quoting the output only of a completed command |
| LinuxServiceController.Stop | Topshelf.Unix/Runtime/Linux/LinuxServiceController.cs:80-88 | succeeds exactly when the command exited with 0; otherwise it throws, quoting the output only of a completed command |
| LinuxServiceController.TimedOutCommandThrows | Topshelf.Unix/Runtime/Linux/LinuxServiceController.cs:64-88 | a command that did not finish has no exit code, so start and stop throw and quote no output |
| LinuxServiceController.Milliseconds | Topshelf.Unix/Runtime/Linux/LinuxServiceController.cs:59-78 | the millisecond component of a span lies between -999 and 999, and is not negative for a non-negative span |
| LinuxServiceController.StartWithin | Topshelf.Unix/Runtime/Linux/LinuxServiceController.cs:59-62 | as written: starts with the millisecond component as the timeout |
| LinuxServiceController.StopWithin | Topshelf.Unix/Runtime/Linux/LinuxServiceController.cs:75-78 | as written: stops with the millisecond component as the timeout |
| LinuxServiceController.WholeSecondsAreDropped | Topshelf.Unix/Runtime/Linux/LinuxServiceController.cs:59-78 | a span of whole seconds, thirty among them, is forwarded as a wait of 0 ms |
| LinuxServiceController.StartWithinCorrected | Topshelf.Unix/Runtime/Linux/LinuxServiceController.cs:59-62 | corrected: starts with the whole span in milliseconds as the timeout |
| LinuxServiceController.StopWithinCorrected | Topshelf.Unix/Runtime/Linux/LinuxServiceController.cs:75-78 | corrected: stops with the whole span in milliseconds as the timeout |
| LinuxServiceController.CorrectedForwardsWholeSpan | Topshelf.Unix/Runtime/Linux/LinuxServiceController.cs:59-88 | the corrected overloads behave as the `int` overloads given the span's total milliseconds |
| LinuxServiceController.FileName | Topshelf.Unix/Runtime/Linux/LinuxServiceController.cs:109 | the file name is a suffix of the path that holds no `/` and is preceded by `/` when it is not the whole path |
| LinuxServiceController.GetServices | Topshelf.Unix/Runtime/Linux/LinuxServiceController.cs:96-112 | a controller, named by a file name without `/`, for exactly the scripts whose `stat` succeeds and that carry an execute bit |
| LinuxServiceController.GetService | Topshelf.Unix/Runtime/Linux/LinuxServiceController.cs:91-94 | the controller for the first listed script that qualifies, or none |
| LinuxServiceController.GetServicesAppend | Topshelf.Unix/Runtime/Linux/LinuxServiceController.cs:96-112 | controllers come out in directory order: one more script appends its controller at the end exactly when it is listed |
| LinuxServiceController.GetServiceIsFirst | Topshelf.Unix/Runtime/Linux/LinuxServiceController.cs:91-94 | `GetService` is the head of `GetServices`, and none exactly when that is empty |
| LinuxServiceController.ChmodMakesExecutable | Topshelf.Unix/Runtime/Linux/LinuxServiceController.cs:104-110 | any mode with the owner, group and other execute bits added counts as executable |
| LinuxHostInstaller.ServicePath | Topshelf.Unix/Runtime/Linux/LinuxHostInstaller.cs:226-230 | for a service name that is not rooted, the script is `/etc/init.d/` followed by the name |
| LinuxHostInstaller.ServiceFileName | Topshelf.Unix/Runtime/Linux/LinuxHostInstaller.cs:164-188 | the file name given to `update-rc.d` is the service name itself when that is a plain file name |
| LinuxHostInstaller.Fallbacks | Topshelf.Unix/Runtime/Linux/LinuxHostInstaller.cs:232-242 | a blank display name falls back to the service name and a blank description to the display name; neither is blank while the service name is not |
| LinuxHostInstaller.NonBlank | Topshelf.Unix/Runtime/Linux/LinuxHostInstaller.cs:250 | every kept entry is non-blank, and a string is kept exactly when a non-blank entry holds it |
| LinuxHostInstaller.NonBlankAppend | Topshelf.Unix/Runtime/Linux/LinuxHostInstaller.cs:250 | the filter keeps order and repeats: one more entry appends its string at the end exactly when it is neither null nor blank |
| LinuxHostInstaller.BuildDependencies | Topshelf.Unix/Runtime/Linux/LinuxHostInstaller.cs:244-259 | the non-blank entries joined by single spaces; `$local_fs $network $remote_fs $syslog` when none is left or the list is null or empty |
| LinuxHostInstaller.BuildServiceUser | Topshelf.Unix/Runtime/Linux/LinuxHostInstaller.cs:261-264 | the configured account trimmed, or the current user's name when it is blank |
| LinuxHostInstaller.BuildServiceArguments | Topshelf.Unix/Runtime/Linux/LinuxHostInstaller.cs:276-279 | blank arguments give `""`; every `"` of the result is preceded by `\`, and unescaping gives back the trimmed arguments |
| LinuxHostInstaller.Substitutions | Topshelf.Unix/Runtime/Linux/LinuxHostInstaller.cs:207-217 | ten replacements: nine placeholders starting with `<`, the service name first, and last CR-LF to LF |
| LinuxHostInstaller.BuildServiceScript | Topshelf.Unix/Runtime/Linux/LinuxHostInstaller.cs:191-219 | settings that are not install settings, then a missing entry assembly, are refused, and nothing else is |
| LinuxHostInstaller.ServiceNameLandsEscaped | Topshelf.Unix/Runtime/Linux/LinuxHostInstaller.cs:208 | the service name lands at its placeholder with every `$` escaped as `\$` |
| LinuxHostInstaller.LineEndsBecomeLf | Topshelf.Unix/Runtime/Linux/LinuxHostInstaller.cs:217 | a template of CR-LF lines without placeholders comes out with LF line ends |
| LinuxHostInstaller.WithExecuteBits | Topshelf.Unix/Runtime/Linux/LinuxHostInstaller.cs:158 | the new mode is the old one with the owner, group and other execute bits added |
| LinuxHostInstaller.CreateServiceFile | Topshelf.Unix/Runtime/Linux/LinuxHostInstaller.cs:120-129 | non-install settings, then a missing entry assembly, make it throw the script builder's refusal |
| LinuxHostInstaller.DeleteServiceFile | Topshelf.Unix/Runtime/Linux/LinuxHostInstaller.cs:131-141 | for a plain service name the file removed is `/etc/init.d/` followed by the name |
| LinuxHostInstaller.DeleteTargetsServicePath | Topshelf.Unix/Runtime/Linux/LinuxHostInstaller.cs:131-141 | the outcome depends on what the machine does at the service's path and nowhere else |
| LinuxHostInstaller.SetServiceFileAsExecutable | Topshelf.Unix/Runtime/Linux/LinuxHostInstaller.cs:143-162 | a failing `stat` or `chmod` throws; on success the script carries the execute bits and is listed as a service |
| LinuxHostInstaller.RegistrationCommands | Topshelf.Unix/Runtime/Linux/LinuxHostInstaller.cs:164-188 | `update-rc.d <name> defaults` and `update-rc.d -f <name> remove` run with a one-minute timeout |
| LinuxHostInstaller.RegisterServiceFile | Topshelf.Unix/Runtime/Linux/LinuxHostInstaller.cs:164-175 | succeeds exactly when `update-rc.d` exited with 0 |
| LinuxHostInstaller.UnregisterServiceFile | Topshelf.Unix/Runtime/Linux/LinuxHostInstaller.cs:177-188 | succeeds exactly when `update-rc.d` exited with 0 |
| LinuxHostInstaller.InstallTransaction | Topshelf.Unix/Runtime/Linux/LinuxHostInstaller.cs:29-32 | exactly three stages in order: create (undone by delete), make executable (nothing to undo), register (undone by unregister) |
| LinuxHostInstaller.StageBehaviour | Topshelf.Unix/Runtime/Linux/LinuxHostInstaller.cs:29-32 | each stage's execute and rollback run the matching file operation, and chmod has nothing to undo |
| LinuxHostInstaller.Install | Topshelf.Unix/Runtime/Linux/LinuxHostInstaller.cs:43-68 | the framework's installers run first, then the transaction; any failure is rethrown wrapped with the service name |
| LinuxHostInstaller.TransactionSucceeds | Topshelf.Unix/Runtime/Linux/LinuxHostInstaller.cs:29-58 | the install transaction succeeds exactly when create, chmod and register all do |
| LinuxHostInstaller.InstallRun | Topshelf.Unix/Runtime/Linux/LinuxHostInstaller.cs:54-67 | a failed transaction's aggregate is rethrown wrapped with the service name |
| LinuxHostInstaller.ChmodFailureDeletesScript | Topshelf.Unix/Runtime/Linux/LinuxHostInstaller.cs:29-32 | when chmod fails the script is deleted and nothing is registered |
| LinuxHostInstaller.RegisterFailureUnregistersThenDeletes | Topshelf.Unix/Runtime/Linux/LinuxHostInstaller.cs:29-32 | when registration fails the service is unregistered, then its script deleted |
| LinuxHostInstaller.Uninstall | Topshelf.Unix/Runtime/Linux/LinuxHostInstaller.cs:70-117 | unregister then delete always run, and the framework uninstall runs whatever they did; success exactly when all three succeed |
| LinuxHostInstaller.UninstallOutcome | Topshelf.Unix/Runtime/Linux/LinuxHostInstaller.cs:81-116 | no error is success, one is wrapped with the service name, two are aggregated and then wrapped |
| BaseHostServiceInstaller.BuildCommandLine | Topshelf.Unix/Runtime/BaseHostServiceInstallerImpl.cs:66-77 | for null or compatible arguments and quotable settings, the line read back after any program name gives exactly the emitted entries of the reserved dictionary |
| BaseHostServiceInstaller.ReservedArguments | Topshelf.Unix/Runtime/BaseHostServiceInstallerImpl.cs:66-74 | a case-sensitive copy of the caller's dictionary (or an empty one) in which `instance`, `displayname` and `servicename` hold the settings and every other key is kept |
| BaseHostServiceInstaller.ReservedPuts | Topshelf.Unix/Runtime/BaseHostServiceInstallerImpl.cs:72-74 | the three assignments keep keys distinct, store each setting under its key and leave every other key alone |
| BaseHostServiceInstaller.NoArgumentsGiveReservedOnly | Topshelf.Unix/Runtime/BaseHostServiceInstallerImpl.cs:68-74 | without caller arguments the dictionary holds exactly the three reserved entries, in the order they are set |
| BaseHostServiceInstaller.PlainSettingsLine | Topshelf.Unix/Runtime/BaseHostServiceInstallerImpl.cs:72-76 | with neither instance nor display name the command line is ` instance displayname -servicename "<name>"`: null values become bare verbs |
| BaseHostServiceInstaller.CompatibleArgumentsAppend | Topshelf.Unix/Runtime/BaseHostServiceInstallerImpl.cs:68-74 | caller arguments without the reserved keys stay in front of the three reserved entries |
| BaseHostServiceInstaller.StatusName | Topshelf.Unix/TopshelfHelper.cs:34 | the status key is the service name, joined to a non-empty instance by `@` |
| BaseHostServiceInstaller.ReservedReadBack | Topshelf.Unix/Runtime/BaseHostServiceInstallerImpl.cs:66-77 | the reserved entries read back, ignoring case, as the settings, and the dictionary stays fit for a round trip |
| BaseHostServiceInstaller.InstalledCommandLineAnnouncesService | Topshelf.Unix/Runtime/BaseHostServiceInstallerImpl.cs:66-77 | a `mono` process record whose command line reads a program name followed by the installed command line is reported Running for the service's status key |
| BaseHostServiceInstaller.InstallHandlers | Topshelf.Unix/Runtime/BaseHostServiceInstallerImpl.cs:17-35 | a handler for exactly each non-null install and rollback hook, in slot order |
| BaseHostServiceInstaller.UninstallHandlers | Topshelf.Unix/Runtime/BaseHostServiceInstallerImpl.cs:49-57 | a handler for exactly each non-null uninstall hook, in slot order |
| BaseHostServiceInstaller.InstallService | Topshelf.Unix/Runtime/BaseHostServiceInstallerImpl.cs:11-41 | the command line is the reserved-key build; exactly the non-null install and rollback hooks are attached; the install succeeds exactly when the framework install, create, chmod and register all do, and otherwise fails wrapped with the service name |
| BaseHostServiceInstaller.UninstallService | Topshelf.Unix/Runtime/BaseHostServiceInstallerImpl.cs:43-63 | the command line is the same build as for install; exactly the non-null uninstall hooks are attached; the uninstall succeeds exactly when unregister, delete and the framework uninstall all do |
| LinuxSignalListener.New | Topshelf.Unix/Runtime/Linux/LinuxSignalListener.cs:17-21 | a new listener has no subscriptions and its stop event is clear |
| LinuxSignalListener.Subscribe | Topshelf.Unix/Runtime/Linux/LinuxSignalListener.cs:28-40 | the handler goes last in its signal's list, which is created as the last entry when missing; every other signal keeps its handlers |
| LinuxSignalListener.Handle | Topshelf.Unix/Runtime/Linux/LinuxSignalListener.cs:42-59 | every handler of the signal runs once, in subscription order, each on the state the earlier ones left; none is counted as swallowed exactly when none throws |
| LinuxSignalListener.UnsubscribedSignalDoesNothing | Topshelf.Unix/Runtime/Linux/LinuxSignalListener.cs:44-47 | a signal with no subscription dispatches to nobody and leaves the state alone |
| LinuxSignalListener.LoopBody | Topshelf.Unix/Runtime/Linux/LinuxSignalListener.cs:69-84 | a timeout does nothing; a woken signal is handled when set, and the loop breaks after SIGINT or SIGTERM |
| LinuxSignalListener.Listen | Topshelf.Unix/Runtime/Linux/LinuxSignalListener.cs:61-87 | only subscribed signals are dispatched, at most one per event; a termination exit names SIGINT or SIGTERM; a listener whose stop event is set does nothing |
| LinuxSignalListener.EndedLoopIgnoresLaterEvents | Topshelf.Unix/Runtime/Linux/LinuxSignalListener.cs:67-85 | once the loop has ended, later wait results change nothing |
| LinuxSignalListener.DisposeEndsLoop | Topshelf.Unix/Runtime/Linux/LinuxSignalListener.cs:67-92 | after `Dispose` the loop ends at its next check and dispatches nothing more |
| LinuxSignalListener.TimeoutDispatchesNothing | Topshelf.Unix/Runtime/Linux/LinuxSignalListener.cs:71 | a wait result outside the subscribed signals dispatches nothing and the loop goes back to its check |
| LinuxSignalListener.TerminationEndsLoop | Topshelf.Unix/Runtime/Linux/LinuxSignalListener.cs:73-83 | waking on SIGINT or SIGTERM ends the loop, after dispatch only if the signal is set |
| LinuxSignalListener.Dispose | Topshelf.Unix/Runtime/Linux/LinuxSignalListener.cs:89-92 | sets the stop event and keeps the subscriptions |
| LinuxSignalListener.DisposedListenerStops | Topshelf.Unix/Runtime/Linux/LinuxSignalListener.cs:67-92 | a disposed listener's loop ends at its first check and dispatches nothing |
| LinuxServiceHost.New | Topshelf.Unix/Runtime/Linux/LinuxServiceHost.cs:16-36 | null settings, then a null handle, are rejected; otherwise the stop signal is clear and SIGINT and SIGTERM are subscribed to set it |
| LinuxServiceHost.Stop | Topshelf.Unix/Runtime/Linux/LinuxServiceHost.cs:96-153 | the stop signal is set and nothing else changes |
| LinuxServiceHost.StopIsIdempotent | Topshelf.Unix/Runtime/Linux/LinuxServiceHost.cs:150-153 | setting the stop signal twice is setting it once |
| LinuxServiceHost.OtherControlsAreUnsupported | Topshelf.Unix/Runtime/Linux/LinuxServiceHost.cs:86-94 | `RequestAdditionalTime` and `Restart` always throw `NotSupportedException` |
| LinuxServiceHost.CatchUnhandledException | Topshelf.Unix/Runtime/Linux/LinuxServiceHost.cs:158-186 | a terminating exception sets the exit code to UnhandledServiceException and the stop signal; any other leaves the host as it was |
| LinuxServiceHost.WaitStep | Topshelf.Unix/Runtime/Linux/LinuxServiceHost.cs:145-186 | an event never changes the settings, handle, listener or disposal, and never clears a set stop signal; an unhandled exception, and nothing else, adds one `Fatal` entry |
| LinuxServiceHost.WaitStepRequest | Topshelf.Unix/Runtime/Linux/LinuxServiceHost.cs:96-168 | a stop request, a terminating fault or a set SIGINT/SIGTERM while listening sets the stop signal; only the fault changes the exit code, to UnhandledServiceException |
| LinuxServiceHost.WaitStepOther | Topshelf.Unix/Runtime/Linux/LinuxServiceHost.cs:158-186 | any other event leaves the signal and the exit code alone; a wait result naming a signal ends the listening loop |
| LinuxServiceHost.Wait | Topshelf.Unix/Runtime/Linux/LinuxServiceHost.cs:145-148 | waiting never changes the settings, handle, listener or disposal, and takes no event once the stop signal is set |
| LinuxServiceHost.WaitCharacterised | Topshelf.Unix/Runtime/Linux/LinuxServiceHost.cs:145-186 | the stop signal gets set exactly when some event requests it, and the exit code becomes UnhandledServiceException exactly when the first such event is a terminating fault |
| LinuxServiceHost.FirstRequestExists | Topshelf.Unix/Runtime/Linux/LinuxServiceHost.cs:145-153 | whenever some event sets the stop signal, one of them is the first to do so |
| LinuxServiceHost.UnhandledLog | Topshelf.Unix/Runtime/Linux/LinuxServiceHost.cs:158-160 | every entry is the unhandled-exception entry for the service; there are no more entries than events, one per event when all are exceptions, none when none are |
| LinuxServiceHost.WaitLogged | Topshelf.Unix/Runtime/Linux/LinuxServiceHost.cs:145-186 | while waiting, one `Fatal` entry is logged per unhandled exception, in order, up to and including the event that sets the stop signal; all events count when none sets it |
| LinuxServiceHost.StopLog | Topshelf.Unix/Runtime/Linux/LinuxServiceHost.cs:125-142 | stopping logs at most one `Fatal` entry, and logs one exactly when the stop callback does not return true |
| LinuxServiceHost.StartError | Topshelf.Unix/Runtime/Linux/LinuxServiceHost.cs:104-123 | a start that returns false or throws yields an error; a true start yields none |
| LinuxServiceHost.StopError | Topshelf.Unix/Runtime/Linux/LinuxServiceHost.cs:125-142 | a stop that returns false or throws yields an error that is only logged |
| LinuxServiceHost.Run | Topshelf.Unix/Runtime/Linux/LinuxServiceHost.cs:48-186 | the exit code starts as Ok; a failed start gives AbnormalExit and no stop call, and its error is logged as `Fatal` twice, by `StartService` and then by `Run`; after a good start, stop is called exactly once, only once the stop signal is set, and the `Fatal` entries are one per unhandled exception up to the stop, then the failed stop's, if any |
| LinuxServiceHost.StopFailureOnlyLogged | Topshelf.Unix/Runtime/Linux/LinuxServiceHost.cs:125-142 | how the stop callback ends never changes the exit code |
| LinuxServiceHost.StopBeforeRun | Topshelf.Unix/Runtime/Linux/LinuxServiceHost.cs:64-101 | after an earlier `Stop`, a run that starts well ignores every event and ends with Ok |
| LinuxServiceHost.Dispose | Topshelf.Unix/Runtime/Linux/LinuxServiceHost.cs:191-203 | the first call disposes the listener and releases the handle and stop signal; later calls do nothing |
| LinuxServiceHost.DisposeActsOnce | Topshelf.Unix/Runtime/Linux/LinuxServiceHost.cs:191-203 | a second `Dispose` releases nothing, and the listening loop of a disposed host ends at its next check |
| Text.Split | Topshelf.Unix/Runtime/Linux/LinuxProcess.cs:162 | there is at least one piece, none holds the separator, and joining the pieces with the separator gives back the input |
| Text.NonEmptyDropsLast | Topshelf.Unix/Runtime/Linux/LinuxProcess.cs:207 | pieces that are all non-empty, with an empty one after them, come back without it when empty pieces are dropped |
| Text.ReplaceCharIsEscape | Topshelf.Unix/Runtime/Linux/LinuxHostInstaller.cs:278 | replacing a character by itself behind a backslash is escaping it |
| Int32.TryParse | Topshelf.Unix/Runtime/Linux/LinuxProcess.cs:166 | a parsed value always lies in the 32-bit range |
| Int32.RefusesStray | Topshelf.Unix/Runtime/Linux/LinuxProcess.cs:79 | a string holding any character that is not a digit, number white space or a sign does not parse, so `/proc` entries such as `self` are skipped |
| Int32.ParsePaddedSigned | Topshelf.Unix/Runtime/Linux/LinuxProcess.cs:79 | the decimal spelling of a value in range, with white space around it and an optional `+` or `-` in front, parses to the value, negated after `-` |
| Int32.ParseDecimal | Topshelf.Unix/Runtime/Linux/LinuxProcess.cs:166 | the decimal spelling of a value in range parses back to it |

## Left out

- MonoHelper.FormatCommand: `string.Format` is modelled as replacing `{0}`, which is exact
  for the four fixed templates the code passes. Brace escapes (`{{`, `}}`), the
  `FormatException` for other placeholders or unbalanced braces, and the
  `ArgumentNullException` `ExecuteShellCommand` throws for a blank template are not modelled.
- Process spawning, `/proc` and file reading, `stat`, `chmod`, file writes and `update-rc.d`
  are not executed. Their results are parameters: a `Shell` function for
  `MonoHelper.ExecuteShellCommand`, a process table, a machine state with files and modes.
- `MonoHelper.RunningAsRoot` and `MonoHelper.RunningOnMono` are left out. They make a system
  call and a reflection lookup, and nothing in the model depends on them.
- The platform predicates take the platform id as a parameter instead of reading
  `Environment.OSVersion`.
- `NormalizeCommandLine` and `BuildServiceUser` take `Environment.CommandLine` and
  `Environment.UserName` as parameters.
- The script template `Resources.LinuxServiceScript` is a parameter. The entry assembly's
  directory and file name are inputs rather than `Path.GetDirectoryName`/`GetFileName` of its
  location.
- `Path.Combine` is modelled for an empty, a rooted and a relative second part. Its checks for
  invalid characters are not modelled.
- Resource strings are not modelled. Errors are datatype constructors naming their
  arguments, and stage names are fixed stand-in strings.
- Case-insensitive comparison (`OrdinalIgnoreCase`, `char.ToUpper`) folds ASCII letters
  only. There is no Unicode case table.
- Logging through `HostLogger`/`LogWriter` is modelled only in two places: the transaction
  engine records which events reach its log function, and `LinuxServiceHost` records each
  `Fatal` entry it writes, in order. Every other log call is left out, along with the text
  of the messages. No log call changes an outcome.
- `LinuxServiceHost`: an unhandled exception that arrives after the stop signal is set is
  outside the event sequence, so its `Fatal` entry is not modelled. Nor is the exception
  object that `CatchUnhandledException` logs.
- `base.Install`, `base.Uninstall` and the framework firing installer events come from
  System.Configuration.Install, which is not part of this model. Their outcomes are
  parameters, the hooks are recorded as attached handlers, and `Installers.AddRange` is not
  modelled.
- `Directory.SetCurrentDirectory` in `Run`, `InstallService` and `UninstallService` is left
  out: process-wide state with no effect on any outcome modelled here.
- Concurrency is replaced by one explicit sequence of events that the host consumes in order:
  wait results, stop requests, unhandled exceptions. This covers the listener task,
  `ManualResetEvent`/`AutoResetEvent`, `UnixSignal.WaitAny` and its 60-second timeout (a
  timeout is one kind of wait result). The listener's stop event is an `AutoResetEvent`, so
  in the code the loop that sees it also clears it, and a `Listen` after `Dispose` would run
  again. The model keeps the stop flag set once `Dispose` has set it, so a later `Listen`
  does nothing.
- The thread parked forever in `CatchUnhandledException` is not modelled: it only keeps the
  thread from returning.
- `Run` on a disposed host is not modelled.
- An unhandled exception that arrives before the start callback returns is not modelled.
  Events are consumed only while waiting for the stop signal.
- The unused members of `TopshelfExitCode` are not modelled. Only `Ok`, `AbnormalExit` and
  `UnhandledServiceException` are reachable here.
- `LinuxHostServiceInstallerImpl` only supplies `LinuxHostInstaller` as the installer. It is
  folded into `BaseHostServiceInstaller.InstallService` and `UninstallService`.
- The Windows runtime, the environment builders and the configurator extensions are not part
  of this model.
- LinuxHostInstaller.BuildServiceScript: its contract states only when it refuses. What the
  script holds is stated by ServiceNameLandsEscaped and LineEndsBecomeLf, for the service name
  and the line ends only.
- LinuxProcess.ParseProcessStatus: its contract states the shape of each field. The
  field-by-field reading of the split line is stated by FromFields for every line, and
  ParseStatLine states it for `stat` lines as the kernel writes them.
- Dafny integers are unbounded. The pid is range-checked as a 32-bit integer where it is
  parsed, and a `TimeSpan` is a whole number of ticks with no overflow.

## Findings

| source | as written | input that shows it | evidently intended | confidence | as-written member | corrected member |
|---|---|---|---|---|---|---|
| Topshelf.Unix/Runtime/Linux/LinuxServiceController.cs:59-78 | `Start(TimeSpan)` and `Stop(TimeSpan)` forward `timeout.Milliseconds`, the millisecond component (-999..999) of the span | `TimeSpan.FromSeconds(30)`: the command is waited on for 0 ms, so it counts as timed out and the call throws even when the service starts | forward the whole span, `(int)timeout.TotalMilliseconds` | not executed | LinuxServiceController.WholeSecondsAreDropped | LinuxServiceController.CorrectedForwardsWholeSpan |

=== FILE: base_host_service_installer.dfy ===
/** `BaseHostServiceInstallerImpl` with the Linux factory `LinuxHostServiceInstallerImpl`: the
    command line a service is registered with, the hooks attached to the installer, and the
    hand-over to `LinuxHostInstaller`. */
module BaseHostServiceInstaller {
  import opened Wrappers
  import opened Text
  import opened Errors
  import opened CommandLineGrammar
  import opened HostSettings
  import TopshelfHelper
  import ServiceStatus
  import LinuxProcess
  import LinuxHostInstaller
  import TransactionManager

  /** A settings string stored as a dictionary value: `null` stays `null`. */
  function Boxed(v: Option<string>): (r: Value)
    ensures r.Null? <==> v.None?
    ensures v.Some? ==> r == Str(v.value)
  {
    match v
    case None => Null
    case Some(x) => Str(x)
  }

  /** The three keys the installer always sets. */
  predicate Reserved(k: string) {
    k == "instance" || k == "displayname" || k == "servicename"
  }

  /** The dictionary behind the command line: a copy of the caller's (or a fresh empty one),
      with `instance`, `displayname` and `servicename` set from the settings. Both the caller's
      dictionary and the copy are `Dictionary` values with distinct keys; the copy compares
      keys ordinally. */
  function ReservedArguments(s: Settings, arguments: Option<Args>): (r: Args)
    requires arguments.Some? ==> DistinctKeys(Ordinal, arguments.value)
    ensures DistinctKeys(Ordinal, r)
    ensures Lookup(Ordinal, r, "instance") == Some(Boxed(s.instanceName))
    ensures Lookup(Ordinal, r, "displayname") == Some(Boxed(s.displayName))
    ensures Lookup(Ordinal, r, "servicename") == Some(Str(s.name))
    ensures forall k :: !Reserved(k) ==>
      Lookup(Ordinal, r, k) == (if arguments.None? then None else Lookup(Ordinal, arguments.value, k))
  {
    var d := if arguments.None? then [] else arguments.value;
    ReservedPuts(Ordinal, s, d);
    SetReserved(Ordinal, s, d)
  }

  /** The three indexer assignments of the reserved keys, in the order the installer makes
      them. */
  function SetReserved(cmp: Comparer, s: Settings, d: Args): Args {
    Put(cmp, Put(cmp, Put(cmp, d, "instance", Boxed(s.instanceName)), "displayname", Boxed(s.displayName)),
        "servicename", Str(s.name))
  }

  /** Setting the reserved keys keeps the keys distinct, stores each setting under its key and
      leaves every key that equals none of them as it was. */
  lemma ReservedPuts(cmp: Comparer, s: Settings, d: Args)
    requires DistinctKeys(cmp, d)
    ensures DistinctKeys(cmp, SetReserved(cmp, s, d))
    ensures Lookup(cmp, SetReserved(cmp, s, d), "instance") == Some(Boxed(s.instanceName))
    ensures Lookup(cmp, SetReserved(cmp, s, d), "displayname") == Some(Boxed(s.displayName))
    ensures Lookup(cmp, SetReserved(cmp, s, d), "servicename") == Some(Str(s.name))
    ensures forall k ::
      (!KeyEquals(cmp, k, "instance") && !KeyEquals(cmp, k, "displayname") && !KeyEquals(cmp, k, "servicename")) ==>
        Lookup(cmp, SetReserved(cmp, s, d), k) == Lookup(cmp, d, k)
  {
    ReservedKeysDiffer(cmp);
    var d1 := Put(cmp, d, "instance", Boxed(s.instanceName));
    var d2 := Put(cmp, d1, "displayname", Boxed(s.displayName));
    PutStores(cmp, d, "instance", Boxed(s.instanceName));
    PutStores(cmp, d1, "displayname", Boxed(s.displayName));
    PutStores(cmp, d2, "servicename", Str(s.name));
    PutKeepsOther(cmp, d1, "displayname", Boxed(s.displayName), "instance");
    PutKeepsOther(cmp, d2, "servicename", Str(s.name), "instance");
    PutKeepsOther(cmp, d2, "servicename", Str(s.name), "displayname");
    forall k | !KeyEquals(cmp, k, "instance") && !KeyEquals(cmp, k, "displayname") && !KeyEquals(cmp, k, "servicename")
      ensures Lookup(cmp, SetReserved(cmp, s, d), k) == Lookup(cmp, d, k)
    {
      PutKeepsOther(cmp, d, "instance", Boxed(s.instanceName), k);
      PutKeepsOther(cmp, d1, "displayname", Boxed(s.displayName), k);
      PutKeepsOther(cmp, d2, "servicename", Str(s.name), k);
    }
  }

  /** `Put` stores the value under its key and keeps the keys distinct. */
  lemma PutStores(cmp: Comparer, d: Args, k: string, v: Value)
    requires DistinctKeys(cmp, d)
    ensures DistinctKeys(cmp, Put(cmp, d, k, v)) && Lookup(cmp, Put(cmp, d, k, v), k) == Some(v)
  {
    PutIsMapUpdate(cmp, d, k, v);
  }

  /** `Put` leaves a key that differs from the one it sets as it was. */
  lemma PutKeepsOther(cmp: Comparer, d: Args, k: string, v: Value, other: string)
    requires DistinctKeys(cmp, d) && !KeyEquals(cmp, other, k)
    ensures Lookup(cmp, Put(cmp, d, k, v), other) == Lookup(cmp, d, other)
  {
    PutIsMapUpdate(cmp, d, k, v);
  }

  /** `BuildCommandLine(settings, arguments)`: the Topshelf serialization of the reserved
      arguments. For null or compatible arguments and quotable settings, the installed line read back
      after any program name gives the reserved dictionary's emitted entries. */
  function BuildCommandLine(s: Settings, arguments: Option<Args>): (r: string)
    requires arguments.Some? ==> DistinctKeys(Ordinal, arguments.value)
    ensures (arguments.None? || Compatible(arguments.value)) && Quotable(s) ==>
      forall program :: IsWord(program) ==> ParseCommandLine(program + r) == Emitted(ReservedArguments(s, arguments))
  {
    var reserved := ReservedArguments(s, arguments);
    var r := TopshelfHelper.BuildCommandLine(Some(reserved));
    assert (arguments.None? || Compatible(arguments.value)) && Quotable(s) ==>
      forall program :: IsWord(program) ==> ParseCommandLine(program + r) == Emitted(reserved) by {
      if (arguments.None? || Compatible(arguments.value)) && Quotable(s) {
        ReservedReadBack(s, arguments.GetOr([]));
        forall program | IsWord(program) ensures ParseCommandLine(program + r) == Emitted(reserved) {
          TopshelfHelper.RoundTrip(program, reserved);
        }
      }
    }
    r
  }

  /** No key of `d` equals `k` under `cmp`. */
  predicate FreshKey(cmp: Comparer, d: Args, k: string) {
    forall i :: 0 <= i < |d| ==> !KeyEquals(cmp, d[i].0, k)
  }

  /** Setting a key a dictionary does not hold appends it and keeps the keys distinct. */
  lemma PutFresh(cmp: Comparer, d: Args, k: string, v: Value)
    requires DistinctKeys(cmp, d) && FreshKey(cmp, d, k)
    ensures Put(cmp, d, k, v) == d + [(k, v)]
    ensures DistinctKeys(cmp, d + [(k, v)])
  {
    PutIsMapUpdate(cmp, d, k, v);
  }

  /** A key stays fresh after appending an entry whose key differs from it. */
  lemma FreshAfterAppend(cmp: Comparer, d: Args, k: string, v: Value, k2: string)
    requires FreshKey(cmp, d, k2) && !KeyEquals(cmp, k, k2)
    ensures FreshKey(cmp, d + [(k, v)], k2)
  {
    assert forall i :: 0 <= i < |d| ==> (d + [(k, v)])[i] == d[i];
  }

  /** The reserved keys differ from each other even ignoring case. */
  lemma ReservedKeysDiffer(cmp: Comparer)
    ensures !KeyEquals(cmp, "instance", "displayname") && !KeyEquals(cmp, "instance", "servicename")
    ensures !KeyEquals(cmp, "displayname", "servicename")
  {
    assert ToUpper("displayname"[0]) != ToUpper("servicename"[0]);
  }

  /** Appending the three reserved entries to a dictionary that holds none of their keys. */
  lemma AppendReserved(cmp: Comparer, s: Settings, d: Args)
    requires DistinctKeys(cmp, d)
    requires FreshKey(cmp, d, "instance") && FreshKey(cmp, d, "displayname") && FreshKey(cmp, d, "servicename")
    ensures SetReserved(cmp, s, d) == d + [("instance", Boxed(s.instanceName)), ("displayname", Boxed(s.displayName)), ("servicename", Str(s.name))]
    ensures DistinctKeys(cmp,
      d + [("instance", Boxed(s.instanceName)), ("displayname", Boxed(s.displayName)), ("servicename", Str(s.name))])
  {
    ReservedKeysDiffer(cmp);
    var a := d + [("instance", Boxed(s.instanceName))];
    var b := a + [("displayname", Boxed(s.displayName))];
    PutFresh(cmp, d, "instance", Boxed(s.instanceName));
    FreshAfterAppend(cmp, d, "instance", Boxed(s.instanceName), "displayname");
    FreshAfterAppend(cmp, d, "instance", Boxed(s.instanceName), "servicename");
    PutFresh(cmp, a, "displayname", Boxed(s.displayName));
    FreshAfterAppend(cmp, a, "displayname", Boxed(s.displayName), "servicename");
    PutFresh(cmp, b, "servicename", Str(s.name));
    assert b + [("servicename", Str(s.name))] ==
      d + [("instance", Boxed(s.instanceName)), ("displayname", Boxed(s.displayName)), ("servicename", Str(s.name))];
  }

  /** Without caller arguments the dictionary holds the three reserved entries in the order
      they are set. */
  lemma NoArgumentsGiveReservedOnly(s: Settings)
    ensures ReservedArguments(s, None) ==
      [("instance", Boxed(s.instanceName)), ("displayname", Boxed(s.displayName)), ("servicename", Str(s.name))]
  {
    AppendReserved(Ordinal, s, []);
    assert [] + [("instance", Boxed(s.instanceName)), ("displayname", Boxed(s.displayName)), ("servicename", Str(s.name))]
      == [("instance", Boxed(s.instanceName)), ("displayname", Boxed(s.displayName)), ("servicename", Str(s.name))];
  }

  /** A settings record with neither instance nor display name is installed as the bare verbs
      `instance` and `displayname` followed by the quoted service name, each token preceded by
      one space. */
  lemma PlainSettingsLine(s: Settings)
    requires s.instanceName.None? && s.displayName.None? && |s.name| > 0
    ensures BuildCommandLine(s, None) == Spaced(["instance", "displayname", "-servicename", "\"" + s.name + "\""])
  {
    NoArgumentsGiveReservedOnly(s);
    var d := ReservedArguments(s, None);
    var q := "\"" + s.name + "\"";
    assert d[1..][1..] == [("servicename", Str(s.name))];
    assert EmitTokens(d[1..][1..][1..]) == [];
    assert "-" + "servicename" == "-servicename";
    assert EmitTokens(d[1..][1..]) == ["-servicename", q];
    assert EmitTokens(d[1..]) == ["displayname", "-servicename", q];
  }

  /** Caller arguments whose keys differ from the reserved ones even ignoring case, and that
      would survive a round trip on their own. */
  predicate Compatible(d: Args) {
    && RoundTrippable(d)
    && FreshKey(OrdinalIgnoreCase, d, "instance") && FreshKey(OrdinalIgnoreCase, d, "displayname")
    && FreshKey(OrdinalIgnoreCase, d, "servicename")
  }

  /** Keys that differ ignoring case differ ordinally. */
  lemma OrdinalFromIgnoreCase(d: Args, k: string)
    requires FreshKey(OrdinalIgnoreCase, d, k)
    ensures FreshKey(Ordinal, d, k)
  {
    EqualsIgnoreCaseIsEquivalence();
  }

  /** Compatible caller arguments are kept in front of the three reserved entries. */
  lemma CompatibleArgumentsAppend(s: Settings, d: Args)
    requires Compatible(d)
    ensures DistinctKeys(Ordinal, d)
    ensures ReservedArguments(s, Some(d)) ==
      d + [("instance", Boxed(s.instanceName)), ("displayname", Boxed(s.displayName)), ("servicename", Str(s.name))]
  {
    assert DistinctKeys(Ordinal, d) by {
      EqualsIgnoreCaseIsEquivalence();
    }
    OrdinalFromIgnoreCase(d, "instance");
    OrdinalFromIgnoreCase(d, "displayname");
    OrdinalFromIgnoreCase(d, "servicename");
    AppendReserved(Ordinal, s, d);
  }

  /** Settings whose strings survive quoting. */
  predicate Quotable(s: Settings) {
    && '"' !in s.name
    && (s.instanceName.Some? ==> '"' !in s.instanceName.value)
    && (s.displayName.Some? ==> '"' !in s.displayName.value)
  }

  /** The name `TopshelfHelper.GetStatus` is asked for: the service name, joined to a non-empty
      instance name by `@`. */
  function StatusName(s: Settings): (r: string)
    ensures |s.name| <= |r|
    ensures r[..|s.name|] == s.name
  {
    if s.instanceName.Some? && |s.instanceName.value| > 0 then s.name + "@" + s.instanceName.value
    else s.name
  }

  /** The reserved entries, read back ignoring case from compatible arguments, hold the
      settings and keep the dictionary fit for a round trip. */
  lemma ReservedReadBack(s: Settings, d: Args)
    requires Compatible(d) && Quotable(s)
    ensures DistinctKeys(Ordinal, d)
    ensures RoundTrippable(ReservedArguments(s, Some(d)))
    ensures Lookup(OrdinalIgnoreCase, ReservedArguments(s, Some(d)), "servicename") == Some(Str(s.name))
    ensures Lookup(OrdinalIgnoreCase, ReservedArguments(s, Some(d)), "instance") == Some(Boxed(s.instanceName))
  {
    CompatibleArgumentsAppend(s, d);
    AppendReserved(OrdinalIgnoreCase, s, d);
    ReservedLookups(s, d);
    GoodEntriesAppend(s, d);
  }

  /** The appended reserved entries have good keys, and good values for quotable settings. */
  lemma GoodEntriesAppend(s: Settings, d: Args)
    requires forall i :: 0 <= i < |d| ==> GoodKey(d[i].0) && GoodValue(d[i].1)
    requires Quotable(s)
    ensures var c := d + [("instance", Boxed(s.instanceName)), ("displayname", Boxed(s.displayName)), ("servicename", Str(s.name))];
      forall i :: 0 <= i < |c| ==> GoodKey(c[i].0) && GoodValue(c[i].1)
  {
    var c := d + [("instance", Boxed(s.instanceName)), ("displayname", Boxed(s.displayName)), ("servicename", Str(s.name))];
    ReservedKeysAreGood();
    forall i | 0 <= i < |c| ensures GoodKey(c[i].0) && GoodValue(c[i].1) {
      if i < |d| {
        assert c[i] == d[i];
      }
    }
  }

  /** Looking up the appended reserved entries ignoring case. */
  lemma ReservedLookups(s: Settings, d: Args)
    requires DistinctKeys(OrdinalIgnoreCase, d)
    requires FreshKey(OrdinalIgnoreCase, d, "instance") && FreshKey(OrdinalIgnoreCase, d, "displayname")
    requires FreshKey(OrdinalIgnoreCase, d, "servicename")
    ensures var c := d + [("instance", Boxed(s.instanceName)), ("displayname", Boxed(s.displayName)), ("servicename", Str(s.name))];
      && Lookup(OrdinalIgnoreCase, c, "servicename") == Some(Str(s.name))
      && Lookup(OrdinalIgnoreCase, c, "instance") == Some(Boxed(s.instanceName))
  {
    ReservedPuts(OrdinalIgnoreCase, s, d);
    AppendReserved(OrdinalIgnoreCase, s, d);
  }

  lemma ReservedKeysAreGood()
    ensures GoodKey("instance") && GoodKey("displayname") && GoodKey("servicename")
  {
    assert HasNoWhiteSpace("instance") by {
      forall i | 0 <= i < 8 ensures !IsWhiteSpace("instance"[i]) { }
    }
    assert HasNoWhiteSpace("displayname") by {
      forall i | 0 <= i < 11 ensures !IsWhiteSpace("displayname"[i]) { }
    }
    assert HasNoWhiteSpace("servicename") by {
      forall i | 0 <= i < 11 ensures !IsWhiteSpace("servicename"[i]) { }
    }
  }

  /** A `mono` process started as the program followed by the installed command line is what
      `TopshelfHelper.GetStatus` reports as running the service: the command line written into
      the init script announces the service under its status name. */
  lemma InstalledCommandLineAnnouncesService(program: string, s: Settings, d: Args, id: int, state: LinuxProcess.ProcessState)
    requires IsWord(program)
    requires |s.name| > 0 && Quotable(s)
    requires Compatible(d)
    ensures DistinctKeys(Ordinal, d)
    ensures TopshelfHelper.GetStatus(StatusName(s),
      [LinuxProcess.ProcessRecord(id, Some("mono"), state, program + BuildCommandLine(s, Some(d)))]) == ServiceStatus.Running
  {
    CompatibleArgumentsAppend(s, d);
    ReservedReadBack(s, d);
    var r := ReservedArguments(s, Some(d));
    var line := program + BuildCommandLine(s, Some(d));
    assert line == program + Spaced(EmitTokens(r));
    if s.instanceName.Some? && |s.instanceName.value| > 0 {
      ServiceStatus.AnnouncesInstanceName(program, r, s.name, s.instanceName.value, '@');
    } else {
      ServiceStatus.AnnouncesServiceName(program, r, s.name, '@');
    }
    assert line[0] == program[0];
    EqualsIgnoreCaseIsEquivalence();
    assert ServiceStatus.RunsService(LinuxProcess.ProcessRecord(id, Some("mono"), state, line), StatusName(s), '@');
  }

  /** The framework events an installer raises. */
  datatype InstallEvent = BeforeInstall | AfterInstall | BeforeRollback | AfterRollback | BeforeUninstall | AfterUninstall

  /** An `Action<InstallEventArgs>` the caller passes: what it does when the event fires. */
  type Hook = InstallEvent -> Outcome

  /** The handler a non-null hook attaches, and none for a null one. */
  function Handler(e: InstallEvent, hook: Option<Hook>): (r: seq<InstallEvent>)
    ensures e in r <==> hook.Some?
    ensures forall e' :: e' in r ==> e' == e
  {
    if hook.Some? then [e] else []
  }

  /** The handlers `InstallService` attaches, in order. */
  function InstallHandlers(beforeInstall: Option<Hook>, afterInstall: Option<Hook>,
                           beforeRollback: Option<Hook>, afterRollback: Option<Hook>): (r: seq<InstallEvent>)
    ensures (BeforeInstall in r <==> beforeInstall.Some?) && (AfterInstall in r <==> afterInstall.Some?)
    ensures (BeforeRollback in r <==> beforeRollback.Some?) && (AfterRollback in r <==> afterRollback.Some?)
    ensures BeforeUninstall !in r && AfterUninstall !in r
  {
    Handler(BeforeInstall, beforeInstall) + Handler(AfterInstall, afterInstall)
    + Handler(BeforeRollback, beforeRollback) + Handler(AfterRollback, afterRollback)
  }

  /** The handlers `UninstallService` attaches, in order. */
  function UninstallHandlers(beforeUninstall: Option<Hook>, afterUninstall: Option<Hook>): (r: seq<InstallEvent>)
    ensures (BeforeUninstall in r <==> beforeUninstall.Some?) && (AfterUninstall in r <==> afterUninstall.Some?)
    ensures forall e :: e in r ==> e == BeforeUninstall || e == AfterUninstall
  {
    Handler(BeforeUninstall, beforeUninstall) + Handler(AfterUninstall, afterUninstall)
  }

  /** What an install or uninstall request did: the command line the installer was created
      with, the events a handler was attached to, and the installer's report. */
  datatype ServiceRun = ServiceRun(commandLine: string, attached: seq<InstallEvent>, report: TransactionManager.Report)

  /** `InstallService`: build the command line, create a `LinuxHostInstaller` with it and the
      framework's debug log, attach the non-null install and rollback hooks, and install. */
  function InstallService(m: LinuxHostInstaller.Machine, debug: TransactionManager.LogEvent -> Outcome,
                          s: Settings, arguments: Option<Args>,
                          beforeInstall: Option<Hook>, afterInstall: Option<Hook>,
                          beforeRollback: Option<Hook>, afterRollback: Option<Hook>,
                          baseInstall: Outcome): (r: ServiceRun)
    requires arguments.Some? ==> DistinctKeys(Ordinal, arguments.value)
    ensures r.commandLine == BuildCommandLine(s, arguments)
    ensures (BeforeInstall in r.attached <==> beforeInstall.Some?) && (AfterInstall in r.attached <==> afterInstall.Some?)
    ensures (BeforeRollback in r.attached <==> beforeRollback.Some?) && (AfterRollback in r.attached <==> afterRollback.Some?)
    ensures BeforeUninstall !in r.attached && AfterUninstall !in r.attached
    ensures r.report.outcome == Done <==>
      && baseInstall == Done && LinuxHostInstaller.CreateServiceFile(m, Some(r.commandLine), s) == Done
      && LinuxHostInstaller.SetServiceFileAsExecutable(m, s) == Done && LinuxHostInstaller.RegisterServiceFile(m, s) == Done
    ensures r.report.outcome.Threw? ==> r.report.outcome.error.InstallingServiceFailed?
  {
    var commandLine := BuildCommandLine(s, arguments);
    var attached := InstallHandlers(beforeInstall, afterInstall, beforeRollback, afterRollback);
    ServiceRun(commandLine, attached, LinuxHostInstaller.Install(m, Some(commandLine), Some(debug), s, baseInstall))
  }

  /** `UninstallService`: the same command line and installer, the non-null uninstall hooks,
      then uninstall. */
  function UninstallService(m: LinuxHostInstaller.Machine, debug: TransactionManager.LogEvent -> Outcome,
                            s: Settings, arguments: Option<Args>,
                            beforeUninstall: Option<Hook>, afterUninstall: Option<Hook>,
                            baseUninstall: Outcome): (r: ServiceRun)
    requires arguments.Some? ==> DistinctKeys(Ordinal, arguments.value)
    ensures r.commandLine == BuildCommandLine(s, arguments)
    ensures (BeforeUninstall in r.attached <==> beforeUninstall.Some?) && (AfterUninstall in r.attached <==> afterUninstall.Some?)
    ensures forall e :: e in r.attached ==> e == BeforeUninstall || e == AfterUninstall
    ensures r.report.outcome == Done <==>
      && LinuxHostInstaller.UnregisterServiceFile(m, s) == Done && LinuxHostInstaller.DeleteServiceFile(m, s) == Done
      && baseUninstall == Done
  {
    var commandLine := BuildCommandLine(s, arguments);
    var attached := UninstallHandlers(beforeUninstall, afterUninstall);
    ServiceRun(commandLine, attached, LinuxHostInstaller.Uninstall(m, Some(commandLine), Some(debug), s, baseUninstall))
  }
}

=== FILE: command_line_grammar.dfy ===
/** The command-line grammar shared by `TopshelfHelper` and `MonoHelper`: the tokenizer that
    the regular expression `("[^"]*")|([^\s]+)` implements, the ordered argument dictionary,
    the three-way token classifier, the parser and the per-entry serialization. */
module CommandLineGrammar {
  import opened Wrappers
  import opened Text

  /** A dictionary value: C# `null`, a `bool`, or any other object, seen through `ToString()`. */
  datatype Value = Null | Flag(b: bool) | Str(s: string)

  /** The key comparer a dictionary was created with. */
  datatype Comparer = Ordinal | OrdinalIgnoreCase

  predicate KeyEquals(cmp: Comparer, a: string, b: string) {
    match cmp
    case Ordinal => a == b
    case OrdinalIgnoreCase => EqualsIgnoreCase(a, b)
  }

  lemma KeyEqualsIsEquivalence(cmp: Comparer)
    ensures forall a :: KeyEquals(cmp, a, a)
    ensures forall a, b :: KeyEquals(cmp, a, b) ==> KeyEquals(cmp, b, a)
    ensures forall a, b, c :: KeyEquals(cmp, a, b) && KeyEquals(cmp, b, c) ==> KeyEquals(cmp, a, c)
  {
    EqualsIgnoreCaseIsEquivalence();
  }

  /** A `Dictionary<string, object>` in enumeration order. With no removals the framework
      enumerates in insertion order, and overwriting a key keeps the spelling it was first
      inserted with. */
  type Args = seq<(string, Value)>

  predicate DistinctKeys(cmp: Comparer, d: Args) {
    forall i, j :: 0 <= i < j < |d| ==> !KeyEquals(cmp, d[i].0, d[j].0)
  }

  predicate HasKey(cmp: Comparer, d: Args, k: string) {
    exists i :: 0 <= i < |d| && KeyEquals(cmp, d[i].0, k)
  }

  /** Position of the first entry whose key equals `k` under `cmp`. */
  function IndexOf(cmp: Comparer, d: Args, k: string): (r: Option<nat>)
    ensures r.None? <==> !HasKey(cmp, d, k)
    ensures r.Some? ==> r.value < |d| && KeyEquals(cmp, d[r.value].0, k)
    ensures r.Some? ==> forall i :: 0 <= i < r.value ==> !KeyEquals(cmp, d[i].0, k)
  {
    if |d| == 0 then None
    else if KeyEquals(cmp, d[0].0, k) then Some(0)
    else
      var r := IndexOf(cmp, d[1..], k);
      assert forall i :: 1 <= i < |d| ==> d[i] == d[1..][i - 1];
      if r.None? then None else Some(r.value + 1)
  }

  /** `TryGetValue`: the value stored under `k`, if any. */
  function Lookup(cmp: Comparer, d: Args, k: string): Option<Value> {
    match IndexOf(cmp, d, k)
    case Some(i) => Some(d[i].1)
    case None => None
  }

  /** The indexer assignment `d[k] = v`. */
  function Put(cmp: Comparer, d: Args, k: string, v: Value): Args {
    match IndexOf(cmp, d, k)
    case Some(i) => d[i := (d[i].0, v)]
    case None => d + [(k, v)]
  }

  /** Dictionaries whose keys agree on the shorter one's positions find a key the shorter
      one holds at the same position. */
  lemma IndexOfAgrees(cmp: Comparer, d: Args, r: Args, k: string)
    requires |d| <= |r|
    requires forall i :: 0 <= i < |d| ==> r[i].0 == d[i].0
    requires HasKey(cmp, d, k)
    ensures IndexOf(cmp, r, k) == IndexOf(cmp, d, k)
  {
    var a := IndexOf(cmp, d, k).value;
    assert r[a].0 == d[a].0;
    assert HasKey(cmp, r, k);
    var b := IndexOf(cmp, r, k).value;
    FirstMatchAgrees(x => KeyEquals(cmp, x, k), d, r, a, b);
  }

  /** Two dictionaries whose keys agree on the shorter one's positions have their first key
      matching `p` at the same place, when the shorter one has one. */
  lemma FirstMatchAgrees(p: string -> bool, d: Args, r: Args, a: nat, b: nat)
    requires a < |d| <= |r| && b < |r|
    requires forall i :: 0 <= i < |d| ==> r[i].0 == d[i].0
    requires p(d[a].0) && forall i :: 0 <= i < a ==> !p(d[i].0)
    requires p(r[b].0) && forall i :: 0 <= i < b ==> !p(r[i].0)
    ensures a == b
  {
    assert p(r[a].0);
    assert forall i :: 0 <= i < a ==> !p(r[i].0);
  }

  /** `Put` keeps a dictionary's keys distinct and behaves as a map update: the key now holds
      `v`, every other key keeps its value, and an absent key is added at the end. */
  lemma PutIsMapUpdate(cmp: Comparer, d: Args, k: string, v: Value)
    requires DistinctKeys(cmp, d)
    ensures DistinctKeys(cmp, Put(cmp, d, k, v))
    ensures Lookup(cmp, Put(cmp, d, k, v), k) == Some(v)
    ensures forall k' :: !KeyEquals(cmp, k', k) ==> Lookup(cmp, Put(cmp, d, k, v), k') == Lookup(cmp, d, k')
    ensures !HasKey(cmp, d, k) ==> Put(cmp, d, k, v) == d + [(k, v)]
    ensures HasKey(cmp, d, k) ==> |Put(cmp, d, k, v)| == |d|
  {
    PutShape(cmp, d, k, v);
    PutDistinct(cmp, d, k, v);
    PutFinds(cmp, d, k, v);
    forall k' | !KeyEquals(cmp, k', k)
      ensures Lookup(cmp, Put(cmp, d, k, v), k') == Lookup(cmp, d, k')
    {
      PutKeepsOthers(cmp, d, k, v, k');
    }
  }

  /** `Put` keeps every existing key where it was, and either keeps the length or appends. */
  lemma PutShape(cmp: Comparer, d: Args, k: string, v: Value)
    ensures |d| <= |Put(cmp, d, k, v)|
    ensures forall i :: 0 <= i < |d| ==> Put(cmp, d, k, v)[i].0 == d[i].0
    ensures !HasKey(cmp, d, k) ==> Put(cmp, d, k, v) == d + [(k, v)]
    ensures HasKey(cmp, d, k) ==> |Put(cmp, d, k, v)| == |d|
  {
  }

  lemma PutDistinct(cmp: Comparer, d: Args, k: string, v: Value)
    requires DistinctKeys(cmp, d)
    ensures DistinctKeys(cmp, Put(cmp, d, k, v))
  {
    PutShape(cmp, d, k, v);
    if !HasKey(cmp, d, k) {
      KeyEqualsIsEquivalence(cmp);
      var r := d + [(k, v)];
      forall i, j | 0 <= i < j < |r| ensures !KeyEquals(cmp, r[i].0, r[j].0) {
        assert r[i] == d[i];
      }
    }
  }

  /** After `Put`, looking up its key finds the new value. */
  lemma PutFinds(cmp: Comparer, d: Args, k: string, v: Value)
    ensures Lookup(cmp, Put(cmp, d, k, v), k) == Some(v)
  {
    PutShape(cmp, d, k, v);
    var r := Put(cmp, d, k, v);
    if HasKey(cmp, d, k) {
      IndexOfAgrees(cmp, d, r, k);
    } else {
      KeyEqualsIsEquivalence(cmp);
      assert KeyEquals(cmp, r[|d|].0, k);
      var b := IndexOf(cmp, r, k).value;
      FirstMatchAgrees(x => KeyEquals(cmp, x, k), r, r, |d|, b);
    }
  }

  /** After `Put`, a key that differs from its key finds what it found before. */
  lemma PutKeepsOthers(cmp: Comparer, d: Args, k: string, v: Value, k': string)
    requires !KeyEquals(cmp, k', k)
    ensures Lookup(cmp, Put(cmp, d, k, v), k') == Lookup(cmp, d, k')
  {
    PutShape(cmp, d, k, v);
    var r := Put(cmp, d, k, v);
    if HasKey(cmp, d, k') {
      IndexOfAgrees(cmp, d, r, k');
    } else if !HasKey(cmp, d, k) {
      KeyEqualsIsEquivalence(cmp);
      assert !KeyEquals(cmp, r[|d|].0, k');
      assert !HasKey(cmp, r, k');
    } else {
      assert !HasKey(cmp, r, k');
    }
  }

  // ---------------------------------------------------------------------------------------
  // Tokenizer

  /** Length of the longest prefix of `s` free of white space (`[^\s]+` is greedy). */
  function RunLength(s: string): (n: nat)
    ensures n <= |s|
    ensures forall i :: 0 <= i < n ==> !IsWhiteSpace(s[i])
    ensures n < |s| ==> IsWhiteSpace(s[n])
  {
    if |s| == 0 || IsWhiteSpace(s[0]) then 0
    else
      var n := RunLength(s[1..]);
      assert forall i :: 1 <= i < n + 1 ==> s[i] == s[1..][i - 1];
      n + 1
  }

  /** Position of the first double quote in `s`. */
  function QuoteIndex(s: string): (r: Option<nat>)
    ensures r.None? <==> '"' !in s
    ensures r.Some? ==> r.value < |s| && s[r.value] == '"' && '"' !in s[..r.value]
  {
    if |s| == 0 then None
    else if s[0] == '"' then Some(0)
    else
      var r := QuoteIndex(s[1..]);
      if r.None? then None
      else
        assert s[..r.value + 1] == [s[0]] + s[1..][..r.value];
        Some(r.value + 1)
  }

  /** A token made by the first alternative: a double-quoted run with no quote inside. */
  predicate IsQuoted(t: string) {
    |t| >= 2 && t[0] == '"' && t[|t| - 1] == '"' && '"' !in t[1..|t| - 1]
  }

  /** A token made by the second alternative when it does not start with a quote. */
  predicate IsWord(t: string) {
    |t| > 0 && HasNoWhiteSpace(t) && t[0] != '"'
  }

  /** `Regex.Matches(s, "(\"[^\"]*\")|([^\\s]+)")`: at each position a quoted run is taken
      when a closing quote exists, otherwise the maximal run of non-white-space; white space
      between matches is skipped. */
  function Tokenize(s: string): (r: seq<string>)
    ensures forall i :: 0 <= i < |r| ==> |r[i]| > 0
    ensures forall i :: 0 <= i < |r| ==> IsQuoted(r[i]) || HasNoWhiteSpace(r[i])
    decreases |s|
  {
    if |s| == 0 then []
    else if IsWhiteSpace(s[0]) then Tokenize(s[1..])
    else if s[0] == '"' && QuoteIndex(s[1..]).Some? then
      var j := QuoteIndex(s[1..]).value + 2;
      assert s[..j][1..j - 1] == s[1..][..j - 2];
      [s[..j]] + Tokenize(s[j..])
    else
      var n := RunLength(s);
      [s[..n]] + Tokenize(s[n..])
  }

  lemma TokenizeSkipsSpace(w: string, rest: string)
    requires |w| > 0 && IsWhiteSpace(w[0])
    ensures Tokenize(w[..1] + rest) == Tokenize(rest)
  {
    assert (w[..1] + rest)[1..] == rest;
  }

  /** A word followed by white space or the end is one token. */
  lemma TokenizeWord(w: string, rest: string)
    requires IsWord(w)
    requires |rest| == 0 || IsWhiteSpace(rest[0])
    ensures Tokenize(w + rest) == [w] + Tokenize(rest)
  {
    var s := w + rest;
    var n := RunLength(s);
    assert forall i :: 0 <= i < |w| ==> s[i] == w[i];
    assert forall i :: 0 <= i < |w| ==> !IsWhiteSpace(s[i]);
    assert n < |s| ==> IsWhiteSpace(s[n]);
    assert n >= |w|;
    assert |rest| > 0 ==> IsWhiteSpace(s[|w|]);
    assert n <= |w|;
    assert s[..n] == w && s[n..] == rest;
  }

  /** A quoted run is one token wherever it stands. */
  lemma TokenizeQuoted(q: string, rest: string)
    requires IsQuoted(q)
    ensures Tokenize(q + rest) == [q] + Tokenize(rest)
  {
    var s := q + rest;
    var c := q[1..|q| - 1];
    assert s[1..] == c + ['"'] + rest;
    assert s[1..][|c|] == '"';
    var qi := QuoteIndex(s[1..]).value;
    assert s[1..][..qi] == (c + ['"'])[..qi];
    assert qi >= |c| by {
      assert forall i :: 0 <= i < |c| ==> s[1..][i] == c[i] && c[i] != '"';
    }
    assert qi <= |c| by {
      assert forall i :: 0 <= i < qi ==> s[1..][..qi][i] != '"';
      assert forall i :: 0 <= i < qi ==> s[1..][i] != '"';
    }
    assert s[..|q|] == q && s[|q|..] == rest;
  }

  /** The token list separated by single spaces, each token preceded by one. */
  function Spaced(ts: seq<string>): string {
    if |ts| == 0 then "" else " " + ts[0] + Spaced(ts[1..])
  }

  predicate WellFormedToken(t: string) {
    IsWord(t) || IsQuoted(t)
  }

  /** Tokenizing space-separated well-formed tokens gives the tokens back. */
  lemma {:induction false} TokenizeSpaced(ts: seq<string>)
    requires forall i :: 0 <= i < |ts| ==> WellFormedToken(ts[i])
    ensures Tokenize(Spaced(ts)) == ts
  {
    if |ts| > 0 {
      var rest := Spaced(ts[1..]);
      TokenizeSpaced(ts[1..]);
      assert Spaced(ts) == " " + (ts[0] + rest);
      TokenizeSkipsSpace(" ", ts[0] + rest);
      if IsWord(ts[0]) {
        assert |rest| == 0 || rest[0] == ' ';
        TokenizeWord(ts[0], rest);
      } else {
        TokenizeQuoted(ts[0], rest);
      }
    }
  }

  // ---------------------------------------------------------------------------------------
  // Classifier and parser

  /** What a token means when it is not a parameter's value. */
  datatype ArgKind = ParamName(name: string) | SwitchOn(name: string) | Verb(word: string)

  /** `-x` (second character not `-`) names a parameter; `--x` (third character not `-`) is a
      switch; anything else is a verb. */
  function Classify(arg: string): (r: ArgKind)
    ensures r.ParamName? <==> |arg| >= 2 && arg[0] == '-' && arg[1] != '-'
    ensures r.SwitchOn? <==> |arg| >= 3 && arg[..2] == "--" && arg[2] != '-'
    ensures r.ParamName? ==> "-" + r.name == arg && |r.name| > 0
    ensures r.SwitchOn? ==> "--" + r.name == arg && |r.name| > 0
    ensures r.Verb? ==> r.word == arg
  {
    if |arg| >= 2 && arg[0] == '-' && arg[1] != '-' then ParamName(arg[1..])
    else if |arg| >= 3 && arg[0] == '-' && arg[1] == '-' && arg[2] != '-' then SwitchOn(arg[2..])
    else Verb(arg)
  }

  predicate IsQuote(c: char) { c == '"' }

  /** The loop over the tokens after the program path. `pending` holds the parameter name
      whose value comes next (the source's `paramName` while `isPramValue` is set). */
  function ParseArgs(args: seq<string>, d: Args, pending: Option<string>): (r: Args)
    requires DistinctKeys(OrdinalIgnoreCase, d)
    ensures DistinctKeys(OrdinalIgnoreCase, r)
    ensures |d| <= |r| && forall i :: 0 <= i < |d| ==> r[i].0 == d[i].0
    decreases |args|
  {
    if |args| == 0 then d
    else
      var arg := args[0];
      if pending.Some? then
        PutIsMapUpdate(OrdinalIgnoreCase, d, pending.value, Str(TrimBoth(arg, IsQuote)));
        ParseArgs(args[1..], Put(OrdinalIgnoreCase, d, pending.value, Str(TrimBoth(arg, IsQuote))), None)
      else
        match Classify(arg)
        case ParamName(n) => ParseArgs(args[1..], d, Some(n))
        case SwitchOn(n) =>
          PutIsMapUpdate(OrdinalIgnoreCase, d, n, Flag(true));
          ParseArgs(args[1..], Put(OrdinalIgnoreCase, d, n, Flag(true)), None)
        case Verb(w) =>
          PutIsMapUpdate(OrdinalIgnoreCase, d, w, Null);
          ParseArgs(args[1..], Put(OrdinalIgnoreCase, d, w, Null), None)
  }

  /** `ParseCommandLine` (identical in `TopshelfHelper` and `MonoHelper`): blank input gives
      an empty dictionary; otherwise the first token, the program path, is skipped and the
      rest are parsed into a dictionary whose keys compare ignoring case. A null command line
      behaves as the empty one. */
  function ParseCommandLine(commandLine: string): (r: Args)
    ensures IsBlank(commandLine) ==> r == []
    ensures DistinctKeys(OrdinalIgnoreCase, r)
  {
    if IsBlank(commandLine) then []
    else
      var tokens := Tokenize(commandLine);
      ParseArgs(if |tokens| == 0 then [] else tokens[1..], [], None)
  }

  /** The program path is discarded whatever it is: the dictionary depends only on the
      tokens after it. */
  lemma ParseSkipsProgram(program: string, rest: string)
    requires IsWord(program)
    requires |rest| == 0 || IsWhiteSpace(rest[0])
    ensures ParseCommandLine(program + rest) == ParseArgs(Tokenize(rest), [], None)
  {
    TokenizeWord(program, rest);
    assert (program + rest)[0] == program[0];
  }

  /** The token after a parameter name is its value, with quotes trimmed from both ends, even
      when it looks like a parameter name or a switch itself. */
  lemma ParameterTakesNextToken(name: string, value: string, rest: seq<string>, d: Args)
    requires DistinctKeys(OrdinalIgnoreCase, d)
    requires |name| > 0 && name[0] != '-'
    ensures ParseArgs(["-" + name, value] + rest, d, None)
      == ParseArgs(rest, Put(OrdinalIgnoreCase, d, name, Str(TrimBoth(value, IsQuote))), None)
  {
    var args := ["-" + name, value] + rest;
    assert args[1..] == [value] + rest && ([value] + rest)[1..] == rest;
    assert Classify("-" + name) == ParamName(name);
  }

  /** A parameter name with nothing after it adds no entry. */
  lemma TrailingParameterIgnored(name: string, d: Args)
    requires DistinctKeys(OrdinalIgnoreCase, d)
    requires |name| > 0 && name[0] != '-'
    ensures ParseArgs(["-" + name], d, None) == d
  {
    assert Classify("-" + name) == ParamName(name);
  }

  /** A later occurrence of a key overwrites the earlier one, the keys compared ignoring case;
      the entry keeps its first spelling and its place. */
  lemma LaterVerbOverwrites(d: Args, first: string, second: string, v: Value)
    requires DistinctKeys(OrdinalIgnoreCase, d)
    requires EqualsIgnoreCase(first, second)
    ensures var d1 := Put(OrdinalIgnoreCase, d, first, v);
      var d2 := Put(OrdinalIgnoreCase, d1, second, Null);
      && Lookup(OrdinalIgnoreCase, d2, first) == Some(Null)
      && |d2| == |d1|
  {
    PutIsMapUpdate(OrdinalIgnoreCase, d, first, v);
    var d1 := Put(OrdinalIgnoreCase, d, first, v);
    PutIsMapUpdate(OrdinalIgnoreCase, d1, second, Null);
    EqualsIgnoreCaseIsEquivalence();
    var d2 := Put(OrdinalIgnoreCase, d1, second, Null);
    assert IndexOf(OrdinalIgnoreCase, d2, first) == IndexOf(OrdinalIgnoreCase, d2, second) by {
      var b := IndexOf(OrdinalIgnoreCase, d2, second).value;
      assert KeyEquals(OrdinalIgnoreCase, d2[b].0, first);
      var a := IndexOf(OrdinalIgnoreCase, d2, first).value;
      assert KeyEquals(OrdinalIgnoreCase, d2[a].0, second);
      assert a <= b && b <= a;
    }
  }

  // ---------------------------------------------------------------------------------------
  // Serialization

  /** What one entry contributes to a built command line, separator space included: a verb's
      key, `--key` for a true switch, `-key "value"` for a non-empty value; nothing for a false
      switch or an empty value. */
  function Fragment(key: string, v: Value): string {
    match v
    case Null => key + " "
    case Flag(b) => if b then "--" + key + " " else ""
    case Str(s) => if |s| == 0 then "" else "-" + key + " \"" + s + "\" "
  }

  /** The `StringBuilder` contents after the loop over the entries. */
  function Fragments(d: Args): string {
    if |d| == 0 then "" else Fragment(d[0].0, d[0].1) + Fragments(d[1..])
  }

  /** An entry that the builders emit. */
  predicate Emits(v: Value) {
    v.Null? || v == Flag(true) || (v.Str? && |v.s| > 0)
  }

  /** The entries that survive a build: no false switches and no empty values. */
  function Emitted(d: Args): Args {
    if |d| == 0 then []
    else if Emits(d[0].1) then [d[0]] + Emitted(d[1..])
    else Emitted(d[1..])
  }

  /** The tokens one entry turns into. */
  function EntryTokens(key: string, v: Value): seq<string> {
    match v
    case Null => [key]
    case Flag(b) => if b then ["--" + key] else []
    case Str(s) => if |s| == 0 then [] else ["-" + key, "\"" + s + "\""]
  }

  function EmitTokens(d: Args): seq<string> {
    if |d| == 0 then [] else EntryTokens(d[0].0, d[0].1) + EmitTokens(d[1..])
  }

  /** Tokens each followed by one space. */
  function Trailing(ts: seq<string>): string {
    if |ts| == 0 then "" else ts[0] + " " + Trailing(ts[1..])
  }

  lemma {:induction false} TrailingAppend(a: seq<string>, b: seq<string>)
    ensures Trailing(a + b) == Trailing(a) + Trailing(b)
  {
    if |a| > 0 {
      TrailingAppend(a[1..], b);
      assert (a + b)[0] == a[0] && (a + b)[1..] == a[1..] + b;
      assert Trailing(a) == a[0] + " " + Trailing(a[1..]);
      calc {
        Trailing(a + b);
        a[0] + " " + Trailing(a[1..] + b);
        a[0] + " " + (Trailing(a[1..]) + Trailing(b));
        (a[0] + " " + Trailing(a[1..])) + Trailing(b);
      }
    } else {
      assert a + b == b;
    }
  }

  /** One entry's fragment is its tokens, each followed by a space. */
  lemma FragmentIsTrailingTokens(k: string, v: Value)
    ensures Fragment(k, v) == Trailing(EntryTokens(k, v))
  {
    match v
    case Null =>
      assert Trailing([k]) == k + " " + "";
    case Flag(b) =>
      if b {
        assert Trailing(["--" + k]) == "--" + k + " " + "";
      }
    case Str(s) =>
      if |s| > 0 {
        var ts := ["-" + k, "\"" + s + "\""];
        assert ts[1..] == ["\"" + s + "\""];
        assert Trailing(ts[1..]) == "\"" + s + "\"" + " " + "";
        assert Trailing(ts) == "-" + k + " " + ("\"" + s + "\"" + " ");
      }
  }

  lemma {:induction false} FragmentsAreTrailingTokens(d: Args)
    ensures Fragments(d) == Trailing(EmitTokens(d))
  {
    if |d| > 0 {
      FragmentsAreTrailingTokens(d[1..]);
      TrailingAppend(EntryTokens(d[0].0, d[0].1), EmitTokens(d[1..]));
      FragmentIsTrailingTokens(d[0].0, d[0].1);
    }
  }

  lemma {:induction false} LeadingSpaceShift(ts: seq<string>)
    ensures " " + Trailing(ts) == Spaced(ts) + " "
  {
    if |ts| > 0 {
      LeadingSpaceShift(ts[1..]);
      calc {
        " " + Trailing(ts);
        " " + ts[0] + (" " + Trailing(ts[1..]));
        " " + ts[0] + (Spaced(ts[1..]) + " ");
        (" " + ts[0] + Spaced(ts[1..])) + " ";
      }
    }
  }

  /** Nothing is emitted exactly when no entry survives. */
  lemma {:induction false} FragmentsEmpty(d: Args)
    ensures |Fragments(d)| == 0 <==> Emitted(d) == []
  {
    if |d| > 0 {
      FragmentsEmpty(d[1..]);
    }
  }

  /** A build only looks at the surviving entries. */
  lemma {:induction false} FragmentsOfEmitted(d: Args)
    ensures Fragments(Emitted(d)) == Fragments(d)
  {
    if |d| > 0 {
      FragmentsOfEmitted(d[1..]);
    }
  }

  /** Serialized keys: non-empty, no white space, not starting with `-` or `"`. */
  predicate GoodKey(k: string) {
    IsWord(k) && k[0] != '-'
  }

  /** Values that survive the quoting: no double quote inside. */
  predicate GoodValue(v: Value) {
    v.Str? ==> '"' !in v.s
  }

  predicate RoundTrippable(d: Args) {
    && DistinctKeys(OrdinalIgnoreCase, d)
    && (forall i :: 0 <= i < |d| ==> GoodKey(d[i].0) && GoodValue(d[i].1))
  }

  lemma TrimQuotesOfQuoted(s: string)
    requires '"' !in s
    ensures TrimBoth("\"" + s + "\"", IsQuote) == s
  {
    var q := "\"" + s + "\"";
    var t := TrimStart(q, IsQuote);
    if |s| > 0 {
      assert q[1..] == s + "\"";
      assert !IsQuote(q[1]);
      assert |t| >= |q| - 1;
      assert t == s + "\"";
      var r := TrimEnd(t, IsQuote);
      assert !IsQuote(t[|s| - 1]);
      assert |r| >= |s|;
      assert r == s;
    }
  }

  /** The emitted tokens of a good dictionary are well formed. */
  lemma {:induction false} EmitTokensWellFormed(d: Args)
    requires forall i :: 0 <= i < |d| ==> GoodKey(d[i].0) && GoodValue(d[i].1)
    ensures forall i :: 0 <= i < |EmitTokens(d)| ==> WellFormedToken(EmitTokens(d)[i])
  {
    if |d| > 0 {
      EmitTokensWellFormed(d[1..]);
      var k := d[0].0;
      assert IsWord("--" + k) && IsWord("-" + k);
      match d[0].1
      case Null =>
      case Flag(b) =>
      case Str(s) =>
        if |s| > 0 {
          var q := "\"" + s + "\"";
          assert q[1..|q| - 1] == s;
          assert IsQuoted(q);
        }
    }
  }

  /** A verb token adds its key with a null value. */
  lemma ParseVerbToken(k: string, rest: seq<string>, acc: Args)
    requires GoodKey(k)
    requires DistinctKeys(OrdinalIgnoreCase, acc)
    ensures ParseArgs([k] + rest, acc, None) == ParseArgs(rest, Put(OrdinalIgnoreCase, acc, k, Null), None)
  {
    assert Classify(k) == Verb(k);
    assert ([k] + rest)[1..] == rest;
  }

  /** A switch token adds its key with the value true. */
  lemma ParseSwitchToken(k: string, rest: seq<string>, acc: Args)
    requires GoodKey(k)
    requires DistinctKeys(OrdinalIgnoreCase, acc)
    ensures ParseArgs(["--" + k] + rest, acc, None) == ParseArgs(rest, Put(OrdinalIgnoreCase, acc, k, Flag(true)), None)
  {
    assert Classify("--" + k) == SwitchOn(k);
    assert (["--" + k] + rest)[1..] == rest;
  }

  /** Parsing one good entry's tokens appends that entry when it is emitted. */
  lemma ParseEntryTokens(k: string, v: Value, rest: seq<string>, acc: Args)
    requires GoodKey(k) && GoodValue(v)
    requires DistinctKeys(OrdinalIgnoreCase, acc)
    requires !HasKey(OrdinalIgnoreCase, acc, k)
    ensures Emits(v) ==> ParseArgs(EntryTokens(k, v) + rest, acc, None) == ParseArgs(rest, acc + [(k, v)], None)
    ensures !Emits(v) ==> ParseArgs(EntryTokens(k, v) + rest, acc, None) == ParseArgs(rest, acc, None)
  {
    PutIsMapUpdate(OrdinalIgnoreCase, acc, k, v);
    match v
    case Null =>
      ParseVerbToken(k, rest, acc);
    case Flag(b) =>
      if b {
        ParseSwitchToken(k, rest, acc);
      } else {
        assert EntryTokens(k, v) + rest == rest;
      }
    case Str(s) =>
      if |s| > 0 {
        assert EntryTokens(k, v) + rest == ["-" + k, "\"" + s + "\""] + rest;
        ParameterTakesNextToken(k, "\"" + s + "\"", rest, acc);
        TrimQuotesOfQuoted(s);
      } else {
        assert EntryTokens(k, v) + rest == rest;
      }
  }

  /** Keys of `acc` differ from every key of `d`, ignoring case. */
  predicate KeysApart(acc: Args, d: Args) {
    forall i, j :: 0 <= i < |acc| && 0 <= j < |d| ==> !EqualsIgnoreCase(acc[i].0, d[j].0)
  }

  lemma KeysApartStep(acc: Args, d: Args, emit: bool)
    requires |d| > 0
    requires DistinctKeys(OrdinalIgnoreCase, d)
    requires KeysApart(acc, d)
    ensures KeysApart(if emit then acc + [d[0]] else acc, d[1..])
    ensures RoundTrippable(d) ==> RoundTrippable(d[1..])
  {
    var acc' := if emit then acc + [d[0]] else acc;
    forall i, j | 0 <= i < |acc'| && 0 <= j < |d[1..]|
      ensures !EqualsIgnoreCase(acc'[i].0, d[1..][j].0)
    {
      assert d[1..][j] == d[j + 1];
      if i < |acc| {
        assert acc'[i] == acc[i];
      } else {
        assert acc'[i] == d[0];
      }
    }
    assert forall j :: 0 <= j < |d[1..]| ==> d[1..][j] == d[j + 1];
  }

  lemma SeqAssoc<T>(a: seq<T>, b: seq<T>, c: seq<T>)
    ensures (a + b) + c == a + (b + c)
  {
  }

  /** Parsing the emitted tokens after `acc` appends exactly the surviving entries. */
  lemma {:induction false} ParseEmitTokens(d: Args, acc: Args)
    requires RoundTrippable(d)
    requires DistinctKeys(OrdinalIgnoreCase, acc)
    requires KeysApart(acc, d)
    ensures ParseArgs(EmitTokens(d), acc, None) == acc + Emitted(d)
  {
    if |d| > 0 {
      var k := d[0].0;
      var v := d[0].1;
      var rest := EmitTokens(d[1..]);
      assert !HasKey(OrdinalIgnoreCase, acc, k);
      ParseEntryTokens(k, v, rest, acc);
      PutIsMapUpdate(OrdinalIgnoreCase, acc, k, v);
      var acc' := if Emits(v) then acc + [(k, v)] else acc;
      KeysApartStep(acc, d, Emits(v));
      ParseEmitTokens(d[1..], acc');
      assert EmitTokens(d) == EntryTokens(k, v) + rest;
      var e := Emitted(d[1..]);
      assert acc' + e == acc + Emitted(d) by {
        if Emits(v) {
          assert Emitted(d) == [(k, v)] + e;
          SeqAssoc(acc, [(k, v)], e);
        }
      }
    }
  }

  /** Round trip of a well-formed dictionary through the space-separated tokens. */
  lemma RoundTripTokens(program: string, d: Args)
    requires IsWord(program)
    requires RoundTrippable(d)
    ensures ParseCommandLine(program + Spaced(EmitTokens(d))) == Emitted(d)
  {
    var ts := EmitTokens(d);
    var rest := Spaced(ts);
    assert |rest| == 0 || rest[0] == ' ';
    ParseSkipsProgram(program, rest);
    EmitTokensWellFormed(d);
    TokenizeSpaced(ts);
    ParseEmitTokens(d, []);
  }

  /** Tokens each followed by a space are the tokens joined by single spaces, plus one. */
  lemma {:induction false} TrailingIsJoined(ts: seq<string>)
    requires |ts| > 0
    ensures Trailing(ts) == Join(ts, " ") + " "
  {
    if |ts| > 1 {
      TrailingIsJoined(ts[1..]);
    }
  }

  /** Tokens each preceded by a space are one space and the tokens joined by single spaces. */
  lemma {:induction false} SpacedIsJoined(ts: seq<string>)
    requires |ts| > 0
    ensures Spaced(ts) == " " + Join(ts, " ")
  {
    if |ts| > 1 {
      SpacedIsJoined(ts[1..]);
    }
  }

  /** No tokens are emitted exactly when no entry survives. */
  lemma EmitTokensEmpty(d: Args)
    ensures EmitTokens(d) == [] <==> Emitted(d) == []
  {
    FragmentsEmpty(d);
    FragmentsAreTrailingTokens(d);
    var ts := EmitTokens(d);
    if |ts| > 0 {
      assert |Trailing(ts)| > 0;
    }
  }

  /** White space alone holds no tokens. */
  lemma TokenizeBlank(s: string)
    requires IsBlank(s)
    ensures Tokenize(s) == []
  {
    if |s| > 0 {
      TokenizeSkipsSpace(s, s[1..]);
      assert s[..1] + s[1..] == s;
      TokenizeBlank(s[1..]);
    }
  }

  /** The entries a build omits contribute no tokens. */
  lemma {:induction false} EmitTokensOfEmitted(d: Args)
    ensures EmitTokens(Emitted(d)) == EmitTokens(d)
  {
    if |d| > 0 {
      EmitTokensOfEmitted(d[1..]);
      if Emits(d[0].1) {
        assert Emitted(d) == [d[0]] + Emitted(d[1..]);
      }
    }
  }
}

=== FILE: errors.dfy ===
/** The exceptions the runtime raises, one constructor per message it formats, and the
    outcome of a call that may throw. */
module Errors {
  import opened Wrappers

  datatype Error =
    /** An exception raised by code outside this model (file system, shell, framework, callbacks). */
    | Fault(source: string)
    | CantExecuteStage(stage: string, cause: Error)
    | CantRollbackStage(stage: string, cause: Error)
    /** The aggregate raised by a failed transaction: the stage's error, then the rollback errors. */
    | TransactionFailed(inner: seq<Error>)
    /** The aggregate raised by a standalone rollback. */
    | RollbackTransactionFailed(inner: seq<Error>)
    | InstallingServiceFailed(service: string, cause: Error)
    | UninstallingServiceFailed(service: string, cause: Error)
    /** The aggregate of the two uninstall errors. */
    | UninstallingAggregate(service: string, inner: seq<Error>)
    | InstallHostSettingsWereNotDefined
    | ServiceMustBeExecutableFile
    | CantRetrieveFileStatus(file: string)
    | CantSetFileAsExecutable(file: string)
    | CantRegisterServiceFile(file: string, output: Option<string>)
    | CantUnregisterServiceFile(file: string, output: Option<string>)
    | CantStartService(service: string, output: Option<string>)
    | CantStopService(service: string, output: Option<string>)
    | ServiceDidntStartSuccessfully(service: string)
    | ServiceDidntStopSuccessfully(service: string)
    | NotSupported
    | ArgumentNull(parameter: string)

  /** How a call that returns nothing ended: normally, or by throwing. */
  datatype Outcome = Done | Threw(error: Error)
}

=== FILE: host_settings.dfy ===
/** The parts of Topshelf's `HostSettings` and `InstallHostSettings` the Linux runtime reads. */
module HostSettings {
  import opened Wrappers

  /** What `InstallHostSettings` adds to `HostSettings`: the dependency names and the account
      to run as, each possibly null. */
  datatype InstallOptions = InstallOptions(dependencies: Option<seq<Option<string>>>, username: Option<string>)

  /** `HostSettings`: `Name`, `InstanceName`, `DisplayName`, `Description` and the combined
      `ServiceName` Topshelf derives from them; `install` is present when the settings are in
      fact `InstallHostSettings`. */
  datatype Settings = Settings(
    name: string,
    instanceName: Option<string>,
    displayName: Option<string>,
    description: Option<string>,
    serviceName: string,
    install: Option<InstallOptions>)
}

=== FILE: int32.dfy ===
/** `int.TryParse` with the default `NumberStyles.Integer`: optional white space around an
    optional sign and one or more ASCII digits, accepted only within the 32-bit range. */
module Int32 {
  import opened Wrappers
  import opened Text

  const MinValue: int := -0x8000_0000
  const MaxValue: int := 0x7FFF_FFFF

  predicate IsDigit(c: char) {
    '0' <= c <= '9'
  }

  predicate AllDigits(s: string) {
    forall i :: 0 <= i < |s| ==> IsDigit(s[i])
  }

  /** The white space `NumberStyles.AllowLeadingWhite`/`AllowTrailingWhite` accept. */
  predicate IsNumberWhite(c: char) {
    c == ' ' || ('\t' <= c <= '\r')
  }

  function DigitValue(c: char): nat
    requires IsDigit(c)
  {
    c as int - '0' as int
  }

  /** The value of a run of decimal digits, most significant first. */
  function DigitsValue(s: string): nat
    requires AllDigits(s)
  {
    if |s| == 0 then 0 else DigitsValue(s[..|s| - 1]) * 10 + DigitValue(s[|s| - 1])
  }

  /** `int.TryParse(s, out v)`: the value, or nothing (the caller then sees 0). */
  function TryParse(s: string): (r: Option<int>)
    ensures r.Some? ==> MinValue <= r.value <= MaxValue
  {
    ParseTrimmed(TrimBoth(s, IsNumberWhite))
  }

  /** The sign and digits left once the surrounding white space is gone. */
  function ParseTrimmed(t: string): (r: Option<int>)
    ensures r.Some? ==> MinValue <= r.value <= MaxValue
  {
    var negative := |t| > 0 && t[0] == '-';
    var digits := if |t| > 0 && (t[0] == '-' || t[0] == '+') then t[1..] else t;
    if |digits| == 0 || !AllDigits(digits) then None
    else
      var n: int := DigitsValue(digits);
      var v: int := if negative then -n else n;
      if MinValue <= v <= MaxValue then Some(v) else None
  }

  function DigitChar(d: nat): (c: char)
    requires d < 10
    ensures IsDigit(c) && DigitValue(c) == d
  {
    ('0' as int + d) as char
  }

  /** The decimal spelling of a natural number, as the kernel names `/proc` entries. */
  function ToDecimal(n: nat): (r: string)
    ensures |r| > 0 && AllDigits(r)
  {
    if n < 10 then [DigitChar(n)] else ToDecimal(n / 10) + [DigitChar(n % 10)]
  }

  lemma {:induction false} DigitsValueOfDecimal(n: nat)
    ensures DigitsValue(ToDecimal(n)) == n
  {
    if n >= 10 {
      DigitsValueOfDecimal(n / 10);
      var r := ToDecimal(n);
      assert r[..|r| - 1] == ToDecimal(n / 10);
    }
  }

  /** Parsing the decimal spelling of a value in range gives the value back. */
  lemma ParseDecimal(n: nat)
    requires n <= MaxValue
    ensures TryParse(ToDecimal(n)) == Some(n)
  {
    var s := ToDecimal(n);
    assert IsDigit(s[0]) && IsDigit(s[|s| - 1]);
    TrimStartStops(s, IsNumberWhite);
    TrimEndStops(s, IsNumberWhite);
    DigitsValueOfDecimal(n);
    ParseUnsigned(s, n);
  }

  /** A character that is neither a digit, number white space nor a sign makes the parse fail
      wherever it stands, so names such as `self` or `sys` are refused. */
  lemma RefusesStray(s: string, k: nat)
    requires k < |s| && !IsDigit(s[k]) && !IsNumberWhite(s[k]) && s[k] != '-' && s[k] != '+'
    ensures TryParse(s) == None
  {
    var t := TrimBoth(s, IsNumberWhite);
    var m := TrimBothKeepsAt(s, IsNumberWhite, k);
    TrimmedRefusesStray(t, m);
  }

  /** The half of `RefusesStray` after trimming. */
  lemma TrimmedRefusesStray(t: string, k: nat)
    requires k < |t| && !IsDigit(t[k]) && t[k] != '-' && t[k] != '+'
    ensures ParseTrimmed(t) == None
  {
    if t[0] == '-' || t[0] == '+' {
      assert t[1..][k - 1] == t[k];
    }
  }

  /** Number white space around the decimal spelling of a value in range, and an optional sign
      in front of it, are accepted: the value comes back, negated after a minus sign. */
  lemma ParsePaddedSigned(pre: string, sign: string, n: nat, post: string)
    requires forall i :: 0 <= i < |pre| ==> IsNumberWhite(pre[i])
    requires forall i :: 0 <= i < |post| ==> IsNumberWhite(post[i])
    requires sign == "" || sign == "+" || sign == "-"
    requires if sign == "-" then n <= -MinValue else n <= MaxValue
    ensures TryParse(pre + sign + ToDecimal(n) + post) == Some(if sign == "-" then -(n as int) else n as int)
  {
    var digits := ToDecimal(n);
    var core := sign + digits;
    assert IsDigit(digits[0]) && IsDigit(digits[|digits| - 1]);
    assert core[0] == if sign == "" then digits[0] else sign[0];
    assert core[|core| - 1] == digits[|digits| - 1];
    assert pre + sign + digits + post == pre + core + post;
    TrimBothPadded(pre, core, post);
    ParseSigned(sign, n);
  }

  /** An optional sign before the decimal spelling of a value in range. */
  lemma ParseSigned(sign: string, n: nat)
    requires sign == "" || sign == "+" || sign == "-"
    requires if sign == "-" then n <= -MinValue else n <= MaxValue
    ensures ParseTrimmed(sign + ToDecimal(n)) == Some(if sign == "-" then -(n as int) else n as int)
  {
    DigitsValueOfDecimal(n);
    if sign == "" {
      ParseUnsigned(ToDecimal(n), n);
      assert sign + ToDecimal(n) == ToDecimal(n);
    } else {
      ParseSignedDigits(sign, ToDecimal(n), n);
    }
  }

  /** A sign before digits in range: the digits' value, negated after a minus sign. */
  lemma ParseSignedDigits(sign: string, digits: string, n: nat)
    requires sign == "+" || sign == "-"
    requires |digits| > 0 && AllDigits(digits) && DigitsValue(digits) == n
    requires if sign == "-" then n <= -MinValue else n <= MaxValue
    ensures ParseTrimmed(sign + digits) == Some(if sign == "-" then -(n as int) else n as int)
  {
    var t := sign + digits;
    assert t[0] == sign[0];
    assert t[1..] == digits;
  }

  /** Trimming number white space off `pre + core + post` gives back `core` when `pre` and
      `post` are white space and `core` neither starts nor ends with it. */
  lemma TrimBothPadded(pre: string, core: string, post: string)
    requires forall i :: 0 <= i < |pre| ==> IsNumberWhite(pre[i])
    requires forall i :: 0 <= i < |post| ==> IsNumberWhite(post[i])
    requires |core| > 0 && !IsNumberWhite(core[0]) && !IsNumberWhite(core[|core| - 1])
    ensures TrimBoth(pre + core + post, IsNumberWhite) == core
  {
    assert pre + core + post == pre + (core + post);
    TrimStartPadded(pre, core + post);
    TrimStartStops(core + post, IsNumberWhite);
    TrimEndPadded(core, post);
    TrimEndStops(core, IsNumberWhite);
  }

  /** White space in front is trimmed off. */
  lemma {:induction false} TrimStartPadded(pre: string, rest: string)
    requires forall i :: 0 <= i < |pre| ==> IsNumberWhite(pre[i])
    ensures TrimStart(pre + rest, IsNumberWhite) == TrimStart(rest, IsNumberWhite)
    decreases |pre|
  {
    if |pre| > 0 {
      TrimStartStep(pre + rest, IsNumberWhite);
      assert (pre + rest)[1..] == pre[1..] + rest;
      TrimStartPadded(pre[1..], rest);
    } else {
      assert pre + rest == rest;
    }
  }

  /** White space behind is trimmed off. */
  lemma {:induction false} TrimEndPadded(rest: string, post: string)
    requires forall i :: 0 <= i < |post| ==> IsNumberWhite(post[i])
    ensures TrimEnd(rest + post, IsNumberWhite) == TrimEnd(rest, IsNumberWhite)
    decreases |post|
  {
    if |post| > 0 {
      var s := rest + post;
      assert s[|s| - 1] == post[|post| - 1];
      TrimEndStep(s, IsNumberWhite);
      assert s[..|s| - 1] == rest + post[..|post| - 1];
      TrimEndPadded(rest, post[..|post| - 1]);
    } else {
      assert rest + post == rest;
    }
  }

  /** Unsigned digits in range parse to their value. */
  lemma ParseUnsigned(s: string, n: nat)
    requires |s| > 0 && AllDigits(s) && DigitsValue(s) == n <= MaxValue
    ensures ParseTrimmed(s) == Some(n)
  {
    assert IsDigit(s[0]);
  }
}

=== FILE: linux_host_installer.dfy ===
/** `LinuxHostInstaller`: installs a service as an `/etc/init.d` script through a three-stage
    transaction (write the script, make it executable, register it with `update-rc.d`), and
    uninstalls it by rolling the same transaction back. The file system, `stat`/`chmod` and the
    shell are fields of a `Machine`; the script template, the entry assembly's location and the
    current user name are inputs too. */
module LinuxHostInstaller {
  import opened Wrappers
  import opened Text
  import opened Errors
  import opened HostSettings
  import MonoHelper
  import LinuxServiceController
  import TransactionManager

  /** Milliseconds `update-rc.d` may take. */
  const Timeout: int := 60 * 1000

  // ---------------------------------------------------------------------------------------
  // Descriptor fields

  /** `Path.Combine` on Unix: an empty second part gives the first, a rooted second part
      replaces the first, and otherwise one `/` joins them unless the first already ends in one. */
  function PathCombine(path1: string, path2: string): string {
    if |path2| == 0 then path1
    else if |path1| == 0 then path2
    else if path2[0] == '/' then path2
    else if path1[|path1| - 1] == '/' then path1 + path2
    else path1 + "/" + path2
  }

  /** `BuildServicePath`: the script's path under `/etc/init.d`. */
  function ServicePath(serviceName: string): (r: string)
    ensures |serviceName| > 0 && serviceName[0] != '/' ==> r == "/etc/init.d/" + serviceName
  {
    PathCombine("/etc/init.d", serviceName)
  }

  /** The file name `update-rc.d` is given is the service name itself, when that is a plain
      file name. */
  lemma ServiceFileName(serviceName: string)
    requires |serviceName| > 0 && '/' !in serviceName
    ensures LinuxServiceController.FileName(ServicePath(serviceName)) == serviceName
  {
    var path := ServicePath(serviceName);
    var r := LinuxServiceController.FileName(path);
    var n := |path|;
    assert path[n - |serviceName| - 1] == '/';
    assert r == path[n - |serviceName|..] == serviceName;
  }

  /** `BuildDisplayName`. */
  function BuildDisplayName(s: Settings): string {
    if IsNullOrBlank(s.displayName) then s.serviceName else s.displayName.value
  }

  /** `BuildDescription`. */
  function BuildDescription(s: Settings): string {
    if IsNullOrBlank(s.description) then BuildDisplayName(s) else s.description.value
  }

  /** The description falls back to the display name and that to the service name, so neither
      is blank while the service name is not. */
  lemma Fallbacks(s: Settings)
    ensures !IsBlank(s.serviceName) ==> !IsBlank(BuildDisplayName(s)) && !IsBlank(BuildDescription(s))
    ensures IsNullOrBlank(s.displayName) && IsNullOrBlank(s.description) ==> BuildDescription(s) == s.serviceName
    ensures !IsNullOrBlank(s.description) ==> BuildDescription(s) == s.description.value
    ensures IsNullOrBlank(s.description) && !IsNullOrBlank(s.displayName) ==> BuildDescription(s) == s.displayName.value
  {
  }

  /** The LSB facilities a service depends on when none are configured. */
  const DefaultDependencies: seq<string> := ["$local_fs", "$network", "$remote_fs", "$syslog"]

  /** The entries that are neither null nor blank, in order. */
  function NonBlank(entries: seq<Option<string>>): (r: seq<string>)
    ensures |r| <= |entries|
    ensures forall i :: 0 <= i < |r| ==> !IsBlank(r[i])
    ensures forall x :: x in r <==> Some(x) in entries && !IsBlank(x)
  {
    if |entries| == 0 then []
    else
      var rest := NonBlank(entries[1..]);
      assert forall x :: Some(x) in entries <==> entries[0] == Some(x) || Some(x) in entries[1..];
      if IsNullOrBlank(entries[0]) then rest else [entries[0].value] + rest
  }

  /** The filter keeps order and repeats: one more entry adds itself, if it is not blank, at
      the end. */
  lemma {:induction false} NonBlankAppend(entries: seq<Option<string>>, e: Option<string>)
    ensures NonBlank(entries + [e]) == NonBlank(entries) + (if IsNullOrBlank(e) then [] else [e.value])
    decreases |entries|
  {
    if |entries| == 0 {
      assert entries + [e] == [e];
      assert [e][1..] == [];
    } else {
      assert (entries + [e])[1..] == entries[1..] + [e];
      NonBlankAppend(entries[1..], e);
    }
  }

  /** `BuildDependencies`. Null and blank entries are dropped; when nothing is left, or the
      list was null or empty, the default facilities are used; the names are joined by spaces. */
  function BuildDependencies(dependencies: Option<seq<Option<string>>>): (r: string)
    ensures dependencies.None? || |NonBlank(dependencies.value)| == 0 ==> r == Join(DefaultDependencies, " ")
    ensures dependencies.Some? && |NonBlank(dependencies.value)| > 0 ==> r == Join(NonBlank(dependencies.value), " ")
  {
    var filtered: Option<seq<string>> :=
      match dependencies
      case None => None
      case Some(ds) => Some(if |ds| > 0 then NonBlank(ds) else []);
    var chosen := if filtered.None? || |filtered.value| == 0 then DefaultDependencies else filtered.value;
    Join(chosen, " ")
  }

  /** `BuildServiceUser`: the configured account without surrounding white space, or the
      current user's name when none is configured. */
  function BuildServiceUser(username: Option<string>, currentUser: string): (r: string)
    ensures IsNullOrBlank(username) ==> r == currentUser
    ensures !IsNullOrBlank(username) ==>
      && |r| > 0 && !IsWhiteSpace(r[0]) && !IsWhiteSpace(r[|r| - 1])
      && exists i, j :: TrimmedSlice(username.value, IsWhiteSpace, r, i, j)
  {
    if IsNullOrBlank(username) then currentUser
    else
      TrimBothIsSlice(username.value, IsWhiteSpace);
      var k :| 0 <= k < |username.value| && !IsWhiteSpace(username.value[k]);
      TrimBothKeeps(username.value, IsWhiteSpace, k);
      Trim(username.value)
  }

  /** `BuildServiceArguments`: the trimmed arguments with every double quote escaped by a
      backslash, so that they survive inside the script's double-quoted string. */
  function BuildServiceArguments(arguments: Option<string>): (r: string)
    ensures IsNullOrBlank(arguments) ==> r == ""
    ensures forall i :: 0 <= i < |r| && r[i] == '"' ==> i > 0 && r[i - 1] == '\\'
    ensures Unescape(r, '"') == if IsNullOrBlank(arguments) then "" else Trim(arguments.value)
  {
    var trimmed := if IsNullOrBlank(arguments) then "" else Trim(arguments.value);
    ReplaceCharIsEscape(trimmed, '"');
    UnescapeEscape(trimmed, '"');
    Replace(trimmed, "\"", "\\\"")
  }

  // ---------------------------------------------------------------------------------------
  // The init script

  /** Where the entry assembly lives: `Path.GetDirectoryName` and `Path.GetFileName` of its
      location. */
  datatype AssemblyLocation = AssemblyLocation(directory: string, fileName: string)

  predicate PatternsNonEmpty(substitutions: seq<(string, string)>) {
    forall j :: 0 <= j < |substitutions| ==> |substitutions[j].0| > 0
  }

  /** The chain of `StringBuilder.Replace` calls, in order. */
  function ReplaceAll(s: string, substitutions: seq<(string, string)>): string
    requires PatternsNonEmpty(substitutions)
    decreases |substitutions|
  {
    if |substitutions| == 0 then s
    else ReplaceAll(Replace(s, substitutions[0].0, substitutions[0].1), substitutions[1..])
  }

  /** The values the template's placeholders are replaced with. */
  datatype ScriptFields = ScriptFields(
    serviceName: string, dependencies: string, displayName: string, description: string,
    serviceDir: string, serviceExe: string, serviceArgs: string, serviceUser: string)

  function Fields(s: Settings, options: InstallOptions, assembly: AssemblyLocation,
                  arguments: Option<string>, currentUser: string): (f: ScriptFields)
    ensures f.serviceName == Replace(s.serviceName, "$", "\\$")
  {
    ScriptFields(Replace(s.serviceName, "$", "\\$"), BuildDependencies(options.dependencies),
                 BuildDisplayName(s), BuildDescription(s), assembly.directory, assembly.fileName,
                 BuildServiceArguments(arguments), BuildServiceUser(options.username, currentUser))
  }

  /** The placeholders of the script template and what replaces them, in the order they are
      replaced, ending with the conversion of CR-LF line ends to LF. */
  function Substitutions(f: ScriptFields): (r: seq<(string, string)>)
    ensures |r| == 10 && PatternsNonEmpty(r)
    ensures forall j :: 0 <= j < 9 ==> r[j].0[0] == '<'
    ensures r[0] == ("<ServiceName>", f.serviceName)
    ensures r[9] == ("\r\n", "\n")
  {
    [("<ServiceName>", f.serviceName),
     ("<Dependencies>", f.dependencies),
     ("<DisplayName>", f.displayName),
     ("<Description>", f.description),
     ("<ServiceDir>", f.serviceDir),
     ("<ServiceExe>", f.serviceExe),
     ("<ServiceArgs>", f.serviceArgs),
     ("<ServiceUser>", f.serviceUser),
     ("<ServicePidDir>", "/var/run"),
     ("\r\n", "\n")]
  }

  /** `BuildServiceScript`: refuses settings that are not install settings, then a process
      with no entry assembly, and otherwise fills in the template. */
  function BuildServiceScript(template: string, s: Settings, assembly: Option<AssemblyLocation>,
                              arguments: Option<string>, currentUser: string): (r: Result<string, Error>)
    ensures s.install.None? ==> r == Failure(InstallHostSettingsWereNotDefined)
    ensures s.install.Some? && assembly.None? ==> r == Failure(ServiceMustBeExecutableFile)
    ensures r.Success? <==> s.install.Some? && assembly.Some?
  {
    if s.install.None? then Failure(InstallHostSettingsWereNotDefined)
    else if assembly.None? then Failure(ServiceMustBeExecutableFile)
    else Success(ReplaceAll(template, Substitutions(Fields(s, s.install.value, assembly.value, arguments, currentUser))))
  }

  /** Replacements whose patterns start with characters the text lacks change nothing. */
  lemma {:induction false} ReplaceAllInert(s: string, substitutions: seq<(string, string)>)
    requires PatternsNonEmpty(substitutions)
    requires forall j :: 0 <= j < |substitutions| ==> substitutions[j].0[0] !in s
    ensures ReplaceAll(s, substitutions) == s
  {
    if |substitutions| > 0 {
      NoOccurrenceWithoutFirstChar(s, substitutions[0].0);
      ReplaceAbsent(s, substitutions[0].0, substitutions[0].1);
      ReplaceAllInert(s, substitutions[1..]);
    }
  }

  /** Escaping `c` brings in backslashes and nothing else. */
  lemma {:induction false} EscapeAvoids(s: string, c: char, x: char)
    requires x !in s && x != '\\'
    ensures x !in Escape(s, c)
  {
    if |s| > 0 {
      EscapeAvoids(s[1..], c, x);
    }
  }

  /** The service name lands where its placeholder is, with every `$` escaped for the shell,
      and the rest of a template free of other placeholders and CR characters is kept. */
  lemma ServiceNameLandsEscaped(head: string, tail: string, s: Settings, assembly: AssemblyLocation,
                                arguments: Option<string>, currentUser: string)
    requires s.install.Some?
    requires '<' !in head && '<' !in tail && '\r' !in head && '\r' !in tail
    requires '<' !in s.serviceName && '\r' !in s.serviceName
    ensures BuildServiceScript(head + "<ServiceName>" + tail, s, Some(assembly), arguments, currentUser)
         == Success(head + Escape(s.serviceName, '$') + tail)
  {
    var subs := Substitutions(Fields(s, s.install.value, assembly, arguments, currentUser));
    var name := Escape(s.serviceName, '$');
    ReplaceCharIsEscape(s.serviceName, '$');
    NoEarlyOccurrence(head, "<ServiceName>");
    ReplaceAfter(head, "<ServiceName>", tail, name);
    NoOccurrenceWithoutFirstChar(tail, "<ServiceName>");
    ReplaceAbsent(tail, "<ServiceName>", name);
    EscapeAvoids(s.serviceName, '$', '<');
    EscapeAvoids(s.serviceName, '$', '\r');
    var filled := head + name + tail;
    assert forall j :: 0 <= j < |subs[1..]| ==> subs[1..][j].0[0] !in filled by {
      forall j | 0 <= j < |subs[1..]| ensures subs[1..][j].0[0] !in filled {
        assert subs[1..][j] == subs[j + 1];
      }
    }
    ReplaceAllInert(filled, subs[1..]);
  }

  /** Lines each ended by CR-LF. */
  function CrLfLines(lines: seq<string>): string {
    if |lines| == 0 then "" else lines[0] + "\r\n" + CrLfLines(lines[1..])
  }

  /** Lines each ended by LF. */
  function LfLines(lines: seq<string>): string {
    if |lines| == 0 then "" else lines[0] + "\n" + LfLines(lines[1..])
  }

  lemma {:induction false} CrLfBecomesLf(lines: seq<string>)
    requires forall i :: 0 <= i < |lines| ==> '\r' !in lines[i]
    ensures Replace(CrLfLines(lines), "\r\n", "\n") == LfLines(lines)
  {
    if |lines| > 0 {
      NoEarlyOccurrence(lines[0], "\r\n");
      ReplaceAfter(lines[0], "\r\n", CrLfLines(lines[1..]), "\n");
      CrLfBecomesLf(lines[1..]);
    }
  }

  lemma {:induction false} CrLfLinesAvoid(lines: seq<string>, c: char)
    requires forall i :: 0 <= i < |lines| ==> c !in lines[i]
    requires c != '\r' && c != '\n'
    ensures c !in CrLfLines(lines)
  {
    if |lines| > 0 {
      CrLfLinesAvoid(lines[1..], c);
    }
  }

  /** A template without placeholders whose lines end in CR-LF comes out with LF line ends. */
  lemma LineEndsBecomeLf(lines: seq<string>, s: Settings, assembly: AssemblyLocation,
                         arguments: Option<string>, currentUser: string)
    requires s.install.Some?
    requires forall i :: 0 <= i < |lines| ==> '\r' !in lines[i] && '<' !in lines[i]
    ensures BuildServiceScript(CrLfLines(lines), s, Some(assembly), arguments, currentUser) == Success(LfLines(lines))
  {
    ChainOnLines(lines, Fields(s, s.install.value, assembly, arguments, currentUser));
  }

  lemma ChainOnLines(lines: seq<string>, f: ScriptFields)
    requires forall i :: 0 <= i < |lines| ==> '\r' !in lines[i] && '<' !in lines[i]
    ensures ReplaceAll(CrLfLines(lines), Substitutions(f)) == LfLines(lines)
  {
    var t := CrLfLines(lines);
    CrLfLinesAvoid(lines, '<');
    PlaceholdersInert(t, f);
    ReplaceAllSplit(t, Substitutions(f), 9);
    LastIsLineEnds(t, f);
    CrLfBecomesLf(lines);
  }

  /** The nine placeholder replacements leave a text without `<` unchanged. */
  lemma PlaceholdersInert(t: string, f: ScriptFields)
    requires '<' !in t
    ensures PatternsNonEmpty(Substitutions(f)[..9])
    ensures ReplaceAll(t, Substitutions(f)[..9]) == t
  {
    var subs := Substitutions(f);
    var first := subs[..9];
    forall j | 0 <= j < |first| ensures |first[j].0| > 0 && first[j].0[0] !in t {
      assert first[j] == subs[j];
    }
    ReplaceAllInert(t, first);
  }

  /** The last replacement turns CR-LF into LF. */
  lemma LastIsLineEnds(t: string, f: ScriptFields)
    ensures PatternsNonEmpty(Substitutions(f)[9..])
    ensures ReplaceAll(t, Substitutions(f)[9..]) == Replace(t, "\r\n", "\n")
  {
    var last := Substitutions(f)[9..];
    assert last == [("\r\n", "\n")];
    assert ReplaceAll(t, last) == ReplaceAll(Replace(t, "\r\n", "\n"), []);
  }

  /** Running a chain of replacements is running its first `k`, then the rest. */
  lemma {:induction false} ReplaceAllSplit(s: string, substitutions: seq<(string, string)>, k: nat)
    requires PatternsNonEmpty(substitutions) && k <= |substitutions|
    ensures ReplaceAll(s, substitutions) == ReplaceAll(ReplaceAll(s, substitutions[..k]), substitutions[k..])
    decreases k
  {
    if k > 0 {
      assert substitutions[..k][1..] == substitutions[1..][..k - 1];
      assert substitutions[k..] == substitutions[1..][k - 1..];
      ReplaceAllSplit(Replace(s, substitutions[0].0, substitutions[0].1), substitutions[1..], k - 1);
    }
  }

  // ---------------------------------------------------------------------------------------
  // Stages

  /** What the installer reads from and does to the machine. `deleteFile` stands for the
      `File.Exists` check and the `File.Delete`; `stat` yields `st_mode` when it succeeds;
      `chmod` reports whether it succeeded. */
  datatype Machine = Machine(
    template: string,
    entryAssembly: Option<AssemblyLocation>,
    currentUser: string,
    writeFile: (string, string) -> Outcome,
    deleteFile: string -> Outcome,
    stat: string -> Option<bv32>,
    chmod: (string, bv32) -> bool,
    shell: MonoHelper.Shell)

  /** The mode `chmod +x` sets: the old one with the three execute bits added. */
  function WithExecuteBits(mode: bv32): (r: bv32)
    ensures LinuxServiceController.IsExecutable(r)
    ensures r & mode == mode
  {
    LinuxServiceController.ChmodMakesExecutable(mode);
    mode | LinuxServiceController.S_IXUSR | LinuxServiceController.S_IXGRP | LinuxServiceController.S_IXOTH
  }

  /** `CreateServiceFile`: writes the filled-in template to the script's path. */
  function CreateServiceFile(m: Machine, arguments: Option<string>, s: Settings): (r: Outcome)
    ensures s.install.None? ==> r == Threw(InstallHostSettingsWereNotDefined)
    ensures s.install.Some? && m.entryAssembly.None? ==> r == Threw(ServiceMustBeExecutableFile)
  {
    match BuildServiceScript(m.template, s, m.entryAssembly, arguments, m.currentUser)
    case Failure(e) => Threw(e)
    case Success(script) => m.writeFile(ServicePath(s.serviceName), script)
  }

  /** `DeleteServiceFile`: removes the script under `/etc/init.d` named after the service, the
      same file `CreateServiceFile` writes. */
  function DeleteServiceFile(m: Machine, s: Settings): (r: Outcome)
    ensures |s.serviceName| > 0 && s.serviceName[0] != '/' ==> r == m.deleteFile("/etc/init.d/" + s.serviceName)
  {
    m.deleteFile(ServicePath(s.serviceName))
  }

  /** Deleting the script consults the machine about the service's path and nothing else. */
  lemma DeleteTargetsServicePath(m: Machine, s: Settings, deleteFile: string -> Outcome)
    requires deleteFile(ServicePath(s.serviceName)) == m.deleteFile(ServicePath(s.serviceName))
    ensures DeleteServiceFile(m.(deleteFile := deleteFile), s) == DeleteServiceFile(m, s)
  {
  }

  /** `SetServiceFileAsExecutable`: after it succeeds the script carries an execute bit, so
      `LinuxServiceController.GetServices` lists it. */
  function SetServiceFileAsExecutable(m: Machine, s: Settings): (r: Outcome)
    ensures var path := ServicePath(s.serviceName);
      && (m.stat(path).None? ==> r == Threw(CantRetrieveFileStatus(path)))
      && (m.stat(path).Some? && !m.chmod(path, WithExecuteBits(m.stat(path).value)) ==> r == Threw(CantSetFileAsExecutable(path)))
      && (r == Done ==> m.stat(path).Some? && m.chmod(path, WithExecuteBits(m.stat(path).value))
                        && LinuxServiceController.Listed(LinuxServiceController.InitScript(path, Some(WithExecuteBits(m.stat(path).value)))))
  {
    var path := ServicePath(s.serviceName);
    match m.stat(path)
    case None => Threw(CantRetrieveFileStatus(path))
    case Some(mode) =>
      if !m.chmod(path, WithExecuteBits(mode)) then Threw(CantSetFileAsExecutable(path)) else Done
  }

  function RegisterCommand(s: Settings): MonoHelper.ShellCommand {
    MonoHelper.FormatCommand("update-rc.d {0} defaults", LinuxServiceController.FileName(ServicePath(s.serviceName)), Timeout)
  }

  function UnregisterCommand(s: Settings): MonoHelper.ShellCommand {
    MonoHelper.FormatCommand("update-rc.d -f {0} remove", LinuxServiceController.FileName(ServicePath(s.serviceName)), Timeout)
  }

  /** The shell runs `update-rc.d <name> defaults` and `update-rc.d -f <name> remove` for a
      service whose name is a plain file name, waiting a minute. */
  lemma RegistrationCommands(s: Settings)
    requires |s.serviceName| > 0 && '/' !in s.serviceName
    ensures RegisterCommand(s) == MonoHelper.ShellCommand("update-rc.d " + s.serviceName + " defaults", 60000)
    ensures UnregisterCommand(s) == MonoHelper.ShellCommand("update-rc.d -f " + s.serviceName + " remove", 60000)
  {
    ServiceFileName(s.serviceName);
    RegisterFormat(s.serviceName);
    UnregisterFormat(s.serviceName);
  }

  lemma RegisterFormat(name: string)
    ensures MonoHelper.FormatCommand("update-rc.d {0} defaults", name, Timeout)
         == MonoHelper.ShellCommand("update-rc.d " + name + " defaults", 60000)
  {
    assert "update-rc.d {0} defaults" == "update-rc.d " + "{0}" + " defaults";
    Splice("update-rc.d ", " defaults", name);
  }

  lemma UnregisterFormat(name: string)
    ensures MonoHelper.FormatCommand("update-rc.d -f {0} remove", name, Timeout)
         == MonoHelper.ShellCommand("update-rc.d -f " + name + " remove", 60000)
  {
    assert "update-rc.d -f {0} remove" == "update-rc.d -f " + "{0}" + " remove";
    Splice("update-rc.d -f ", " remove", name);
  }

  /** A placeholder between a head and a tail that hold no `{` and do not start or end with white
      space is replaced by the argument. */
  lemma Splice(head: string, tail: string, name: string)
    requires '{' !in head && '{' !in tail
    requires |head| > 0 && !IsWhiteSpace(head[0])
    requires |tail| > 0 && !IsWhiteSpace(tail[|tail| - 1])
    ensures MonoHelper.FormatCommand(head + "{0}" + tail, name, Timeout) == MonoHelper.ShellCommand(head + name + tail, Timeout)
  {
    NoOccurrenceWithoutFirstChar(tail, "{0}");
    NoEarlyOccurrence(head, "{0}");
    MonoHelper.FormatSplice(head, tail, name, Timeout);
  }

  /** `RegisterServiceFile`: throws unless `update-rc.d` exited with code 0. */
  function RegisterServiceFile(m: Machine, s: Settings): (r: Outcome)
    ensures r == Done <==> m.shell(RegisterCommand(s)).exitCode == Some(0)
    ensures r.Threw? ==> r.error == CantRegisterServiceFile(LinuxServiceController.FileName(ServicePath(s.serviceName)),
                                                            LinuxServiceController.ReportedOutput(m.shell(RegisterCommand(s))))
  {
    var result := m.shell(RegisterCommand(s));
    if result.exitCode != Some(0)
    then Threw(CantRegisterServiceFile(LinuxServiceController.FileName(ServicePath(s.serviceName)), LinuxServiceController.ReportedOutput(result)))
    else Done
  }

  /** `UnregisterServiceFile`: throws unless `update-rc.d` exited with code 0. */
  function UnregisterServiceFile(m: Machine, s: Settings): (r: Outcome)
    ensures r == Done <==> m.shell(UnregisterCommand(s)).exitCode == Some(0)
    ensures r.Threw? ==> r.error == CantUnregisterServiceFile(LinuxServiceController.FileName(ServicePath(s.serviceName)),
                                                              LinuxServiceController.ReportedOutput(m.shell(UnregisterCommand(s))))
  {
    var result := m.shell(UnregisterCommand(s));
    if result.exitCode != Some(0)
    then Threw(CantUnregisterServiceFile(LinuxServiceController.FileName(ServicePath(s.serviceName)), LinuxServiceController.ReportedOutput(result)))
    else Done
  }

  // ---------------------------------------------------------------------------------------
  // The transaction

  /** Stage names (resource strings). */
  const CreateServiceFileStage: string := "CreateServiceFileStage"
  const SetServiceFileAsExecutableStage: string := "SetServiceFileAsExecutableStage"
  const RegisterServiceFileStage: string := "RegisterServiceFileStage"

  /** The constructor's transaction: create the script (undone by deleting it), make it
      executable (nothing to undo), register it (undone by unregistering it). */
  function InstallTransaction(m: Machine, arguments: Option<string>, log: Option<TransactionManager.LogEvent -> Outcome>): (t: TransactionManager.Manager<Settings>)
    ensures t.log == log && |t.stages| == 3
    ensures t.stages[0].name == CreateServiceFileStage && t.stages[0].execute.Some? && t.stages[0].rollback.Some?
    ensures t.stages[1].name == SetServiceFileAsExecutableStage && t.stages[1].execute.Some? && t.stages[1].rollback.None?
    ensures t.stages[2].name == RegisterServiceFileStage && t.stages[2].execute.Some? && t.stages[2].rollback.Some?
    ensures t.stages == InstallStages(m, arguments)
  {
    var t0 := TransactionManager.New(log);
    var t1 := TransactionManager.Stage(t0, CreateServiceFileStage,
      Some((s: Settings) => CreateServiceFile(m, arguments, s)), Some((s: Settings) => DeleteServiceFile(m, s)));
    var t2 := TransactionManager.Stage(t1, SetServiceFileAsExecutableStage,
      Some((s: Settings) => SetServiceFileAsExecutable(m, s)), None);
    TransactionManager.Stage(t2, RegisterServiceFileStage,
      Some((s: Settings) => RegisterServiceFile(m, s)), Some((s: Settings) => UnregisterServiceFile(m, s)))
  }

  /** The stages, as the constructor declares them. */
  function InstallStages(m: Machine, arguments: Option<string>): seq<TransactionManager.StageInfo<Settings>> {
    [TransactionManager.StageInfo(CreateServiceFileStage,
       Some((s: Settings) => CreateServiceFile(m, arguments, s)), Some((s: Settings) => DeleteServiceFile(m, s))),
     TransactionManager.StageInfo(SetServiceFileAsExecutableStage,
       Some((s: Settings) => SetServiceFileAsExecutable(m, s)), None),
     TransactionManager.StageInfo(RegisterServiceFileStage,
       Some((s: Settings) => RegisterServiceFile(m, s)), Some((s: Settings) => UnregisterServiceFile(m, s)))]
  }

  /** How a stage whose action ended with `o` ends when executed. */
  function Executed(stage: string, o: Outcome): Outcome {
    if o.Threw? then Threw(CantExecuteStage(stage, o.error)) else Done
  }

  /** How a stage whose compensating action ended with `o` ends when rolled back. */
  function RolledBack(stage: string, o: Outcome): Outcome {
    if o.Threw? then Threw(CantRollbackStage(stage, o.error)) else Done
  }

  /** The error a rollback adds to an aggregate, if any. */
  function RollbackError(stage: string, o: Outcome): seq<Error> {
    if o.Threw? then [CantRollbackStage(stage, o.error)] else []
  }

  /** What running each stage of the install transaction does. */
  lemma StageBehaviour(m: Machine, arguments: Option<string>, log: Option<TransactionManager.LogEvent -> Outcome>, s: Settings)
    ensures var t := InstallTransaction(m, arguments, log);
      && TransactionManager.StageExecute(t.stages[0], s) == Executed(CreateServiceFileStage, CreateServiceFile(m, arguments, s))
      && TransactionManager.StageExecute(t.stages[1], s) == Executed(SetServiceFileAsExecutableStage, SetServiceFileAsExecutable(m, s))
      && TransactionManager.StageExecute(t.stages[2], s) == Executed(RegisterServiceFileStage, RegisterServiceFile(m, s))
      && TransactionManager.StageRollback(t.stages[0], s) == RolledBack(CreateServiceFileStage, DeleteServiceFile(m, s))
      && TransactionManager.StageRollback(t.stages[1], s) == Done
      && TransactionManager.StageRollback(t.stages[2], s) == RolledBack(RegisterServiceFileStage, UnregisterServiceFile(m, s))
  {
    CreateStage(m, arguments, s);
    ChmodStage(m, arguments, s);
    RegisterStage(m, arguments, s);
  }

  lemma CreateStage(m: Machine, arguments: Option<string>, s: Settings)
    ensures TransactionManager.StageExecute(InstallStages(m, arguments)[0], s) == Executed(CreateServiceFileStage, CreateServiceFile(m, arguments, s))
    ensures TransactionManager.StageRollback(InstallStages(m, arguments)[0], s) == RolledBack(CreateServiceFileStage, DeleteServiceFile(m, s))
  {
    var stage := InstallStages(m, arguments)[0];
    assert stage.execute.value(s) == CreateServiceFile(m, arguments, s);
    assert stage.rollback.value(s) == DeleteServiceFile(m, s);
  }

  lemma ChmodStage(m: Machine, arguments: Option<string>, s: Settings)
    ensures TransactionManager.StageExecute(InstallStages(m, arguments)[1], s) == Executed(SetServiceFileAsExecutableStage, SetServiceFileAsExecutable(m, s))
    ensures TransactionManager.StageRollback(InstallStages(m, arguments)[1], s) == Done
  {
    var stage := InstallStages(m, arguments)[1];
    assert stage.execute.value(s) == SetServiceFileAsExecutable(m, s);
  }

  lemma RegisterStage(m: Machine, arguments: Option<string>, s: Settings)
    ensures TransactionManager.StageExecute(InstallStages(m, arguments)[2], s) == Executed(RegisterServiceFileStage, RegisterServiceFile(m, s))
    ensures TransactionManager.StageRollback(InstallStages(m, arguments)[2], s) == RolledBack(RegisterServiceFileStage, UnregisterServiceFile(m, s))
  {
    var register := (s: Settings) => RegisterServiceFile(m, s);
    var unregister := (s: Settings) => UnregisterServiceFile(m, s);
    assert InstallStages(m, arguments)[2] == TransactionManager.StageInfo(RegisterServiceFileStage, Some(register), Some(unregister));
    TransactionManager.PresentActions(RegisterServiceFileStage, register, unregister, s);
  }

  /** `Install`. The framework's own installers run first (`baseInstall`), then the
      transaction; any failure is rethrown wrapped with the service name. */
  function Install(m: Machine, arguments: Option<string>, log: Option<TransactionManager.LogEvent -> Outcome>,
                   s: Settings, baseInstall: Outcome): (r: TransactionManager.Report)
    ensures r.outcome == Done <==>
      && baseInstall == Done && CreateServiceFile(m, arguments, s) == Done
      && SetServiceFileAsExecutable(m, s) == Done && RegisterServiceFile(m, s) == Done
    ensures r.outcome.Threw? ==> r.outcome.error.InstallingServiceFailed? && r.outcome.error.service == s.serviceName
    ensures baseInstall.Threw? ==> r.calls == [] && r.outcome == Threw(InstallingServiceFailed(s.serviceName, baseInstall.error))
  {
    if baseInstall.Threw? then TransactionManager.Report([], [], Threw(InstallingServiceFailed(s.serviceName, baseInstall.error)))
    else
      TransactionSucceeds(m, arguments, log, s);
      InstallRun(TransactionManager.Execute(InstallTransaction(m, arguments, log), s), s.serviceName)
  }

  /** The install transaction runs through exactly when each of its three actions does. */
  lemma TransactionSucceeds(m: Machine, arguments: Option<string>, log: Option<TransactionManager.LogEvent -> Outcome>, s: Settings)
    ensures TransactionManager.Execute(InstallTransaction(m, arguments, log), s).outcome == Done <==>
      CreateServiceFile(m, arguments, s) == Done && SetServiceFileAsExecutable(m, s) == Done && RegisterServiceFile(m, s) == Done
  {
    StageBehaviour(m, arguments, log, s);
    TransactionManager.ExecuteOfThree(InstallTransaction(m, arguments, log), s);
  }

  /** The report of an install whose transaction ran: its failure rethrown wrapped. */
  function InstallRun(run: TransactionManager.Report, serviceName: string): (r: TransactionManager.Report)
    ensures r.calls == run.calls
    ensures r.outcome == Done <==> run.outcome == Done
    ensures run.outcome.Threw? ==> r.outcome == Threw(InstallingServiceFailed(serviceName, run.outcome.error))
  {
    match run.outcome
    case Done => run
    case Threw(e) => TransactionManager.Report(run.calls, run.logged, Threw(InstallingServiceFailed(serviceName, e)))
  }

  /** When `chmod` fails, the script is deleted and nothing is registered. */
  lemma ChmodFailureDeletesScript(m: Machine, arguments: Option<string>, log: Option<TransactionManager.LogEvent -> Outcome>,
                                  s: Settings)
    requires CreateServiceFile(m, arguments, s) == Done
    requires SetServiceFileAsExecutable(m, s).Threw?
    ensures var r := Install(m, arguments, log, s, Done);
      && r.calls == [TransactionManager.Executed(0), TransactionManager.Executed(1),
                     TransactionManager.RolledBack(1), TransactionManager.RolledBack(0)]
      && r.outcome == Threw(InstallingServiceFailed(s.serviceName, TransactionFailed(
           [CantExecuteStage(SetServiceFileAsExecutableStage, SetServiceFileAsExecutable(m, s).error)]
           + RollbackError(CreateServiceFileStage, DeleteServiceFile(m, s)))))
  {
    var t := InstallTransaction(m, arguments, log);
    ChmodStage(m, arguments, s);
    StageErrors(m, arguments, s);
    TransactionManager.SecondOfThreeFails(t, s);
    InstallRunsTransaction(m, arguments, log, s);
    var x := CantExecuteStage(SetServiceFileAsExecutableStage, SetServiceFileAsExecutable(m, s).error);
    assert TransactionManager.StageExecute(t.stages[1], s).error == x;
    DropEmpty([x], RollbackError(CreateServiceFileStage, DeleteServiceFile(m, s)));
  }

  /** Without a failure of the framework's installers, `Install` reports the transaction's run. */
  lemma InstallRunsTransaction(m: Machine, arguments: Option<string>, log: Option<TransactionManager.LogEvent -> Outcome>, s: Settings)
    ensures Install(m, arguments, log, s, Done) == InstallRun(TransactionManager.Execute(InstallTransaction(m, arguments, log), s), s.serviceName)
  {
  }

  /** The errors the stages' rollbacks add to an aggregate. */
  lemma StageErrors(m: Machine, arguments: Option<string>, s: Settings)
    ensures TransactionManager.RollbackErrors(InstallStages(m, arguments)[0], s) == RollbackError(CreateServiceFileStage, DeleteServiceFile(m, s))
    ensures TransactionManager.RollbackErrors(InstallStages(m, arguments)[1], s) == []
    ensures TransactionManager.RollbackErrors(InstallStages(m, arguments)[2], s) == RollbackError(RegisterServiceFileStage, UnregisterServiceFile(m, s))
  {
    CreateStage(m, arguments, s);
    ChmodStage(m, arguments, s);
    RegisterStage(m, arguments, s);
  }

  /** When registration fails, the service is unregistered, then the script deleted. */
  lemma RegisterFailureUnregistersThenDeletes(m: Machine, arguments: Option<string>, log: Option<TransactionManager.LogEvent -> Outcome>,
                                              s: Settings)
    requires CreateServiceFile(m, arguments, s) == Done
    requires SetServiceFileAsExecutable(m, s) == Done
    requires RegisterServiceFile(m, s).Threw?
    ensures var r := Install(m, arguments, log, s, Done);
      && r.calls == [TransactionManager.Executed(0), TransactionManager.Executed(1), TransactionManager.Executed(2),
                     TransactionManager.RolledBack(2), TransactionManager.RolledBack(1), TransactionManager.RolledBack(0)]
      && r.outcome == Threw(InstallingServiceFailed(s.serviceName, TransactionFailed(
           [CantExecuteStage(RegisterServiceFileStage, RegisterServiceFile(m, s).error)]
           + RollbackError(RegisterServiceFileStage, UnregisterServiceFile(m, s))
           + RollbackError(CreateServiceFileStage, DeleteServiceFile(m, s)))))
  {
    var t := InstallTransaction(m, arguments, log);
    StageBehaviour(m, arguments, log, s);
    StageErrors(m, arguments, s);
    TransactionManager.ThirdOfThreeFails(t, s);
    InstallRunsTransaction(m, arguments, log, s);
    DropEmpty([CantExecuteStage(RegisterServiceFileStage, RegisterServiceFile(m, s).error)]
              + RollbackError(RegisterServiceFileStage, UnregisterServiceFile(m, s)),
              RollbackError(CreateServiceFileStage, DeleteServiceFile(m, s)));
  }

  lemma DropEmpty(a: seq<Error>, b: seq<Error>)
    ensures a + [] + b == a + b
  {
  }

  /** `Uninstall`. The whole transaction is rolled back (unregister, then delete) and the
      framework's uninstall (`baseUninstall`) runs whatever the rollback did; one error is
      rethrown wrapped, two are wrapped as one aggregate. */
  function Uninstall(m: Machine, arguments: Option<string>, log: Option<TransactionManager.LogEvent -> Outcome>,
                     s: Settings, baseUninstall: Outcome): (r: TransactionManager.Report)
    ensures r.calls == [TransactionManager.RolledBack(2), TransactionManager.RolledBack(1), TransactionManager.RolledBack(0)]
    ensures r.outcome == Done <==> UnregisterServiceFile(m, s) == Done && DeleteServiceFile(m, s) == Done && baseUninstall == Done
    ensures UnregisterServiceFile(m, s) == Done && DeleteServiceFile(m, s) == Done && baseUninstall.Threw? ==>
      r.outcome == Threw(UninstallingServiceFailed(s.serviceName, baseUninstall.error))
    ensures (UnregisterServiceFile(m, s).Threw? || DeleteServiceFile(m, s).Threw?) && baseUninstall == Done ==>
      r.outcome.Threw? && r.outcome.error.UninstallingServiceFailed? && r.outcome.error.cause.RollbackTransactionFailed?
    ensures (UnregisterServiceFile(m, s).Threw? || DeleteServiceFile(m, s).Threw?) && baseUninstall.Threw? ==>
      && r.outcome.Threw? && r.outcome.error.UninstallingServiceFailed? && r.outcome.error.cause.UninstallingAggregate?
      && |r.outcome.error.cause.inner| == 2 && r.outcome.error.cause.inner[0].RollbackTransactionFailed?
      && r.outcome.error.cause.inner[1] == baseUninstall.error
  {
    var t := InstallTransaction(m, arguments, log);
    StageBehaviour(m, arguments, log, s);
    TransactionManager.RollbackOfThree(t, s);
    var rollback := TransactionManager.Rollback(t, s);
    TransactionManager.Report(rollback.calls, rollback.logged, UninstallOutcome(s.serviceName, rollback.outcome, baseUninstall))
  }

  /** The error counting of `Uninstall`: none is success, one is wrapped, two are aggregated
      first and then wrapped. */
  function UninstallOutcome(serviceName: string, rollback: Outcome, baseUninstall: Outcome): (r: Outcome)
    ensures r == Done <==> rollback == Done && baseUninstall == Done
    ensures rollback == Done && baseUninstall.Threw? ==> r == Threw(UninstallingServiceFailed(serviceName, baseUninstall.error))
    ensures rollback.Threw? && baseUninstall == Done ==> r == Threw(UninstallingServiceFailed(serviceName, rollback.error))
    ensures rollback.Threw? && baseUninstall.Threw? ==>
      r == Threw(UninstallingServiceFailed(serviceName, UninstallingAggregate(serviceName, [rollback.error, baseUninstall.error])))
  {
    var errors := (if rollback.Threw? then [rollback.error] else [])
                  + (if baseUninstall.Threw? then [baseUninstall.error] else []);
    assert rollback.Threw? && baseUninstall.Threw? ==> errors == [rollback.error, baseUninstall.error];
    if |errors| > 1 then Threw(UninstallingServiceFailed(serviceName, UninstallingAggregate(serviceName, errors)))
    else if |errors| == 1 then Threw(UninstallingServiceFailed(serviceName, errors[0]))
    else Done
  }
}

=== FILE: linux_process.dfy ===
/** `LinuxProcess`: what the runtime learns about a process from `/proc/<pid>/stat` and
    `/proc/<pid>/cmdline`, and the enumeration of `/proc`. Reading the files is left to the caller:
    each operation takes the text a read produced, or `None` where the file was missing or the
    read threw. */
module LinuxProcess {
  import opened Wrappers
  import opened Text
  import Int32

  /** `LinuxProcessState`, in declaration order. */
  datatype ProcessState = Unknown | Running | InterruptableWait | UninterruptableDiskWait | Zombie | Traced | Paging

  /** `LinuxProcessStatus`. A name of `None` is the null the default value carries. */
  datatype ProcessStatus = ProcessStatus(id: int, name: Option<string>, state: ProcessState)

  /** `default(LinuxProcessStatus)`, which is what a missing or unreadable file yields. */
  const DefaultStatus := ProcessStatus(0, None, Unknown)

  /** The letter `ps` shows for each known state: an independent table of the codes. */
  function StateLetter(s: ProcessState): char {
    match s
    case Unknown => '?'
    case Running => 'R'
    case InterruptableWait => 'S'
    case UninterruptableDiskWait => 'D'
    case Zombie => 'Z'
    case Traced => 'T'
    case Paging => 'W'
  }

  /** The state named by the first letter of the third field, case-insensitively. */
  function StateOf(c: char): (s: ProcessState)
    ensures s != Unknown <==> ToUpper(c) in "RSDZTW"
    ensures s != Unknown ==> StateLetter(s) == ToUpper(c)
  {
    match ToUpper(c)
    case 'R' => Running
    case 'S' => InterruptableWait
    case 'D' => UninterruptableDiskWait
    case 'Z' => Zombie
    case 'T' => Traced
    case 'W' => Paging
    case _ => Unknown
  }

  /** Each known state is read back from its letter, in either case. */
  lemma StateLetterRoundTrip(s: ProcessState)
    requires s != Unknown
    ensures StateOf(StateLetter(s)) == s
    ensures StateOf((StateLetter(s) as int + 32) as char) == s
  {
  }

  predicate IsOpenParen(c: char) {
    c == '('
  }

  predicate IsCloseParen(c: char) {
    c == ')'
  }

  /** Parses a `stat` line split on single spaces: the pid, the name with its parentheses
      trimmed off, and the state letter. Fields that are missing keep their default. */
  function ParseProcessStatus(statusText: string): (r: ProcessStatus)
    ensures |statusText| == 0 ==> r == DefaultStatus
    ensures r.name.None? <==> ' ' !in statusText
    ensures r.name.None? ==> r.state == Unknown
    ensures r.name.Some? ==> ' ' !in r.name.value
    ensures r.name.Some? && |r.name.value| > 0 ==>
              !IsOpenParen(r.name.value[0]) && !IsCloseParen(r.name.value[|r.name.value| - 1])
    ensures Int32.MinValue <= r.id <= Int32.MaxValue
  {
    if |statusText| == 0 then DefaultStatus
    else
      SplitFields(statusText, ' ');
      FromFields(Split(statusText, ' '))
  }

  /** The status read from the fields of a `stat` line. */
  function FromFields(items: seq<string>): (r: ProcessStatus)
    requires |items| >= 1
    ensures r.name.None? <==> |items| == 1
    ensures r.name.None? ==> r.state == Unknown
    ensures r.name.Some? ==> r.name.value == NameField(items[1])
    ensures |items| < 3 || |items[2]| == 0 ==> r.state == Unknown
    ensures |items| >= 3 && |items[2]| > 0 ==> r.state == StateOf(items[2][0])
    ensures r.id == IdField(items[0])
    ensures Int32.MinValue <= r.id <= Int32.MaxValue
  {
    var id := IdField(items[0]);
    if |items| > 1 then
      var state := if |items| > 2 && |items[2]| > 0 then StateOf(items[2][0]) else Unknown;
      ProcessStatus(id, Some(NameField(items[1])), state)
    else
      ProcessStatus(id, None, Unknown)
  }

  /** A process name holding a space splits into two fields: for `42 (Web Content) S 1` the
      name keeps only its first word, and the state is read from the letter after the space,
      here `C`, which names no state. */
  lemma NameWithSpaceShiftsFields(pid: string)
    ensures FromFields([pid, "(Web", "Content)", "S", "1"]).name == Some("Web")
    ensures FromFields([pid, "(Web", "Content)", "S", "1"]).state == Unknown
  {
    var items := [pid, "(Web", "Content)", "S", "1"];
    assert items[1][1..] == "Web";
    assert TrimStart("Web", IsOpenParen) == "Web";
    assert TrimStart(items[1], IsOpenParen) == "Web";
    assert TrimEnd("Web", IsCloseParen) == "Web";
    assert items[2][0] == 'C';
  }

  /** The first field: the pid when it parses as a 32-bit integer, 0 otherwise. */
  function IdField(field: string): (id: int)
    ensures Int32.MinValue <= id <= Int32.MaxValue
    ensures Int32.TryParse(field).Some? ==> id == Int32.TryParse(field).value
    ensures Int32.TryParse(field).None? ==> id == 0
  {
    Int32.TryParse(field).GetOr(0)
  }

  /** The second field with its parentheses trimmed off. */
  function NameField(field: string): (name: string)
    ensures ' ' !in field ==> ' ' !in name
    ensures |name| > 0 ==> !IsOpenParen(name[0]) && !IsCloseParen(name[|name| - 1])
  {
    NameTrim(field);
    TrimEnd(TrimStart(field, IsOpenParen), IsCloseParen)
  }

  lemma NameTrim(field: string)
    ensures var name := TrimEnd(TrimStart(field, IsOpenParen), IsCloseParen);
      && (' ' !in field ==> ' ' !in name)
      && (|name| > 0 ==> !IsOpenParen(name[0]) && !IsCloseParen(name[|name| - 1]))
  {
    var t := TrimStart(field, IsOpenParen);
    NameOfField(field, t, TrimEnd(t, IsCloseParen));
  }

  /** The name field with its parentheses trimmed: a slice of the field, so free of spaces
      when the field is, and neither starting with `(` nor ending with `)`. */
  lemma NameOfField(field: string, t: string, name: string)
    requires |t| <= |field| && t == field[|field| - |t|..]
    requires |t| > 0 ==> !IsOpenParen(t[0])
    requires |name| <= |t| && name == t[..|name|]
    requires |name| > 0 ==> !IsCloseParen(name[|name| - 1])
    ensures ' ' !in field ==> ' ' !in name
    ensures |name| > 0 ==> !IsOpenParen(name[0]) && !IsCloseParen(name[|name| - 1])
  {
    if |name| > 0 {
      assert name[0] == t[0];
    }
    if ' ' in name {
      var k :| 0 <= k < |name| && name[k] == ' ';
      assert field[|field| - |t| + k] == ' ';
    }
  }

  lemma DropHead(c: char, t: string)
    ensures ([c] + t)[1..] == t
  {
  }

  /** Parentheses put around a name are the ones trimmed off it. */
  lemma TrimParens(name: string)
    requires |name| == 0 || (!IsOpenParen(name[0]) && !IsCloseParen(name[|name| - 1]))
    ensures TrimEnd(TrimStart("(" + name + ")", IsOpenParen), IsCloseParen) == name
  {
    Parenthesised(name);
    TrimmedOnce("(" + name + ")", name + ")", name);
  }

  lemma Parenthesised(name: string)
    ensures ("(" + name + ")")[0] == '(' && ("(" + name + ")")[1..] == name + ")"
    ensures (name + ")")[0] == (if |name| > 0 then name[0] else ')')
    ensures (name + ")")[..|name|] == name
  {
    var t := name + ")";
    assert "(" + name + ")" == "(" + t;
    DropHead('(', t);
  }

  /** One `(` trimmed from the front and one `)` from the back leave what is between them. */
  lemma TrimmedOnce(s: string, t: string, name: string)
    requires |s| > 0 && IsOpenParen(s[0]) && s[1..] == t
    requires |t| > 0 && !IsOpenParen(t[0]) && IsCloseParen(t[|t| - 1]) && t[..|t| - 1] == name
    requires |name| == 0 || !IsCloseParen(name[|name| - 1])
    ensures TrimEnd(TrimStart(s, IsOpenParen), IsCloseParen) == name
  {
    TrimStartStep(s, IsOpenParen);
    TrimStartStops(t, IsOpenParen);
    TrimEndStep(t, IsCloseParen);
    TrimEndStops(name, IsCloseParen);
  }

  /** A `stat` line as the kernel writes it (pid, parenthesised name, state letter, further
      fields) is read back field by field when the name has no space and does not start with
      `(` or end with `)`. */
  lemma {:induction false} ParseStatLine(id: nat, name: string, letter: char, rest: string)
    requires id <= Int32.MaxValue
    requires ' ' !in name
    requires |name| == 0 || (!IsOpenParen(name[0]) && !IsCloseParen(name[|name| - 1]))
    requires letter != ' '
    ensures ParseProcessStatus(Int32.ToDecimal(id) + " (" + name + ") " + [letter] + rest)
         == ProcessStatus(id, Some(name), StateOf(letter))
  {
    var pid := Int32.ToDecimal(id);
    var line := pid + " (" + name + ") " + [letter] + rest;
    PidHasNoSpace(id);
    StatLineFields(pid, name, letter, rest);
    FirstFieldStarts(letter, rest);
    Int32.ParseDecimal(id);
    TrimParens(name);
    assert |line| > 0;
    FromStatFields(Split(line, ' '), id, name, letter);
  }

  lemma FromStatFields(items: seq<string>, id: int, name: string, letter: char)
    requires |items| > 2 && Int32.TryParse(items[0]) == Some(id)
    requires NameField(items[1]) == name && |items[2]| > 0 && items[2][0] == letter
    ensures FromFields(items) == ProcessStatus(id, Some(name), StateOf(letter))
  {
  }

  lemma PidHasNoSpace(id: nat)
    ensures ' ' !in Int32.ToDecimal(id)
  {
    var pid := Int32.ToDecimal(id);
    assert forall i :: 0 <= i < |pid| ==> Int32.IsDigit(pid[i]);
  }

  /** The pid and the parenthesised name are the first two fields of a `stat` line. */
  lemma StatLineFields(pid: string, name: string, letter: char, rest: string)
    requires ' ' !in pid && ' ' !in name
    ensures Split(pid + " (" + name + ") " + [letter] + rest, ' ')
         == [pid, "(" + name + ")"] + Split([letter] + rest, ' ')
  {
    var tail := [letter] + rest;
    var field2 := "(" + name + ")";
    assert ' ' !in field2;
    assert pid + " (" + name + ") " + [letter] + rest == pid + [' '] + (field2 + [' '] + tail);
    SplitAtFirst(pid, field2 + [' '] + tail, ' ');
    SplitAtFirst(field2, tail, ' ');
  }

  /** The field after the name starts with the state letter. */
  lemma FirstFieldStarts(letter: char, rest: string)
    requires letter != ' '
    ensures |Split([letter] + rest, ' ')[0]| > 0 && Split([letter] + rest, ' ')[0][0] == letter
  {
    var tail := [letter] + rest;
    var p := Split(tail, ' ');
    assert Join(p, " ") == tail;
    if |p| > 1 {
      assert tail == p[0] + " " + Join(p[1..], " ");
    }
  }

  /** Parses `/proc/<pid>/cmdline`: the NUL-separated arguments, empty ones dropped, joined by
      single spaces. */
  function ParseCommandLine(commandLineText: string): (r: string)
    ensures '\0' !in r
    ensures |commandLineText| == 0 ==> r == ""
  {
    if |commandLineText| == 0 then ""
    else
      var arguments := NonEmpty(Split(commandLineText, '\0'));
      JoinAvoids(arguments, " ", '\0');
      Join(arguments, " ")
  }

  /** The kernel terminates every argument with a NUL: the arguments come back joined by spaces. */
  lemma ParseCommandLineOfArgv(argv: seq<string>)
    requires forall i :: 0 <= i < |argv| ==> |argv[i]| > 0 && '\0' !in argv[i]
    ensures ParseCommandLine(Terminated(argv, '\0')) == Join(argv, " ")
  {
    SplitTerminated(argv, '\0');
    NonEmptyDropsLast(argv);
    if |argv| == 0 {
      assert Terminated(argv, '\0') == "";
    }
  }

  /** What `new LinuxProcess(process)` captures. */
  datatype ProcessRecord = ProcessRecord(id: int, processName: Option<string>, state: ProcessState, commandLine: string)

  /** A directory of `/proc`: its name, whether `Process.GetProcessById` succeeds for it, and what
      reading its `stat` and `cmdline` files gives. */
  datatype ProcDirectory = ProcDirectory(name: string, alive: bool, stat: Option<string>, cmdline: Option<string>)

  predicate Listed(d: ProcDirectory) {
    Int32.TryParse(d.name).Some? && d.alive
  }

  /** The record built for a listed directory. */
  function Snapshot(d: ProcDirectory): (p: ProcessRecord)
    requires Listed(d)
    ensures p.id == Int32.TryParse(d.name).value
    ensures d.stat.None? ==> p.processName.None? && p.state == Unknown
    ensures d.cmdline.None? ==> p.commandLine == ""
  {
    var status := if d.stat.Some? then ParseProcessStatus(d.stat.value) else DefaultStatus;
    var commandLine := if d.cmdline.Some? then ParseCommandLine(d.cmdline.value) else "";
    ProcessRecord(Int32.TryParse(d.name).value, status.name, status.state, commandLine)
  }

  /** `GetProcesses`: one record per directory whose name is a number and whose process could be
      opened, in directory order. */
  function GetProcesses(dirs: seq<ProcDirectory>): (r: seq<ProcessRecord>)
    ensures |r| <= |dirs|
    ensures forall p :: p in r <==> exists i :: 0 <= i < |dirs| && Listed(dirs[i]) && p == Snapshot(dirs[i])
  {
    if |dirs| == 0 then []
    else
      var rest := GetProcesses(dirs[1..]);
      assert forall i :: 1 <= i < |dirs| ==> dirs[i] == dirs[1..][i - 1];
      if Listed(dirs[0]) then [Snapshot(dirs[0])] + rest else rest
  }

  /** `GetProcessesByName`: the processes whose name is exactly `processName`, in order. */
  function GetProcessesByName(processName: string, processes: seq<ProcessRecord>): (r: seq<ProcessRecord>)
    ensures |r| <= |processes|
    ensures forall p :: p in r <==> p in processes && p.processName == Some(processName)
  {
    if |processes| == 0 then []
    else
      var rest := GetProcessesByName(processName, processes[1..]);
      if processes[0].processName == Some(processName) then [processes[0]] + rest else rest
  }

  /** The records follow the directories' order: one more directory adds its record, if it
      is listed, at the end. */
  lemma {:induction false} GetProcessesAppend(dirs: seq<ProcDirectory>, d: ProcDirectory)
    ensures GetProcesses(dirs + [d]) == GetProcesses(dirs) + (if Listed(d) then [Snapshot(d)] else [])
    decreases |dirs|
  {
    if |dirs| == 0 {
      assert dirs + [d] == [d];
      assert [d][1..] == [];
    } else {
      assert (dirs + [d])[1..] == dirs[1..] + [d];
      GetProcessesAppend(dirs[1..], d);
    }
  }

  /** The filter keeps the processes' order: one more process adds itself, if its name
      matches, at the end. */
  lemma {:induction false} GetProcessesByNameAppend(processName: string, processes: seq<ProcessRecord>, p: ProcessRecord)
    ensures GetProcessesByName(processName, processes + [p]) ==
      GetProcessesByName(processName, processes) + (if p.processName == Some(processName) then [p] else [])
    decreases |processes|
  {
    if |processes| == 0 {
      assert processes + [p] == [p];
      assert [p][1..] == [];
    } else {
      assert (processes + [p])[1..] == processes[1..] + [p];
      GetProcessesByNameAppend(processName, processes[1..], p);
    }
  }
}

=== FILE: linux_service_controller.dfy ===
/** `LinuxServiceController`: status from the process table with the `$` instance separator,
    start and stop through the `service` command, and the executable scripts of `/etc/init.d`. */
module LinuxServiceController {
  import opened Wrappers
  import opened Text
  import opened Errors
  import MonoHelper
  import LinuxProcess
  import ServiceStatus

  datatype Controller = Controller(serviceName: string)

  /** `GetStatus`: Running exactly when a `mono` process announces the service as `name` or
      `name$instance`. */
  function GetStatus(c: Controller, processes: seq<LinuxProcess.ProcessRecord>): (r: ServiceStatus.ServiceControllerStatus)
    ensures r == ServiceStatus.Running <==>
      exists i :: 0 <= i < |processes| && ServiceStatus.RunsService(processes[i], c.serviceName, '$')
  {
    ServiceStatus.GetStatus(c.serviceName, processes, '$')
  }

  // ---------------------------------------------------------------------------------------
  // Start and stop

  /** `Timeout.Infinite`, the default timeout of the `int` overloads. */
  const Infinite: int := -1

  function StartCommand(c: Controller, timeout: int): MonoHelper.ShellCommand {
    MonoHelper.FormatCommand("service {0} start", c.serviceName, timeout)
  }

  function StopCommand(c: Controller, timeout: int): MonoHelper.ShellCommand {
    MonoHelper.FormatCommand("service {0} stop", c.serviceName, timeout)
  }

  /** The shell runs `service <name> start` and `service <name> stop`, whatever the name. */
  lemma Commands(c: Controller, timeout: int)
    ensures StartCommand(c, timeout) == MonoHelper.ShellCommand("service " + c.serviceName + " start", timeout)
    ensures StopCommand(c, timeout) == MonoHelper.ShellCommand("service " + c.serviceName + " stop", timeout)
  {
    assert "service {0} start" == "service " + "{0}" + " start";
    assert "service {0} stop" == "service " + "{0}" + " stop";
    NoOccurrenceWithoutFirstChar(" start", "{0}");
    NoOccurrenceWithoutFirstChar(" stop", "{0}");
    NoEarlyOccurrence("service ", "{0}");
    MonoHelper.FormatSplice("service ", " start", c.serviceName, timeout);
    MonoHelper.FormatSplice("service ", " stop", c.serviceName, timeout);
  }

  /** The output a failure message quotes: the command's output when it completed, else null. */
  function ReportedOutput(result: MonoHelper.ProcessResult): Option<string> {
    if result.completed then result.output else None
  }

  /** `Start(int timeout)`: throws unless the command exited with code 0. */
  function Start(c: Controller, timeout: int, shell: MonoHelper.Shell): (r: Outcome)
    ensures r == Done <==> shell(StartCommand(c, timeout)).exitCode == Some(0)
    ensures r.Threw? ==> r.error == CantStartService(c.serviceName, ReportedOutput(shell(StartCommand(c, timeout))))
  {
    var result := shell(StartCommand(c, timeout));
    if result.exitCode != Some(0) then Threw(CantStartService(c.serviceName, ReportedOutput(result))) else Done
  }

  /** `Stop(int timeout)`: throws unless the command exited with code 0. */
  function Stop(c: Controller, timeout: int, shell: MonoHelper.Shell): (r: Outcome)
    ensures r == Done <==> shell(StopCommand(c, timeout)).exitCode == Some(0)
    ensures r.Threw? ==> r.error == CantStopService(c.serviceName, ReportedOutput(shell(StopCommand(c, timeout))))
  {
    var result := shell(StopCommand(c, timeout));
    if result.exitCode != Some(0) then Threw(CantStopService(c.serviceName, ReportedOutput(result))) else Done
  }

  /** A command that did not finish in time has no exit code, so start and stop throw, quoting
      no output. */
  lemma TimedOutCommandThrows(c: Controller, timeout: int, shell: MonoHelper.Shell)
    requires MonoHelper.WellFormedResult(shell(StartCommand(c, timeout)))
    requires MonoHelper.WellFormedResult(shell(StopCommand(c, timeout)))
    ensures !shell(StartCommand(c, timeout)).completed ==> Start(c, timeout, shell) == Threw(CantStartService(c.serviceName, None))
    ensures !shell(StopCommand(c, timeout)).completed ==> Stop(c, timeout, shell) == Threw(CantStopService(c.serviceName, None))
  {
  }

  // ---------------------------------------------------------------------------------------
  // The TimeSpan overloads

  /** A `TimeSpan` is a signed count of 100-nanosecond ticks. */
  const TicksPerMillisecond: int := 10_000
  const TicksPerSecond: int := 10_000_000

  /** C#'s integer division, which truncates toward zero. */
  function TruncDiv(a: int, b: int): int
    requires b > 0
  {
    if a >= 0 then a / b else -((-a) / b)
  }

  /** C#'s `%`, whose result takes the sign of the dividend. */
  function TruncRem(a: int, b: int): (r: int)
    requires b > 0
    ensures a >= 0 ==> 0 <= r < b
    ensures a < 0 ==> -b < r <= 0
  {
    if a >= 0 then
      assert a - (a / b) * b == a % b;
      a - TruncDiv(a, b) * b
    else
      assert a - (-((-a) / b)) * b == -((-a) % b);
      a - TruncDiv(a, b) * b
  }

  /** `TimeSpan.Milliseconds`: the millisecond component, between -999 and 999. */
  function Milliseconds(ticks: int): (r: int)
    ensures -1000 < r < 1000
    ensures ticks >= 0 ==> r >= 0
  {
    TruncRem(TruncDiv(ticks, TicksPerMillisecond), 1000)
  }

  /** The whole milliseconds of a span, what a timeout in milliseconds means. */
  function TotalMilliseconds(ticks: int): int {
    TruncDiv(ticks, TicksPerMillisecond)
  }

  /** `Start(TimeSpan timeout)` as written: it forwards the millisecond component. */
  function StartWithin(c: Controller, ticks: int, shell: MonoHelper.Shell): (r: Outcome)
    ensures r == Done <==> shell(StartCommand(c, Milliseconds(ticks))).exitCode == Some(0)
  {
    Start(c, Milliseconds(ticks), shell)
  }

  /** `Stop(TimeSpan timeout)` as written: it forwards the millisecond component. */
  function StopWithin(c: Controller, ticks: int, shell: MonoHelper.Shell): (r: Outcome)
    ensures r == Done <==> shell(StopCommand(c, Milliseconds(ticks))).exitCode == Some(0)
  {
    Stop(c, Milliseconds(ticks), shell)
  }

  /** The forwarded timeout forgets whole seconds: a span of thirty seconds becomes a wait of
      no time at all, and any whole number of seconds does the same. */
  lemma WholeSecondsAreDropped(c: Controller, seconds: nat, shell: MonoHelper.Shell)
    ensures Milliseconds(seconds * TicksPerSecond) == 0
    ensures TotalMilliseconds(seconds * TicksPerSecond) == seconds * 1000
    ensures StartWithin(c, seconds * TicksPerSecond, shell) == Start(c, 0, shell)
    ensures StopWithin(c, seconds * TicksPerSecond, shell) == Stop(c, 0, shell)
  {
    var ticks := seconds * TicksPerSecond;
    assert ticks == (seconds * 1000) * TicksPerMillisecond;
    assert TruncDiv(ticks, TicksPerMillisecond) == seconds * 1000;
    assert TruncRem(seconds * 1000, 1000) == 0;
  }

  /** `Start(TimeSpan timeout)` forwarding the whole span. */
  function StartWithinCorrected(c: Controller, ticks: int, shell: MonoHelper.Shell): (r: Outcome)
    ensures r == Done <==> shell(StartCommand(c, TotalMilliseconds(ticks))).exitCode == Some(0)
  {
    Start(c, TotalMilliseconds(ticks), shell)
  }

  /** `Stop(TimeSpan timeout)` forwarding the whole span. */
  function StopWithinCorrected(c: Controller, ticks: int, shell: MonoHelper.Shell): (r: Outcome)
    ensures r == Done <==> shell(StopCommand(c, TotalMilliseconds(ticks))).exitCode == Some(0)
  {
    Stop(c, TotalMilliseconds(ticks), shell)
  }

  /** The corrected overloads wait exactly as long as the `int` overloads given the same
      number of milliseconds. */
  lemma CorrectedForwardsWholeSpan(c: Controller, milliseconds: int, shell: MonoHelper.Shell)
    ensures TotalMilliseconds(milliseconds * TicksPerMillisecond) == milliseconds
    ensures StartWithinCorrected(c, milliseconds * TicksPerMillisecond, shell) == Start(c, milliseconds, shell)
    ensures StopWithinCorrected(c, milliseconds * TicksPerMillisecond, shell) == Stop(c, milliseconds, shell)
  {
    var ticks := milliseconds * TicksPerMillisecond;
    if milliseconds < 0 {
      assert -ticks == (-milliseconds) * TicksPerMillisecond;
      assert (-ticks) / TicksPerMillisecond == -milliseconds;
    } else {
      assert ticks / TicksPerMillisecond == milliseconds;
    }
  }

  // ---------------------------------------------------------------------------------------
  // Enumerating services

  /** Execute permission bits of `st_mode`. */
  const S_IXUSR: bv32 := 0x40
  const S_IXGRP: bv32 := 0x08
  const S_IXOTH: bv32 := 0x01

  predicate IsExecutable(mode: bv32) {
    mode & S_IXUSR == S_IXUSR || mode & S_IXGRP == S_IXGRP || mode & S_IXOTH == S_IXOTH
  }

  /** A file of `/etc/init.d` matching the search pattern: its path and, when `stat` succeeds,
      its mode. */
  datatype InitScript = InitScript(path: string, mode: Option<bv32>)

  /** `Path.GetFileName`: what follows the last `/`. */
  function FileName(path: string): (r: string)
    ensures '/' !in r
    ensures |r| <= |path| && r == path[|path| - |r|..]
    ensures |r| < |path| ==> path[|path| - |r| - 1] == '/'
  {
    var start := NameStart(path, |path|);
    assert '/' !in path[start..] by {
      forall j | 0 <= j < |path| - start ensures path[start..][j] != '/' {
        assert path[start..][j] == path[start + j];
      }
    }
    path[start..]
  }

  /** Where the file name in `path[..k]` starts: just past the last `/` before `k`. */
  function NameStart(path: string, k: nat): (r: nat)
    requires k <= |path|
    ensures r <= k
    ensures forall j :: r <= j < k ==> path[j] != '/'
    ensures r > 0 ==> path[r - 1] == '/'
  {
    if k == 0 || path[k - 1] == '/' then k else NameStart(path, k - 1)
  }

  predicate Listed(f: InitScript) {
    f.mode.Some? && IsExecutable(f.mode.value)
  }

  /** The controller for a listed script. */
  function ControllerOf(f: InitScript): (c: Controller)
    ensures '/' !in c.serviceName
  {
    Controller(FileName(f.path))
  }

  /** `y` is what `f` makes of some element of `xs` that `keep` accepts. */
  ghost predicate Among<T, U>(xs: seq<T>, keep: T -> bool, f: T -> U, y: U) {
    exists i :: 0 <= i < |xs| && keep(xs[i]) && y == f(xs[i])
  }

  /** The images of the accepted elements: the first one's, if accepted, and the rest's. */
  lemma AmongCons<T, U>(xs: seq<T>, keep: T -> bool, f: T -> U)
    requires |xs| > 0
    ensures forall y :: Among(xs, keep, f, y) <==> (keep(xs[0]) && y == f(xs[0])) || Among(xs[1..], keep, f, y)
  {
    forall y ensures Among(xs, keep, f, y) <==> (keep(xs[0]) && y == f(xs[0])) || Among(xs[1..], keep, f, y) {
      if Among(xs[1..], keep, f, y) {
        var i :| 0 <= i < |xs[1..]| && keep(xs[1..][i]) && y == f(xs[1..][i]);
        assert xs[i + 1] == xs[1..][i];
      }
      if Among(xs, keep, f, y) && !(keep(xs[0]) && y == f(xs[0])) {
        var i :| 0 <= i < |xs| && keep(xs[i]) && y == f(xs[i]);
        assert xs[1..][i - 1] == xs[i];
      }
    }
  }

  /** `GetServices`: a controller for every script whose status can be read and that someone
      may execute, in directory order. */
  function GetServices(files: seq<InitScript>): (r: seq<Controller>)
    ensures |r| <= |files|
    ensures forall i :: 0 <= i < |r| ==> '/' !in r[i].serviceName
    ensures forall c :: c in r <==> Among(files, Listed, ControllerOf, c)
  {
    if |files| == 0 then []
    else
      var rest := GetServices(files[1..]);
      AmongCons(files, Listed, ControllerOf);
      if Listed(files[0]) then
        PlainNamesCons(ControllerOf(files[0]), rest);
        [ControllerOf(files[0])] + rest
      else rest
  }

  /** The listing keeps directory order: one more script adds its controller, if it is listed,
      at the end. */
  lemma {:induction false} GetServicesAppend(files: seq<InitScript>, f: InitScript)
    ensures GetServices(files + [f]) == GetServices(files) + (if Listed(f) then [ControllerOf(f)] else [])
    decreases |files|
  {
    if |files| == 0 {
      GetServicesCons([f]);
      assert files + [f] == [f];
      assert [f][1..] == [];
    } else {
      var g := files + [f];
      assert g[0] == files[0];
      assert g[1..] == files[1..] + [f];
      GetServicesCons(files);
      GetServicesCons(g);
      GetServicesAppend(files[1..], f);
      PrefixAppend(if Listed(files[0]) then [ControllerOf(files[0])] else [], GetServices(files[1..]),
                   GetServices(g[1..]), if Listed(f) then [ControllerOf(f)] else []);
    }
  }

  /** One step of the listing: the first script's controller, if listed, before the rest's. */
  lemma GetServicesCons(files: seq<InitScript>)
    requires |files| > 0
    ensures GetServices(files) == (if Listed(files[0]) then [ControllerOf(files[0])] else []) + GetServices(files[1..])
  {
  }

  /** A common head before a sequence and before its extension. */
  lemma PrefixAppend<T>(h: seq<T>, b: seq<T>, b2: seq<T>, t: seq<T>)
    requires b2 == b + t
    ensures h + b2 == (h + b) + t
  {
  }

  lemma PlainNamesCons(c: Controller, rest: seq<Controller>)
    requires '/' !in c.serviceName
    requires forall i :: 0 <= i < |rest| ==> '/' !in rest[i].serviceName
    ensures forall i :: 0 <= i < |rest| + 1 ==> '/' !in ([c] + rest)[i].serviceName
  {
    forall i | 0 <= i < |rest| + 1 ensures '/' !in ([c] + rest)[i].serviceName {
      if i > 0 {
        assert ([c] + rest)[i] == rest[i - 1];
      }
    }
  }

  /** Element `i` is the first one `keep` accepts. */
  ghost predicate FirstAt<T>(xs: seq<T>, keep: T -> bool, i: int) {
    0 <= i < |xs| && keep(xs[i]) && forall j :: 0 <= j < i ==> !keep(xs[j])
  }

  /** `GetService`: the first listed controller, or null. */
  function GetService(files: seq<InitScript>): (r: Option<Controller>)
    ensures r.None? <==> forall i :: 0 <= i < |files| ==> !Listed(files[i])
    ensures r.Some? ==> exists i :: FirstAt(files, Listed, i) && r.value == ControllerOf(files[i])
  {
    if |files| == 0 then None
    else if Listed(files[0]) then
      assert FirstAt(files, Listed, 0);
      Some(ControllerOf(files[0]))
    else
      var r := GetService(files[1..]);
      FirstShift(files, Listed, ControllerOf, r);
      r
  }

  /** Past a rejected first element, the first accepted one is the tail's, one index further. */
  lemma FirstShift<T, U>(xs: seq<T>, keep: T -> bool, f: T -> U, r: Option<U>)
    requires |xs| > 0 && !keep(xs[0])
    requires r.None? <==> forall i :: 0 <= i < |xs[1..]| ==> !keep(xs[1..][i])
    requires r.Some? ==> exists i :: FirstAt(xs[1..], keep, i) && r.value == f(xs[1..][i])
    ensures r.None? <==> forall i :: 0 <= i < |xs| ==> !keep(xs[i])
    ensures r.Some? ==> exists i :: FirstAt(xs, keep, i) && r.value == f(xs[i])
  {
    if r.Some? {
      var i :| FirstAt(xs[1..], keep, i) && r.value == f(xs[1..][i]);
      assert xs[i + 1] == xs[1..][i];
      assert FirstAt(xs, keep, i + 1);
    } else {
      forall i | 0 <= i < |xs| ensures !keep(xs[i]) {
        if i > 0 {
          assert xs[i] == xs[1..][i - 1];
        }
      }
    }
    if forall i :: 0 <= i < |xs| ==> !keep(xs[i]) {
      forall i | 0 <= i < |xs[1..]| ensures !keep(xs[1..][i]) {
        assert xs[1..][i] == xs[i + 1];
      }
    }
  }

  /** `GetService` agrees with the head of `GetServices`. */
  lemma {:induction false} GetServiceIsFirst(files: seq<InitScript>)
    ensures GetService(files) == if |GetServices(files)| == 0 then None else Some(GetServices(files)[0])
  {
    if |files| > 0 && !Listed(files[0]) {
      GetServiceIsFirst(files[1..]);
    }
  }

  /** Adding the three execute bits, as the installer's `chmod` does, makes a script listed. */
  lemma ChmodMakesExecutable(mode: bv32)
    ensures IsExecutable(mode | S_IXUSR | S_IXGRP | S_IXOTH)
  {
  }
}

=== FILE: linux_service_host.dfy ===
/** `LinuxServiceHost`: the host that runs a service in the foreground. It subscribes SIGINT and
    SIGTERM to its stop signal, starts the service, waits for the stop signal, and then stops
    the service. The signals, `HostControl.Stop` calls and unhandled exceptions that arrive
    while it waits are an explicit event sequence. The stop signal is a flag that, once set,
    stays set. */
module LinuxServiceHost {
  import opened Wrappers
  import opened Errors
  import opened HostSettings
  import L = LinuxSignalListener

  /** The members of Topshelf's exit code enumeration this host sets. */
  datatype TopshelfExitCode = Ok | AbnormalExit | UnhandledServiceException

  /** The one action the host subscribes to signals: `SetStopSignal`. */
  datatype HostAction = SetStopSignal

  /** How a `ServiceHandle.Start` or `Stop` call ended: with its `bool` result, or by throwing. */
  datatype CallResult = Returned(ok: bool) | Raised(error: Error)

  /** The service behind the `ServiceHandle`, as the answers its calls give. */
  datatype ServiceHandle = ServiceHandle(start: CallResult, stop: CallResult)

  datatype Host = Host(
    settings: Settings,
    handle: ServiceHandle,
    listener: L.Listener<HostAction>,
    stopSignal: bool,
    exitCode: TopshelfExitCode,
    disposed: bool)

  /** The listener the constructor sets up: SIGINT, then SIGTERM, each with `SetStopSignal`. */
  predicate HostListener(l: L.Listener<HostAction>) {
    && L.WellFormed(l)
    && L.Signals(l) == [L.SIGINT, L.SIGTERM]
    && L.Subscribers(l, L.SIGINT) == [SetStopSignal]
    && L.Subscribers(l, L.SIGTERM) == [SetStopSignal]
  }

  /** The constructor: null settings or a null handle are rejected, in that order; otherwise the
      host starts with its stop signal clear, the default exit code and both termination
      signals subscribed. */
  function New(settings: Option<Settings>, serviceHandle: Option<ServiceHandle>): (r: Result<Host, Error>)
    ensures settings.None? ==> r == Failure(ArgumentNull("settings"))
    ensures settings.Some? && serviceHandle.None? ==> r == Failure(ArgumentNull("serviceHandle"))
    ensures r.Success? <==> settings.Some? && serviceHandle.Some?
    ensures r.Success? ==>
      && r.value.settings == settings.value && r.value.handle == serviceHandle.value
      && HostListener(r.value.listener) && !r.value.listener.stopListen
      && !r.value.stopSignal && r.value.exitCode == Ok && !r.value.disposed
  {
    if settings.None? then Failure(ArgumentNull("settings"))
    else if serviceHandle.None? then Failure(ArgumentNull("serviceHandle"))
    else
      var l0 := L.New<HostAction>();
      var l1 := L.Subscribe(l0, L.SIGINT, SetStopSignal);
      var l2 := L.Subscribe(l1, L.SIGTERM, SetStopSignal);
      assert [] + [L.SIGINT] == [L.SIGINT];
      Success(Host(settings.value, serviceHandle.value, l2, false, Ok, false))
  }

  /** What a subscribed action does to the stop signal: `ManualResetEvent.Set`. */
  function Invoke(a: HostAction, stopSignal: bool): (bool, Outcome) {
    (true, Done)
  }

  /** `HostControl.Stop`: sets the stop signal. */
  function Stop(h: Host): (r: Host)
    ensures r.stopSignal
    ensures r.(stopSignal := h.stopSignal) == h
  {
    h.(stopSignal := true)
  }

  /** Setting the stop signal twice is setting it once. */
  lemma StopIsIdempotent(h: Host)
    ensures Stop(Stop(h)) == Stop(h)
  {
  }

  /** `HostControl.RequestAdditionalTime`: not supported. */
  function RequestAdditionalTime(h: Host, timeRemaining: int): Outcome {
    Threw(NotSupported)
  }

  /** `HostControl.Restart`: not supported. */
  function Restart(h: Host): Outcome {
    Threw(NotSupported)
  }

  /** The two other `HostControl` members throw `NotSupportedException` whatever the host's
      state and the time asked for. */
  lemma OtherControlsAreUnsupported(h: Host, timeRemaining: int)
    ensures RequestAdditionalTime(h, timeRemaining) == Threw(NotSupported)
    ensures Restart(h) == Threw(NotSupported)
  {
  }

  /** `CatchUnhandledException`: a terminating exception records `UnhandledServiceException` and
      sets the stop signal; any other is only logged. */
  function CatchUnhandledException(h: Host, isTerminating: bool): (r: Host)
    ensures isTerminating ==> r.exitCode == UnhandledServiceException && r.stopSignal
    ensures isTerminating ==> r.(exitCode := h.exitCode, stopSignal := h.stopSignal) == h
    ensures !isTerminating ==> r == h
  {
    if isTerminating then Stop(h.(exitCode := UnhandledServiceException)) else h
  }

  /** What reaches the host while it waits for its stop signal: a wait of the listening loop
      returns, `HostControl.Stop` is called, or an exception goes unhandled. */
  datatype HostEvent = Wake(result: L.WaitResult) | ControlStop | Unhandled(isTerminating: bool)

  /** A `Fatal` entry the host writes to its log. */
  datatype FatalEntry =
    /** `StartService`'s handler, before it rethrows the error. */
    | StartServiceFailed(service: string, error: Error)
    /** `Run`'s handler, on the error `StartService` rethrew. */
    | RunFailed(error: Error)
    /** `StopService`'s handler, which swallows the error. */
    | StopServiceFailed(service: string, error: Error)
    /** `CatchUnhandledException`, for every unhandled exception, terminating or not. */
    | UnhandledException(service: string)

  /** The host while it waits, whether its listening loop still runs, and the fatal entries
      logged so far. */
  datatype Waiting = Waiting(host: Host, listening: bool, fatal: seq<FatalEntry>)

  /** One event. A wait result goes through the listening loop's body with the stop signal as
      the handlers' state, and ends the loop when it breaks. */
  function WaitStep(w: Waiting, e: HostEvent): (r: Waiting)
    ensures r.host.settings == w.host.settings && r.host.handle == w.host.handle
    ensures r.host.listener == w.host.listener && r.host.disposed == w.host.disposed
    ensures w.host.stopSignal ==> r.host.stopSignal
    ensures r.fatal == w.fatal + (if e.Unhandled? then [UnhandledException(w.host.settings.serviceName)] else [])
  {
    match e
    case ControlStop => w.(host := Stop(w.host))
    case Unhandled(t) =>
      w.(host := CatchUnhandledException(w.host, t), fatal := w.fatal + [UnhandledException(w.host.settings.serviceName)])
    case Wake(result) =>
      if !w.listening then w
      else
        var step := L.LoopBody(w.host.listener, result, Invoke, w.host.stopSignal);
        assert w.host.stopSignal ==> step.state by {
          if w.host.stopSignal && step.invoked != [] {
            assert step.state == L.Fold(Invoke, step.invoked[1..], true);
            FoldKeepsSet(step.invoked[1..]);
          }
        }
        w.(host := w.host.(stopSignal := step.state), listening := !step.breaks)
  }

  /** Running subscribed actions never clears the stop signal. */
  lemma {:induction false} FoldKeepsSet(actions: seq<HostAction>)
    ensures L.Fold(Invoke, actions, true)
    decreases |actions|
  {
    if |actions| > 0 {
      FoldKeepsSet(actions[1..]);
    }
  }

  /** `WaitStopSignal`: events are taken until the stop signal is set or none are left. */
  function Wait(w: Waiting, events: seq<HostEvent>): (r: Waiting)
    ensures r.host.settings == w.host.settings && r.host.handle == w.host.handle
    ensures r.host.listener == w.host.listener && r.host.disposed == w.host.disposed
    ensures w.host.stopSignal ==> r == w
    decreases |events|
  {
    if w.host.stopSignal || |events| == 0 then w else Wait(WaitStep(w, events[0]), events[1..])
  }

  /** A wait result naming one of the host's two signals. */
  predicate Names(e: HostEvent) {
    e.Wake? && 0 <= e.result.index < 2
  }

  /** The listening loop is still running when event `j` arrives: it was running at the start and
      no earlier wait returned one of the signals, each of which ends it. */
  predicate Alive(events: seq<HostEvent>, j: nat, listening: bool) {
    listening && forall k :: 0 <= k < j && k < |events| ==> !Names(events[k])
  }

  /** Event `j` sets the stop signal: a `Stop` call, a terminating exception, or a subscribed
      signal whose flag is set while the loop listens. */
  predicate Requests(events: seq<HostEvent>, j: nat, listening: bool) {
    && j < |events|
    && (|| events[j] == ControlStop || events[j] == Unhandled(true)
        || (Names(events[j]) && events[j].result.isSet && Alive(events, j, listening)))
  }

  /** Some event sets the stop signal. */
  predicate StopArrives(events: seq<HostEvent>, listening: bool) {
    exists j :: 0 <= j < |events| && Requests(events, j, listening)
  }

  /** The first event that sets the stop signal is a terminating exception. */
  predicate FirstStopIsUnhandled(events: seq<HostEvent>, listening: bool) {
    exists j :: 0 <= j < |events| && events[j] == Unhandled(true)
      && forall k :: 0 <= k < j ==> !Requests(events, k, listening)
  }

  /** Event `j` is the first to set the stop signal. */
  predicate FirstRequest(events: seq<HostEvent>, j: nat, listening: bool) {
    Requests(events, j, listening) && forall k :: 0 <= k < j ==> !Requests(events, k, listening)
  }

  /** When the stop arrives, some event is the first to request it. */
  lemma FirstRequestExists(events: seq<HostEvent>, listening: bool)
    requires StopArrives(events, listening)
    ensures exists j :: FirstRequest(events, j, listening)
  {
    var j :| 0 <= j < |events| && Requests(events, j, listening);
    FirstRequestBelow(events, listening, j);
  }

  /** Some request at or before `j` is the first. */
  lemma {:induction false} FirstRequestBelow(events: seq<HostEvent>, listening: bool, j: nat)
    requires Requests(events, j, listening)
    ensures exists i :: 0 <= i <= j && FirstRequest(events, i, listening)
    decreases j
  {
    if exists k :: 0 <= k < j && Requests(events, k, listening) {
      var k :| 0 <= k < j && Requests(events, k, listening);
      FirstRequestBelow(events, listening, k);
    } else {
      assert FirstRequest(events, j, listening);
    }
  }

  /** The entries `CatchUnhandledException` writes for the unhandled exceptions among `events`,
      one each, in order. */
  function UnhandledLog(events: seq<HostEvent>, service: string): (r: seq<FatalEntry>)
    ensures |r| <= |events|
    ensures forall x :: x in r ==> x == UnhandledException(service)
    ensures (forall k :: 0 <= k < |events| ==> events[k].Unhandled?) ==> |r| == |events|
    ensures (forall k :: 0 <= k < |events| ==> !events[k].Unhandled?) ==> r == []
    decreases |events|
  {
    if |events| == 0 then []
    else
      var rest := UnhandledLog(events[1..], service);
      assert forall k :: 0 <= k < |events| - 1 ==> events[1..][k] == events[k + 1];
      (if events[0].Unhandled? then [UnhandledException(service)] else []) + rest
  }

  /** Shifting the event sequence by one past an event that does not name a signal. */
  lemma ShiftPastOther(events: seq<HostEvent>, listening: bool)
    requires |events| > 0 && !Names(events[0])
    ensures forall j :: 1 <= j < |events| ==> (Requests(events, j, listening) <==> Requests(events[1..], j - 1, listening))
  {
    forall j | 1 <= j < |events|
      ensures Requests(events, j, listening) <==> Requests(events[1..], j - 1, listening)
    {
      assert events[1..][j - 1] == events[j];
      assert Alive(events, j, listening) <==> Alive(events[1..], j - 1, listening) by {
        forall k | 0 <= k < j - 1 ensures events[1..][k] == events[k + 1] { }
      }
    }
  }

  /** Past an event that names a signal, no later wait result sets the stop signal. */
  lemma ShiftPastSignal(events: seq<HostEvent>, listening: bool)
    requires |events| > 0 && Names(events[0])
    ensures forall j :: 1 <= j < |events| ==> (Requests(events, j, listening) <==> Requests(events[1..], j - 1, false))
  {
    forall j | 1 <= j < |events|
      ensures Requests(events, j, listening) <==> Requests(events[1..], j - 1, false)
    {
      assert events[1..][j - 1] == events[j];
      assert !Alive(events, j, listening);
    }
  }

  /** The stop signal gets set exactly when some event requests it, and the exit code is
      `UnhandledServiceException` exactly when the first such event is a terminating exception;
      the events after the first request are never looked at. */
  lemma {:induction false} WaitCharacterised(w: Waiting, events: seq<HostEvent>)
    requires HostListener(w.host.listener) && !w.host.stopSignal
    ensures Wait(w, events).host.stopSignal <==> StopArrives(events, w.listening)
    ensures Wait(w, events).host.exitCode ==
      if FirstStopIsUnhandled(events, w.listening) then UnhandledServiceException else w.host.exitCode
    decreases |events|
  {
    if |events| > 0 {
      var e := events[0];
      var next := WaitStep(w, e);
      var rest := events[1..];
      assert forall k :: 0 <= k < |rest| ==> rest[k] == events[k + 1];
      if Requests(events, 0, w.listening) {
        WaitStepRequest(w, e);
        assert Wait(w, events) == next;
      } else {
        WaitStepOther(w, e);
        if Names(e) {
          ShiftPastSignal(events, w.listening);
        } else {
          ShiftPastOther(events, w.listening);
        }
        WaitCharacterised(next, rest);
        ShiftStops(events, w.listening, next.listening);
      }
    }
  }

  /** When the first event does not request the stop and the later events request it exactly
      when they do one place earlier in the rest, the stop arrives, and arrives first as a
      terminating exception, in both or in neither. */
  lemma ShiftStops(events: seq<HostEvent>, listening: bool, listening': bool)
    requires |events| > 0 && !Requests(events, 0, listening)
    requires forall j :: 1 <= j < |events| ==> (Requests(events, j, listening) <==> Requests(events[1..], j - 1, listening'))
    ensures StopArrives(events, listening) <==> StopArrives(events[1..], listening')
    ensures FirstStopIsUnhandled(events, listening) <==> FirstStopIsUnhandled(events[1..], listening')
  {
    var rest := events[1..];
    assert forall k :: 0 <= k < |rest| ==> rest[k] == events[k + 1];
    if StopArrives(rest, listening') {
      var j :| 0 <= j < |rest| && Requests(rest, j, listening');
      assert Requests(events, j + 1, listening);
    }
    FirstStopShift(events, listening, listening');
  }

  /** The terminating-exception half of `ShiftStops`. */
  lemma FirstStopShift(events: seq<HostEvent>, listening: bool, listening': bool)
    requires |events| > 0 && !Requests(events, 0, listening)
    requires forall j :: 1 <= j < |events| ==> (Requests(events, j, listening) <==> Requests(events[1..], j - 1, listening'))
    ensures FirstStopIsUnhandled(events, listening) <==> FirstStopIsUnhandled(events[1..], listening')
  {
    var rest := events[1..];
    if FirstStopIsUnhandled(rest, listening') {
      var j :| 0 <= j < |rest| && rest[j] == Unhandled(true)
        && forall k :: 0 <= k < j ==> !Requests(rest, k, listening');
      assert forall k :: 1 <= k < j + 1 ==> !Requests(events, k, listening) by {
        forall k | 1 <= k < j + 1 ensures !Requests(events, k, listening) {
          assert !Requests(rest, k - 1, listening');
        }
      }
      assert events[j + 1] == Unhandled(true);
    }
    if FirstStopIsUnhandled(events, listening) {
      var j :| 0 <= j < |events| && events[j] == Unhandled(true)
        && forall k :: 0 <= k < j ==> !Requests(events, k, listening);
      assert j > 0;
      assert forall k :: 0 <= k < j - 1 ==> !Requests(rest, k, listening') by {
        forall k | 0 <= k < j - 1 ensures !Requests(rest, k, listening') {
          assert !Requests(events, k + 1, listening);
        }
      }
      assert rest[j - 1] == Unhandled(true);
    }
  }

  /** While it waits the host logs one entry per unhandled exception, up to and including the
      event that sets the stop signal, and none for the events after it. */
  lemma WaitLogged(w: Waiting, events: seq<HostEvent>)
    requires HostListener(w.host.listener) && !w.host.stopSignal
    ensures !StopArrives(events, w.listening) ==>
      Wait(w, events).fatal == w.fatal + UnhandledLog(events, w.host.settings.serviceName)
    ensures forall j :: FirstRequest(events, j, w.listening) ==>
      Wait(w, events).fatal == w.fatal + UnhandledLog(events[..j + 1], w.host.settings.serviceName)
  {
    if !StopArrives(events, w.listening) {
      WaitLoggedNoStop(w, events);
    }
    forall j: nat | FirstRequest(events, j, w.listening)
      ensures Wait(w, events).fatal == w.fatal + UnhandledLog(events[..j + 1], w.host.settings.serviceName)
    {
      WaitLoggedFirst(w, events, j);
    }
  }

  /** The half of `WaitLogged` where no event sets the stop signal: every event is taken. */
  lemma {:induction false} WaitLoggedNoStop(w: Waiting, events: seq<HostEvent>)
    requires HostListener(w.host.listener) && !w.host.stopSignal
    requires !StopArrives(events, w.listening)
    ensures Wait(w, events).fatal == w.fatal + UnhandledLog(events, w.host.settings.serviceName)
    decreases |events|
  {
    if |events| > 0 {
      var name := w.host.settings.serviceName;
      assert !Requests(events, 0, w.listening);
      var next := WaitPast(w, events);
      ShiftStops(events, w.listening, next.listening);
      WaitLoggedNoStop(next, events[1..]);
      UnhandledLogCons(events, name);
      var head := if events[0].Unhandled? then [UnhandledException(name)] else [];
      AppendAssociates(w.fatal, head, UnhandledLog(events[1..], name));
    }
  }

  /** The half of `WaitLogged` where event `j` is the first to set the stop signal: the events
      up to it are taken, and the rest are not. */
  lemma {:induction false} WaitLoggedFirst(w: Waiting, events: seq<HostEvent>, j: nat)
    requires HostListener(w.host.listener) && !w.host.stopSignal
    requires FirstRequest(events, j, w.listening)
    ensures Wait(w, events).fatal == w.fatal + UnhandledLog(events[..j + 1], w.host.settings.serviceName)
    decreases j, 1
  {
    var name := w.host.settings.serviceName;
    if j == 0 {
      UnhandledLogPrefix(events, 0, name);
      WaitStepRequest(w, events[0]);
      assert Wait(w, events) == WaitStep(w, events[0]);
      assert UnhandledLog(events[1..][..0], name) == [];
    } else {
      WaitLoggedLater(w, events, j);
    }
  }

  /** The step of `WaitLoggedFirst` when the first request is not the first event. */
  lemma {:induction false} WaitLoggedLater(w: Waiting, events: seq<HostEvent>, j: nat)
    requires HostListener(w.host.listener) && !w.host.stopSignal
    requires 0 < j && FirstRequest(events, j, w.listening)
    ensures Wait(w, events).fatal == w.fatal + UnhandledLog(events[..j + 1], w.host.settings.serviceName)
    decreases j, 0
  {
    var name := w.host.settings.serviceName;
    assert !Requests(events, 0, w.listening);
    var next := WaitPast(w, events);
    var rest := events[1..];
    FirstRequestShift(events, j, w.listening, next.listening);
    WaitLoggedFirst(next, rest, j - 1);
    UnhandledLogPrefix(events, j, name);
    var head := if events[0].Unhandled? then [UnhandledException(name)] else [];
    AppendAssociates(w.fatal, head, UnhandledLog(rest[..j], name));
  }

  /** Past a first event that does not request the stop, the first request moves one place
      earlier. */
  lemma FirstRequestShift(events: seq<HostEvent>, j: nat, listening: bool, listening': bool)
    requires 0 < j && FirstRequest(events, j, listening)
    requires forall i :: 1 <= i < |events| ==> (Requests(events, i, listening) <==> Requests(events[1..], i - 1, listening'))
    ensures FirstRequest(events[1..], j - 1, listening')
  {
    forall k | 0 <= k < j - 1 ensures !Requests(events[1..], k, listening') {
      assert !Requests(events, k + 1, listening);
    }
  }

  /** The log of the first `j + 1` events is the first event's entry, if any, then the log of
      the `j` after it. */
  lemma UnhandledLogPrefix(events: seq<HostEvent>, j: nat, service: string)
    requires j < |events|
    ensures UnhandledLog(events[..j + 1], service) ==
      (if events[0].Unhandled? then [UnhandledException(service)] else []) + UnhandledLog(events[1..][..j], service)
  {
    assert events[..j + 1][1..] == events[1..][..j];
  }

  /** The log of a non-empty sequence is its first event's entry, if any, then the rest's. */
  lemma UnhandledLogCons(events: seq<HostEvent>, service: string)
    requires |events| > 0
    ensures UnhandledLog(events, service) ==
      (if events[0].Unhandled? then [UnhandledException(service)] else []) + UnhandledLog(events[1..], service)
  {
  }

  /** Appending is associative. */
  lemma AppendAssociates<T>(a: seq<T>, b: seq<T>, c: seq<T>)
    ensures (a + b) + c == a + (b + c)
  {
  }

  /** Taking a first event that does not set the stop signal: the wait goes on with the rest,
      the event's entry logged, and each later event requests the stop exactly when it does one
      place earlier in the rest. */
  lemma WaitPast(w: Waiting, events: seq<HostEvent>) returns (next: Waiting)
    requires HostListener(w.host.listener) && !w.host.stopSignal
    requires |events| > 0 && !Requests(events, 0, w.listening)
    ensures HostListener(next.host.listener) && !next.host.stopSignal
    ensures Wait(w, events) == Wait(next, events[1..])
    ensures next.fatal == w.fatal + (if events[0].Unhandled? then [UnhandledException(w.host.settings.serviceName)] else [])
    ensures next.host.settings == w.host.settings
    ensures forall j :: 1 <= j < |events| ==>
      (Requests(events, j, w.listening) <==> Requests(events[1..], j - 1, next.listening))
  {
    next := WaitStep(w, events[0]);
    WaitStepOther(w, events[0]);
    if Names(events[0]) {
      ShiftPastSignal(events, w.listening);
    } else {
      ShiftPastOther(events, w.listening);
    }
  }

  /** An event that requests the stop sets the signal, and sets the exit code only when it is a
      terminating exception. */
  lemma WaitStepRequest(w: Waiting, e: HostEvent)
    requires HostListener(w.host.listener) && !w.host.stopSignal
    requires e == ControlStop || e == Unhandled(true) || (Names(e) && e.result.isSet && w.listening)
    ensures WaitStep(w, e).host.stopSignal
    ensures WaitStep(w, e).host.exitCode == if e == Unhandled(true) then UnhandledServiceException else w.host.exitCode
  {
    if e.Wake? {
      var l := w.host.listener;
      assert L.Signals(l)[e.result.index] in [L.SIGINT, L.SIGTERM];
      assert [SetStopSignal][1..] == [];
    }
  }

  /** Any other event leaves the signal and the exit code alone; a wait result naming a signal
      ends the listening loop, and any other keeps it as it was. */
  lemma WaitStepOther(w: Waiting, e: HostEvent)
    requires HostListener(w.host.listener) && !w.host.stopSignal
    requires !(e == ControlStop || e == Unhandled(true) || (Names(e) && e.result.isSet && w.listening))
    ensures !WaitStep(w, e).host.stopSignal
    ensures WaitStep(w, e).host.exitCode == w.host.exitCode
    ensures WaitStep(w, e).listening == (w.listening && !Names(e))
  {
    if e.Wake? && w.listening {
      var l := w.host.listener;
      if Names(e) {
        assert L.Signals(l)[e.result.index] in [L.SIGINT, L.SIGTERM];
      }
    }
  }

  /** The `ServiceHandle` calls a run makes. */
  datatype HandleCall = StartCalled | StopCalled

  /** What `Run` did: the handle calls, the fatal entries it logged, the exit code it returned
      (none while it still waits for its stop signal), and the host afterwards. */
  datatype RunReport = RunReport(calls: seq<HandleCall>, fatal: seq<FatalEntry>, exitCode: Option<TopshelfExitCode>, host: Host)

  /** `StartService`: a `false` result is turned into an exception; the error, if any. */
  function StartError(h: Host): (r: Option<Error>)
    ensures r.None? <==> h.handle.start == Returned(true)
  {
    match h.handle.start
    case Returned(ok) => if ok then None else Some(ServiceDidntStartSuccessfully(h.settings.serviceName))
    case Raised(error) => Some(error)
  }

  /** `StopService`: as for starting, but the error is only logged. */
  function StopError(h: Host): (r: Option<Error>)
    ensures r.None? <==> h.handle.stop == Returned(true)
  {
    match h.handle.stop
    case Returned(ok) => if ok then None else Some(ServiceDidntStopSuccessfully(h.settings.serviceName))
    case Raised(error) => Some(error)
  }

  /** The entry `StopService` logs: one when stopping fails, none otherwise. */
  function StopLog(h: Host): (r: seq<FatalEntry>)
    ensures |r| <= 1
    ensures r == [] <==> h.handle.stop == Returned(true)
  {
    match StopError(h)
    case None => []
    case Some(error) => [StopServiceFailed(h.settings.serviceName, error)]
  }

  /** `Run`: reset the exit code, start the listening loop, start the service, wait, and stop
      the service only if it started. A service that fails to start gives `AbnormalExit`, is
      never stopped, and has its error logged twice, by `StartService` and again by `Run`; one
      that started is stopped exactly once, after the stop signal, whatever stopping does.
      Every unhandled exception up to the stop signal is logged, and a failed stop after them. */
  function Run(h: Host, events: seq<HostEvent>): (r: RunReport)
    requires HostListener(h.listener) && !h.listener.stopListen
    ensures |r.calls| >= 1 && r.calls[0] == StartCalled
    ensures StartError(h).Some? ==>
      && r.calls == [StartCalled] && r.exitCode == Some(AbnormalExit)
      && r.fatal == [StartServiceFailed(h.settings.serviceName, StartError(h).value), RunFailed(StartError(h).value)]
    ensures StartError(h).None? ==>
      (r.exitCode.Some? <==> h.stopSignal || StopArrives(events, true))
    ensures StartError(h).None? && r.exitCode.Some? ==>
      && r.calls == [StartCalled, StopCalled] && r.host.stopSignal
      && r.exitCode.value == (if !h.stopSignal && FirstStopIsUnhandled(events, true) then UnhandledServiceException else Ok)
    ensures StartError(h).None? && h.stopSignal ==> r.fatal == StopLog(h)
    ensures StartError(h).None? && !h.stopSignal ==> forall j :: FirstRequest(events, j, true) ==>
      r.fatal == UnhandledLog(events[..j + 1], h.settings.serviceName) + StopLog(h)
    ensures r.exitCode.None? ==> r.calls == [StartCalled] && r.fatal == UnhandledLog(events, h.settings.serviceName)
    ensures r.exitCode.Some? ==> r.exitCode.value == r.host.exitCode
  {
    var h0 := h.(exitCode := Ok);
    match StartError(h0)
    case Some(error) =>
      RunReport([StartCalled], [StartServiceFailed(h0.settings.serviceName, error), RunFailed(error)],
        Some(AbnormalExit), h0.(exitCode := AbnormalExit))
    case None =>
      var w := Wait(Waiting(h0, true, []), events);
      assert !h0.stopSignal ==>
        && (w.host.stopSignal <==> StopArrives(events, true))
        && w.host.exitCode == (if FirstStopIsUnhandled(events, true) then UnhandledServiceException else Ok)
        && (!StopArrives(events, true) ==> w.fatal == UnhandledLog(events, h.settings.serviceName))
        && (forall j :: FirstRequest(events, j, true) ==> w.fatal == UnhandledLog(events[..j + 1], h.settings.serviceName)) by {
        if !h0.stopSignal {
          WaitCharacterised(Waiting(h0, true, []), events);
          WaitLogged(Waiting(h0, true, []), events);
        }
      }
      if !w.host.stopSignal then RunReport([StartCalled], w.fatal, None, w.host)
      else RunReport([StartCalled, StopCalled], w.fatal + StopLog(h0), Some(w.host.exitCode), w.host)
  }

  /** How stopping the service ends never changes the exit code. */
  lemma StopFailureOnlyLogged(h: Host, events: seq<HostEvent>, stop: CallResult)
    requires HostListener(h.listener) && !h.listener.stopListen
    ensures Run(h.(handle := h.handle.(stop := stop)), events).exitCode == Run(h, events).exitCode
  {
  }

  /** `Stop` called before `Run` ends the wait at once: a started service is stopped straight
      away and the events are never looked at. */
  lemma StopBeforeRun(h: Host, events: seq<HostEvent>)
    requires HostListener(h.listener) && !h.listener.stopListen
    requires StartError(h).None?
    ensures Run(Stop(h), events) == Run(Stop(h), [])
    ensures Run(Stop(h), events).exitCode == Some(Ok)
  {
  }

  /** What `Dispose` releases, in order. */
  datatype DisposeCall = ListenerDisposed | HandleDisposed | StopSignalClosed

  /** `Dispose`: the first call stops the listener and releases the handle and the stop signal;
      later calls do nothing. */
  function Dispose(h: Host): (r: (Host, seq<DisposeCall>))
    ensures h.disposed ==> r == (h, [])
    ensures !h.disposed ==>
      && r.0 == h.(listener := L.Dispose(h.listener), disposed := true)
      && r.1 == [ListenerDisposed, HandleDisposed, StopSignalClosed]
  {
    if h.disposed then (h, [])
    else (h.(listener := L.Dispose(h.listener), disposed := true), [ListenerDisposed, HandleDisposed, StopSignalClosed])
  }

  /** A second `Dispose` releases nothing, and after disposal the listening loop ends at its
      next check, dispatching nothing. */
  lemma DisposeActsOnce(h: Host, events: seq<L.ListenEvent>)
    ensures Dispose(Dispose(h).0) == (Dispose(h).0, [])
    ensures !h.disposed ==> L.Listen(Dispose(h).0.listener, events, Invoke, h.stopSignal).dispatched == []
  {
    if !h.disposed {
      L.DisposedListenerStops(h.listener, events, Invoke, h.stopSignal);
    }
  }
}

=== FILE: linux_signal_listener.dfy ===
/** `LinuxSignalListener`: per-signal handler lists, the dispatch of one signal to its handlers,
    and the listening loop, driven by the results its waits return instead of by real signals.
    Handlers are of any type `H`; what a handler does is the `invoke` parameter, which takes the
    handler and a state of any type `S` and gives the new state and whether the handler threw. */
module LinuxSignalListener {
  import opened Wrappers
  import opened Errors

  /** `Mono.Unix.Native.Signum`, by its Linux signal number. */
  type Signum = int

  const SIGINT: Signum := 2
  const SIGTERM: Signum := 15

  /** The signals that end the listening loop. */
  predicate IsTermination(signal: Signum) {
    signal == SIGINT || signal == SIGTERM
  }

  /** The subscriptions, in the order their signals were first subscribed, and whether the
      stop event is set. */
  datatype Listener<H> = Listener(subscriptions: seq<(Signum, seq<H>)>, stopListen: bool)

  /** The signal of each subscription, in order. */
  function Keys<H>(subscriptions: seq<(Signum, seq<H>)>): (r: seq<Signum>)
    ensures |r| == |subscriptions|
    ensures forall i :: 0 <= i < |subscriptions| ==> r[i] == subscriptions[i].0
  {
    if |subscriptions| == 0 then [] else [subscriptions[0].0] + Keys(subscriptions[1..])
  }

  /** The subscribed signals in dictionary order: the array the loop waits on. */
  function Signals<H>(l: Listener<H>): seq<Signum> {
    Keys(l.subscriptions)
  }

  /** A `Dictionary` has one entry per signal. */
  predicate WellFormed<H>(l: Listener<H>) {
    Distinct(Signals(l))
  }

  predicate Distinct(ks: seq<Signum>) {
    forall i, j :: 0 <= i < j < |ks| ==> ks[i] != ks[j]
  }

  lemma AppendDistinct(ks: seq<Signum>, k: Signum)
    requires Distinct(ks) && k !in ks
    ensures Distinct(ks + [k])
  {
  }

  /** A fresh listener: no subscriptions, stop event not set. */
  function New<H>(): (r: Listener<H>)
    ensures WellFormed(r) && Signals(r) == [] && !r.stopListen
    ensures forall signal :: Subscribers(r, signal) == []
  {
    Listener([], false)
  }

  function SubscribersIn<H>(subscriptions: seq<(Signum, seq<H>)>, signal: Signum): (r: seq<H>)
    ensures signal !in Keys(subscriptions) ==> r == []
  {
    if |subscriptions| == 0 then []
    else if subscriptions[0].0 == signal then subscriptions[0].1
    else SubscribersIn(subscriptions[1..], signal)
  }

  /** `TryGetValue`: the handlers subscribed to `signal`, none when it has no entry. */
  function Subscribers<H>(l: Listener<H>, signal: Signum): (r: seq<H>)
    ensures signal !in Signals(l) ==> r == []
  {
    SubscribersIn(l.subscriptions, signal)
  }

  function SubscribeIn<H>(subscriptions: seq<(Signum, seq<H>)>, signal: Signum, handler: H): (r: seq<(Signum, seq<H>)>)
    ensures SubscribersIn(r, signal) == SubscribersIn(subscriptions, signal) + [handler]
    ensures forall other :: other != signal ==> SubscribersIn(r, other) == SubscribersIn(subscriptions, other)
    ensures signal in Keys(subscriptions) ==> Keys(r) == Keys(subscriptions)
    ensures signal !in Keys(subscriptions) ==> Keys(r) == Keys(subscriptions) + [signal]
  {
    if |subscriptions| == 0 then [(signal, [handler])]
    else if subscriptions[0].0 == signal then
      var r := [(signal, subscriptions[0].1 + [handler])] + subscriptions[1..];
      assert r[1..] == subscriptions[1..];
      Uncons(subscriptions);
      Uncons(r);
      r
    else
      var rest := SubscribeIn(subscriptions[1..], signal, handler);
      SubscribeBehind(subscriptions[0], subscriptions[1..], rest, signal, handler);
      assert [subscriptions[0]] + subscriptions[1..] == subscriptions;
      [subscriptions[0]] + rest
  }

  /** `after` is `before` with `handler` appended to `signal`'s list, the signal added at the
      end when it had no entry. */
  ghost predicate Subscribed<H>(before: seq<(Signum, seq<H>)>, after: seq<(Signum, seq<H>)>, signal: Signum, handler: H) {
    && SubscribersIn(after, signal) == SubscribersIn(before, signal) + [handler]
    && (forall other :: other != signal ==> SubscribersIn(after, other) == SubscribersIn(before, other))
    && (signal in Keys(before) ==> Keys(after) == Keys(before))
    && (signal !in Keys(before) ==> Keys(after) == Keys(before) + [signal])
  }

  /** Subscribing behind an entry for another signal leaves that entry in front. */
  lemma SubscribeBehind<H>(head: (Signum, seq<H>), before: seq<(Signum, seq<H>)>, after: seq<(Signum, seq<H>)>,
                           signal: Signum, handler: H)
    requires head.0 != signal && Subscribed(before, after, signal, handler)
    ensures Subscribed([head] + before, [head] + after, signal, handler)
  {
    var b, a := [head] + before, [head] + after;
    assert b[1..] == before && a[1..] == after;
    Uncons(b);
    Uncons(a);
    assert SubscribersIn(a, signal) == SubscribersIn(after, signal);
    assert SubscribersIn(b, signal) == SubscribersIn(before, signal);
    assert signal in Keys(b) <==> signal in Keys(before) by {
      assert Keys(b) == [head.0] + Keys(before);
    }
    if signal !in Keys(before) {
      assert Keys(a) == [head.0] + (Keys(before) + [signal]);
      assert [head.0] + (Keys(before) + [signal]) == [head.0] + Keys(before) + [signal];
    }
  }

  /** The first subscription and the rest: its signal heads the keys, and it answers for its
      own signal while the rest answer for every other. */
  lemma Uncons<H>(subscriptions: seq<(Signum, seq<H>)>)
    requires |subscriptions| > 0
    ensures Keys(subscriptions) == [subscriptions[0].0] + Keys(subscriptions[1..])
    ensures forall other ::
      SubscribersIn(subscriptions, other) ==
        (if subscriptions[0].0 == other then subscriptions[0].1 else SubscribersIn(subscriptions[1..], other))
  {
  }

  /** `Subscribe`: the handler goes to the end of its signal's list, which is created (as the
      last dictionary entry) when the signal had none; every other signal keeps its list. */
  function Subscribe<H>(l: Listener<H>, signal: Signum, handler: H): (r: Listener<H>)
    requires WellFormed(l)
    ensures WellFormed(r) && r.stopListen == l.stopListen
    ensures Subscribers(r, signal) == Subscribers(l, signal) + [handler]
    ensures forall other :: other != signal ==> Subscribers(r, other) == Subscribers(l, other)
    ensures signal in Signals(l) ==> Signals(r) == Signals(l)
    ensures signal !in Signals(l) ==> Signals(r) == Signals(l) + [signal]
  {
    var r := Listener(SubscribeIn(l.subscriptions, signal, handler), l.stopListen);
    assert signal !in Signals(l) ==> Distinct(Signals(r)) by {
      if signal !in Signals(l) {
        AppendDistinct(Signals(l), signal);
      }
    }
    r
  }

  /** The state after running `handlers` one after the other; a handler that throws keeps the
      state it reached and the next one runs. */
  function Fold<S, H>(invoke: (H, S) -> (S, Outcome), handlers: seq<H>, s: S): S
    decreases |handlers|
  {
    if |handlers| == 0 then s else Fold(invoke, handlers[1..], invoke(handlers[0], s).0)
  }

  /** `Handle`: every handler of the signal runs once, in subscription order, whatever the
      earlier ones did; `swallowed` counts the handlers whose exception was caught. */
  method Handle<S, H>(l: Listener<H>, signal: Signum, invoke: (H, S) -> (S, Outcome), s0: S)
    returns (s: S, invoked: seq<H>, swallowed: nat)
    ensures invoked == Subscribers(l, signal)
    ensures s == Fold(invoke, Subscribers(l, signal), s0)
    ensures swallowed <= |invoked|
    ensures swallowed == 0 <==> forall j :: 0 <= j < |invoked| ==> invoke(invoked[j], Fold(invoke, invoked[..j], s0)).1 == Done
  {
    var subscribers := Subscribers(l, signal);
    s, invoked, swallowed := s0, [], 0;
    var i := 0;
    while i < |subscribers|
      invariant 0 <= i <= |subscribers|
      invariant invoked == subscribers[..i]
      invariant Fold(invoke, subscribers[i..], s) == Fold(invoke, subscribers, s0)
      invariant s == Fold(invoke, subscribers[..i], s0)
      invariant swallowed <= i
      invariant swallowed == 0 <==> forall j :: 0 <= j < i ==> invoke(subscribers[j], Fold(invoke, subscribers[..j], s0)).1 == Done
    {
      assert subscribers[i..][1..] == subscribers[i + 1..];
      FoldStep(invoke, subscribers, i, s0);
      var (next, outcome) := invoke(subscribers[i], s);
      if outcome.Threw? {
        swallowed := swallowed + 1;
      }
      s := next;
      invoked := invoked + [subscribers[i]];
      i := i + 1;
    }
    assert subscribers[..i] == subscribers;
  }

  /** Running one more handler extends the fold by one step. */
  lemma {:induction false} FoldStep<S, H>(invoke: (H, S) -> (S, Outcome), handlers: seq<H>, i: nat, s0: S)
    requires i < |handlers|
    ensures Fold(invoke, handlers[..i + 1], s0) == invoke(handlers[i], Fold(invoke, handlers[..i], s0)).0
    decreases i
  {
    if i > 0 {
      assert handlers[..i + 1][1..] == handlers[1..][..i];
      assert handlers[..i][1..] == handlers[1..][..i - 1];
      FoldStep(invoke, handlers[1..], i - 1, invoke(handlers[0], s0).0);
    }
  }

  /** A signal nobody subscribed to dispatches to nobody and leaves the state alone. */
  lemma UnsubscribedSignalDoesNothing<S, H>(l: Listener<H>, signal: Signum, invoke: (H, S) -> (S, Outcome), s0: S)
    requires signal !in Signals(l)
    ensures Subscribers(l, signal) == [] && Fold(invoke, Subscribers(l, signal), s0) == s0
  {
  }

  /** What a `UnixSignal.WaitAny` call returned: an index into the waited signals (anything
      outside them is a timeout) and whether that signal's `IsSet` flag was up. */
  datatype WaitResult = WaitResult(index: int, isSet: bool)

  /** What happens between two checks of the stop event: `Dispose` is called, or a wait
      returns. */
  datatype ListenEvent = Disposed | Woke(result: WaitResult)

  /** What one pass of the loop body did after a wait: the new state, the handlers run, the
      signal dispatched if any, and whether the loop breaks. */
  datatype Step<S, H> = Step(state: S, invoked: seq<H>, dispatched: Option<Signum>, breaks: bool)

  /** One loop body: a timeout does nothing; a returned signal is handled when its flag is
      set, and the loop breaks after SIGINT or SIGTERM whether it was set or not. */
  function LoopBody<S, H>(l: Listener<H>, w: WaitResult, invoke: (H, S) -> (S, Outcome), s: S): (r: Step<S, H>)
    ensures !(0 <= w.index < |Signals(l)|) ==> r == Step(s, [], None, false)
    ensures 0 <= w.index < |Signals(l)| ==>
      && r.breaks == IsTermination(Signals(l)[w.index])
      && (r.dispatched.Some? <==> w.isSet)
      && (w.isSet ==> r.dispatched.value == Signals(l)[w.index])
      && r.invoked == (if w.isSet then Subscribers(l, Signals(l)[w.index]) else [])
  {
    var signals := Signals(l);
    if 0 <= w.index < |signals| then
      var signal := signals[w.index];
      if w.isSet then Step(Fold(invoke, Subscribers(l, signal), s), Subscribers(l, signal), Some(signal), IsTermination(signal))
      else Step(s, [], None, IsTermination(signal))
    else Step(s, [], None, false)
  }

  /** Why the loop ended, or that it is still waiting when the events run out. */
  datatype Exit = StopRequested | TerminationSignal(signal: Signum) | StillListening

  datatype ListenRun<S, H> = ListenRun(state: S, dispatched: seq<Signum>, invoked: seq<H>, exit: Exit)

  /** `Listen`'s loop: check the stop event, wait, run the body; repeat. */
  function Listen<S, H>(l: Listener<H>, events: seq<ListenEvent>, invoke: (H, S) -> (S, Outcome), s: S): (r: ListenRun<S, H>)
    ensures forall j :: 0 <= j < |r.dispatched| ==> r.dispatched[j] in Signals(l)
    ensures |r.dispatched| <= |events|
    ensures r.exit.TerminationSignal? ==> IsTermination(r.exit.signal) && r.exit.signal in Signals(l)
    ensures l.stopListen ==> r == ListenRun(s, [], [], StopRequested)
    decreases |events|
  {
    if l.stopListen then ListenRun(s, [], [], StopRequested)
    else if |events| == 0 then ListenRun(s, [], [], StillListening)
    else match events[0]
      case Disposed =>
        var r := Listen(l.(stopListen := true), events[1..], invoke, s);
        assert Signals(l.(stopListen := true)) == Signals(l);
        r
      case Woke(w) =>
        var step := LoopBody(l, w, invoke, s);
        var here := if step.dispatched.Some? then [step.dispatched.value] else [];
        if step.breaks then
          ListenRun(step.state, here, step.invoked, TerminationSignal(Signals(l)[w.index]))
        else
          var rest := Listen(l, events[1..], invoke, step.state);
          ListenRun(rest.state, here + rest.dispatched, step.invoked + rest.invoked, rest.exit)
  }

  /** Once the loop has ended, whatever happens afterwards changes nothing. */
  lemma {:induction false} EndedLoopIgnoresLaterEvents<S, H>(l: Listener<H>, a: seq<ListenEvent>, b: seq<ListenEvent>,
                                                             invoke: (H, S) -> (S, Outcome), s: S)
    requires Listen(l, a, invoke, s).exit != StillListening
    ensures Listen(l, a + b, invoke, s) == Listen(l, a, invoke, s)
    decreases |a|
  {
    if !l.stopListen {
      assert (a + b)[0] == a[0] && (a + b)[1..] == a[1..] + b;
      match a[0]
      case Disposed =>
        EndedLoopIgnoresLaterEvents(l.(stopListen := true), a[1..], b, invoke, s);
      case Woke(w) =>
        var step := LoopBody(l, w, invoke, s);
        if !step.breaks {
          EndedLoopIgnoresLaterEvents(l, a[1..], b, invoke, step.state);
        }
    }
  }

  /** `Dispose` sets the stop event: the loop ends at its next check, dispatching nothing more,
      whatever the later waits return. */
  lemma DisposeEndsLoop<S, H>(l: Listener<H>, a: seq<ListenEvent>, b: seq<ListenEvent>, invoke: (H, S) -> (S, Outcome), s: S)
    requires Listen(l, a, invoke, s).exit == StillListening
    ensures Listen(l, a + [Disposed] + b, invoke, s) == Listen(l, a + [Disposed], invoke, s)
    ensures Listen(l, a + [Disposed], invoke, s) == Listen(l, a, invoke, s).(exit := StopRequested)
  {
    DisposeAfter(l, a, invoke, s);
    EndedLoopIgnoresLaterEvents(l, a + [Disposed], b, invoke, s);
  }

  lemma {:induction false} DisposeAfter<S, H>(l: Listener<H>, a: seq<ListenEvent>, invoke: (H, S) -> (S, Outcome), s: S)
    requires Listen(l, a, invoke, s).exit == StillListening
    ensures Listen(l, a + [Disposed], invoke, s) == Listen(l, a, invoke, s).(exit := StopRequested)
    decreases |a|
  {
    if |a| == 0 {
      assert a + [Disposed] == [Disposed];
      assert [Disposed][1..] == [];
    } else {
      assert (a + [Disposed])[0] == a[0] && (a + [Disposed])[1..] == a[1..] + [Disposed];
      match a[0]
      case Disposed =>
      case Woke(w) =>
        DisposeAfter(l, a[1..], invoke, LoopBody(l, w, invoke, s).state);
    }
  }

  /** A timeout dispatches nothing: the loop goes straight back to its stop check. */
  lemma TimeoutDispatchesNothing<S, H>(l: Listener<H>, index: int, isSet: bool, rest: seq<ListenEvent>,
                                       invoke: (H, S) -> (S, Outcome), s: S)
    requires !(0 <= index < |Signals(l)|)
    ensures Listen(l, [Woke(WaitResult(index, isSet))] + rest, invoke, s) == Listen(l, rest, invoke, s)
  {
    assert ([Woke(WaitResult(index, isSet))] + rest)[1..] == rest;
  }

  /** Waking on SIGINT or SIGTERM ends the loop, after running the handlers only if the
      signal's flag is set. */
  lemma TerminationEndsLoop<S, H>(l: Listener<H>, index: int, isSet: bool, rest: seq<ListenEvent>,
                                  invoke: (H, S) -> (S, Outcome), s: S)
    requires !l.stopListen && 0 <= index < |Signals(l)| && IsTermination(Signals(l)[index])
    ensures var r := Listen(l, [Woke(WaitResult(index, isSet))] + rest, invoke, s);
      && r.exit == TerminationSignal(Signals(l)[index])
      && r.dispatched == (if isSet then [Signals(l)[index]] else [])
      && r.invoked == (if isSet then Subscribers(l, Signals(l)[index]) else [])
      && r.state == (if isSet then Fold(invoke, Subscribers(l, Signals(l)[index]), s) else s)
  {
  }

  /** `Dispose`: sets the stop event and nothing else. */
  function Dispose<H>(l: Listener<H>): (r: Listener<H>)
    ensures r.stopListen && r.subscriptions == l.subscriptions
  {
    l.(stopListen := true)
  }

  /** A disposed listener's loop ends at its first check and dispatches nothing. */
  lemma DisposedListenerStops<S, H>(l: Listener<H>, events: seq<ListenEvent>, invoke: (H, S) -> (S, Outcome), s: S)
    ensures Listen(Dispose(l), events, invoke, s) == ListenRun(s, [], [], StopRequested)
  {
  }
}

=== FILE: mono_helper.dfy ===
/** `MonoHelper`: the platform checks, the shell result record, and the command-line builder
    whose output has no leading space. Its `ParseCommandLine` is the shared
    `CommandLineGrammar.ParseCommandLine`. */
module MonoHelper {
  import opened Wrappers
  import opened Text
  import opened CommandLineGrammar
  import TopshelfHelper

  /** `RunninOnUnix`: `PlatformID.Unix` (4), `PlatformID.MacOSX` (6) or the value 128 that old
      Mono runtimes report on Unix. */
  predicate RunninOnUnix(platform: int) {
    platform == 4 || platform == 6 || platform == 128
  }

  /** `RunninOnLinux`: the Unix ids other than MacOSX. */
  predicate RunninOnLinux(platform: int) {
    platform == 4 || platform == 128
  }

  /** Linux is a Unix, and MacOSX is the one Unix that is not Linux. */
  lemma LinuxIsUnix(platform: int)
    ensures RunninOnLinux(platform) ==> RunninOnUnix(platform)
    ensures RunninOnUnix(platform) && !RunninOnLinux(platform) <==> platform == 6
  {
  }

  /** `ProcessResult` of a shell command: a command that did not finish in time has neither an
      exit code nor output. */
  datatype ProcessResult = ProcessResult(completed: bool, exitCode: Option<int>, output: Option<string>)

  /** What `ExecuteShellCommand` can return. */
  predicate WellFormedResult(r: ProcessResult) {
    r.completed == r.exitCode.Some? && r.completed == r.output.Some?
  }

  /** A command handed to `sh -c`, and how long to wait for it in milliseconds (-1 waits
      forever). */
  datatype ShellCommand = ShellCommand(command: string, timeout: int)

  /** The command `ExecuteShellCommand` runs for a template with one `{0}` placeholder: the
      argument put in place of the placeholder, then trimmed. */
  function FormatCommand(template: string, argument: string, timeout: int): (r: ShellCommand)
    ensures r.timeout == timeout
    ensures !Contains(template, "{0}") ==> r.command == Trim(template)
  {
    assert !Contains(template, "{0}") ==> Replace(template, "{0}", argument) == template by {
      if !Contains(template, "{0}") {
        ReplaceAbsent(template, "{0}", argument);
      }
    }
    ShellCommand(Trim(Replace(template, "{0}", argument)), timeout)
  }

  /** A template with one placeholder between a non-blank head and tail runs as the head, the
      argument and the tail. */
  lemma FormatSplice(head: string, tail: string, argument: string, timeout: int)
    requires forall i :: 0 <= i < |head| ==> !OccursAt(head + "{0}", "{0}", i)
    requires !Contains(tail, "{0}")
    requires |head| > 0 && !IsWhiteSpace(head[0])
    requires |tail| > 0 && !IsWhiteSpace(tail[|tail| - 1])
    ensures FormatCommand(head + "{0}" + tail, argument, timeout) == ShellCommand(head + argument + tail, timeout)
  {
    ReplaceAfter(head, "{0}", tail, argument);
    ReplaceAbsent(tail, "{0}", argument);
    var c := head + argument + tail;
    assert c[0] == head[0] && c[|c| - 1] == tail[|tail| - 1];
    TrimUnchanged(c);
  }

  /** The shell as the model sees it: the result of running a command. */
  type Shell = ShellCommand -> ProcessResult

  /** `BuildCommandLine`: the emitted tokens joined by single spaces; `""` for a null
      dictionary. */
  function BuildCommandLine(commandLineParams: Option<Args>): (r: string)
    ensures commandLineParams.None? ==> r == ""
    ensures commandLineParams.Some? ==> r == Join(EmitTokens(commandLineParams.value), " ")
  {
    match commandLineParams
    case None => ""
    case Some(d) =>
      var commandLine := Fragments(d);
      FragmentsAreTrailingTokens(d);
      if |commandLine| > 0 then
        TrailingIsJoined(EmitTokens(d));
        commandLine[..|commandLine| - 1]
      else
        commandLine
  }

  /** A dictionary with no surviving entry, the empty one included, builds to `""`. */
  lemma BuildOfNothing(d: Args)
    requires Emitted(d) == []
    ensures BuildCommandLine(Some(d)) == ""
  {
    EmitTokensEmpty(d);
  }

  /** The two builders emit the same tokens: `TopshelfHelper`'s output is this one's with a
      leading space, whenever anything is emitted. */
  lemma TopshelfBuildAddsLeadingSpace(d: Args)
    ensures Emitted(d) != [] ==> TopshelfHelper.BuildCommandLine(Some(d)) == " " + BuildCommandLine(Some(d))
    ensures Emitted(d) == [] ==> TopshelfHelper.BuildCommandLine(Some(d)) == "" == BuildCommandLine(Some(d))
  {
    EmitTokensEmpty(d);
    if Emitted(d) != [] {
      SpacedIsJoined(EmitTokens(d));
    }
  }

  /** Parsing a program path, a space and a built command line gives back the dictionary
      without its false switches and empty values. */
  lemma RoundTrip(program: string, d: Args)
    requires IsWord(program)
    requires RoundTrippable(d)
    ensures ParseCommandLine(program + " " + BuildCommandLine(Some(d))) == Emitted(d)
  {
    var ts := EmitTokens(d);
    EmitTokensEmpty(d);
    if |ts| > 0 {
      SpacedIsJoined(ts);
      assert program + " " + BuildCommandLine(Some(d)) == program + Spaced(ts);
      RoundTripTokens(program, d);
    } else {
      ProgramAlone(program);
    }
  }

  /** A program path followed by one space holds no arguments. */
  lemma ProgramAlone(program: string)
    requires IsWord(program)
    ensures ParseCommandLine(program + " " + "") == []
  {
    assert program + " " + "" == program + " ";
    ParseSkipsProgram(program, " ");
    TokenizeBlank(" ");
  }

  /** `NormalizeCommandLine`, with the process command line as a parameter: parse, then build. */
  function NormalizeCommandLine(commandLine: string): (r: string)
    ensures IsBlank(commandLine) ==> r == ""
  {
    BuildCommandLine(Some(ParseCommandLine(commandLine)))
  }

  /** A command line that is already normal stays as it is. */
  lemma NormalizeBuilt(program: string, d: Args)
    requires IsWord(program)
    requires RoundTrippable(d)
    ensures NormalizeCommandLine(program + " " + BuildCommandLine(Some(d))) == BuildCommandLine(Some(d))
  {
    RoundTrip(program, d);
    FragmentsOfEmitted(d);
    FragmentsAreTrailingTokens(d);
    FragmentsAreTrailingTokens(Emitted(d));
    EmitTokensOfEmitted(d);
  }
}

=== FILE: service_status.dfy ===
/** Service status inferred from the process table, shared by `TopshelfHelper.GetStatus` and
    `LinuxServiceController.GetStatus`: a service runs when some `mono` process was started with
    a command line naming it. The two copies differ only in the character that joins the
    service name and the instance name, so the separator is a parameter. */
module ServiceStatus {
  import opened Wrappers
  import opened Text
  import opened CommandLineGrammar
  import LinuxProcess

  /** The two `ServiceControllerStatus` values the resolvers return. */
  datatype ServiceControllerStatus = Stopped | Running

  /** `value as string` is a non-empty string. */
  predicate IsNonEmptyString(v: Option<Value>) {
    v.Some? && v.value.Str? && |v.value.s| > 0
  }

  /** The key a parsed command line announces: the `servicename` value, followed by `sep` and
      the `instance` value when that is a non-empty string too. Missing, non-string or empty
      service names announce nothing. */
  function ServiceKey(args: Args, sep: char): (r: Option<string>) {
    var name := Lookup(OrdinalIgnoreCase, args, "servicename");
    var instance := Lookup(OrdinalIgnoreCase, args, "instance");
    if !IsNonEmptyString(name) then None
    else if IsNonEmptyString(instance) then Some(name.value.s + [sep] + instance.value.s)
    else Some(name.value.s)
  }

  /** A command line that announces `serviceName`, compared ignoring case. */
  predicate Announces(commandLine: string, serviceName: string, sep: char) {
    && !IsBlank(commandLine)
    && var key := ServiceKey(ParseCommandLine(commandLine), sep);
    && key.Some? && EqualsIgnoreCase(serviceName, key.value)
  }

  /** The loop over the `mono` processes: the first one that announces the service stops it. */
  function Scan(serviceName: string, monoProcesses: seq<LinuxProcess.ProcessRecord>, sep: char): (r: ServiceControllerStatus)
    ensures r == Running <==>
      exists i :: 0 <= i < |monoProcesses| && Announces(monoProcesses[i].commandLine, serviceName, sep)
  {
    if |monoProcesses| == 0 then Stopped
    else if Announces(monoProcesses[0].commandLine, serviceName, sep) then Running
    else
      var r := Scan(serviceName, monoProcesses[1..], sep);
      assert forall i :: 1 <= i < |monoProcesses| ==> monoProcesses[i] == monoProcesses[1..][i - 1];
      r
  }

  /** A process named `mono` whose command line announces the service. */
  predicate RunsService(p: LinuxProcess.ProcessRecord, serviceName: string, sep: char) {
    p.processName == Some("mono") && Announces(p.commandLine, serviceName, sep)
  }

  /** Running exactly when some process named `mono` has a command line announcing the
      service; Stopped otherwise, an empty process table included. */
  function GetStatus(serviceName: string, processes: seq<LinuxProcess.ProcessRecord>, sep: char): (r: ServiceControllerStatus)
    ensures r == Running <==> exists i :: 0 <= i < |processes| && RunsService(processes[i], serviceName, sep)
  {
    ScanOfMonoProcesses(serviceName, processes, sep);
    Scan(serviceName, LinuxProcess.GetProcessesByName("mono", processes), sep)
  }

  /** Scanning the `mono` processes finds the service exactly when some process of the whole
      table runs it. */
  lemma ScanOfMonoProcesses(serviceName: string, processes: seq<LinuxProcess.ProcessRecord>, sep: char)
    ensures Scan(serviceName, LinuxProcess.GetProcessesByName("mono", processes), sep) == Running
        <==> exists i :: 0 <= i < |processes| && RunsService(processes[i], serviceName, sep)
  {
    var m := LinuxProcess.GetProcessesByName("mono", processes);
    FilterExists(processes, m, (p: LinuxProcess.ProcessRecord) => p.processName == Some("mono"),
                 (p: LinuxProcess.ProcessRecord) => Announces(p.commandLine, serviceName, sep));
  }

  /** Some member of a filtered sequence is good exactly when some member of the original
      both passes the filter and is good. */
  lemma FilterExists<T>(xs: seq<T>, m: seq<T>, keep: T -> bool, good: T -> bool)
    requires forall x :: x in m <==> x in xs && keep(x)
    ensures (exists i :: 0 <= i < |m| && good(m[i])) <==> (exists j :: 0 <= j < |xs| && keep(xs[j]) && good(xs[j]))
  {
    if exists i :: 0 <= i < |m| && good(m[i]) {
      var i :| 0 <= i < |m| && good(m[i]);
      assert m[i] in xs;
      var j :| 0 <= j < |xs| && xs[j] == m[i];
    }
    if exists j :: 0 <= j < |xs| && keep(xs[j]) && good(xs[j]) {
      var j :| 0 <= j < |xs| && keep(xs[j]) && good(xs[j]);
      assert xs[j] in m;
      var i :| 0 <= i < |m| && m[i] == xs[j];
    }
  }

  /** A command line that names the service and no instance announces exactly that name. */
  lemma AnnouncesServiceName(program: string, d: Args, serviceName: string, sep: char)
    requires IsWord(program)
    requires RoundTrippable(d)
    requires |serviceName| > 0
    requires Lookup(OrdinalIgnoreCase, d, "servicename") == Some(Str(serviceName))
    requires !IsNonEmptyString(Lookup(OrdinalIgnoreCase, d, "instance"))
    ensures ServiceKey(ParseCommandLine(program + Spaced(EmitTokens(d))), sep) == Some(serviceName)
  {
    RoundTripTokens(program, d);
    LookupEmitted(d, "servicename");
    LookupEmitted(d, "instance");
  }

  /** A command line that names the service and a non-empty instance announces the two joined
      by the separator. */
  lemma AnnouncesInstanceName(program: string, d: Args, serviceName: string, instance: string, sep: char)
    requires IsWord(program)
    requires RoundTrippable(d)
    requires |serviceName| > 0 && |instance| > 0
    requires Lookup(OrdinalIgnoreCase, d, "servicename") == Some(Str(serviceName))
    requires Lookup(OrdinalIgnoreCase, d, "instance") == Some(Str(instance))
    ensures ServiceKey(ParseCommandLine(program + Spaced(EmitTokens(d))), sep) == Some(serviceName + [sep] + instance)
  {
    RoundTripTokens(program, d);
    LookupEmitted(d, "servicename");
    LookupEmitted(d, "instance");
  }

  /** Dropping the entries a build omits keeps the lookup of every surviving entry, and an
      omitted entry reads back as missing. */
  lemma {:induction false} LookupEmitted(d: Args, k: string)
    requires DistinctKeys(OrdinalIgnoreCase, d)
    ensures var v := Lookup(OrdinalIgnoreCase, d, k);
      Lookup(OrdinalIgnoreCase, Emitted(d), k) == if v.Some? && Emits(v.value) then v else None
  {
    if |d| > 0 {
      assert DistinctKeys(OrdinalIgnoreCase, d[1..]) by {
        assert forall i :: 0 <= i < |d| - 1 ==> d[1..][i] == d[i + 1];
      }
      LookupEmitted(d[1..], k);
      var rest := Emitted(d[1..]);
      if KeyEquals(OrdinalIgnoreCase, d[0].0, k) {
        KeyEqualsIsEquivalence(OrdinalIgnoreCase);
        assert !HasKey(OrdinalIgnoreCase, d[1..], k) by {
          forall j | 0 <= j < |d| - 1 ensures !KeyEquals(OrdinalIgnoreCase, d[1..][j].0, k) {
            assert d[1..][j] == d[j + 1];
            assert !KeyEquals(OrdinalIgnoreCase, d[0].0, d[j + 1].0);
          }
        }
        if Emits(d[0].1) {
          assert Emitted(d) == [d[0]] + rest;
        }
      } else {
        assert Lookup(OrdinalIgnoreCase, d, k) == Lookup(OrdinalIgnoreCase, d[1..], k);
        if Emits(d[0].1) {
          assert Emitted(d) == [d[0]] + rest;
          assert ([d[0]] + rest)[1..] == rest;
        }
      }
    }
  }
}

=== FILE: text.dfy ===
/** The .NET string operations the runtime relies on, written out over `seq<char>`. */
module Text {
  import opened Wrappers

  /** `char.IsWhiteSpace`, which is also the set the regular-expression class `\s` matches. */
  predicate IsWhiteSpace(c: char) {
    || c == ' ' || ('\t' <= c <= '\r') || c == '\U{0085}' || c == '\U{00A0}' || c == '\U{1680}'
    || ('\U{2000}' <= c <= '\U{200A}') || c == '\U{2028}' || c == '\U{2029}' || c == '\U{202F}'
    || c == '\U{205F}' || c == '\U{3000}'
  }

  /** `string.IsNullOrWhiteSpace` on a non-null string. */
  predicate IsBlank(s: string) {
    forall i :: 0 <= i < |s| ==> IsWhiteSpace(s[i])
  }

  /** `string.IsNullOrWhiteSpace` on a string that may be null. */
  predicate IsNullOrBlank(s: Option<string>) {
    s.None? || IsBlank(s.value)
  }

  /** `string.IsNullOrEmpty` on a string that may be null. */
  predicate IsNullOrEmpty(s: Option<string>) {
    s.None? || |s.value| == 0
  }

  predicate HasNoWhiteSpace(s: string) {
    forall i :: 0 <= i < |s| ==> !IsWhiteSpace(s[i])
  }

  /** `TrimStart`: drops the longest prefix whose characters all satisfy `drop`. */
  function TrimStart(s: string, drop: char -> bool): (r: string)
    ensures |r| <= |s| && r == s[|s| - |r|..]
    ensures |r| > 0 ==> !drop(r[0])
    ensures forall i :: 0 <= i < |s| - |r| ==> drop(s[i])
    decreases |s|
  {
    if |s| > 0 && drop(s[0]) then
      var r := TrimStart(s[1..], drop);
      assert forall i :: 1 <= i < |s| - |r| ==> s[i] == s[1..][i - 1];
      r
    else s
  }

  /** `TrimEnd`: drops the longest suffix whose characters all satisfy `drop`. */
  function TrimEnd(s: string, drop: char -> bool): (r: string)
    ensures |r| <= |s| && r == s[..|r|]
    ensures |r| > 0 ==> !drop(r[|r| - 1])
    ensures forall i :: |r| <= i < |s| ==> drop(s[i])
    decreases |s|
  {
    if |s| > 0 && drop(s[|s| - 1]) then
      var r := TrimEnd(s[..|s| - 1], drop);
      assert forall i :: |r| <= i < |s| - 1 ==> s[i] == s[..|s| - 1][i];
      r
    else s
  }

  /** One step of `TrimStart` and `TrimEnd`, and where they stop. */
  lemma TrimStartStep(s: string, drop: char -> bool)
    requires |s| > 0 && drop(s[0])
    ensures TrimStart(s, drop) == TrimStart(s[1..], drop)
  {
  }

  lemma TrimStartStops(s: string, drop: char -> bool)
    requires |s| == 0 || !drop(s[0])
    ensures TrimStart(s, drop) == s
  {
  }

  lemma TrimEndStep(s: string, drop: char -> bool)
    requires |s| > 0 && drop(s[|s| - 1])
    ensures TrimEnd(s, drop) == TrimEnd(s[..|s| - 1], drop)
  {
  }

  lemma TrimEndStops(s: string, drop: char -> bool)
    requires |s| == 0 || !drop(s[|s| - 1])
    ensures TrimEnd(s, drop) == s
  {
  }

  /** `Trim(chars)`: both ends. */
  function TrimBoth(s: string, drop: char -> bool): string {
    TrimEnd(TrimStart(s, drop), drop)
  }

  /** `string.Trim()`: both ends, white space. */
  function Trim(s: string): string {
    TrimBoth(s, IsWhiteSpace)
  }

  /** `r` is `s[i..j]` and every character outside that slice satisfies `drop`. */
  ghost predicate TrimmedSlice(s: string, drop: char -> bool, r: string, i: int, j: int) {
    && 0 <= i <= j <= |s| && r == s[i..j]
    && (forall k :: 0 <= k < i ==> drop(s[k]))
    && (forall k :: j <= k < |s| ==> drop(s[k]))
  }

  /** Trimming removes only matching characters from the ends, and leaves none there. */
  lemma TrimBothIsSlice(s: string, drop: char -> bool)
    ensures exists i, j :: TrimmedSlice(s, drop, TrimBoth(s, drop), i, j)
    ensures var r := TrimBoth(s, drop); |r| > 0 ==> !drop(r[0]) && !drop(r[|r| - 1])
  {
    var t := TrimStart(s, drop);
    var r := TrimEnd(t, drop);
    TrimmedBoth(s, t, r, drop);
    assert TrimmedSlice(s, drop, TrimBoth(s, drop), |s| - |t|, |s| - |t| + |r|);
  }

  /** The trimming facts of `TrimStart` and `TrimEnd` in sequence give a trimmed slice. */
  lemma TrimmedBoth(s: string, t: string, r: string, drop: char -> bool)
    requires |t| <= |s| && t == s[|s| - |t|..]
    requires |t| > 0 ==> !drop(t[0])
    requires forall k :: 0 <= k < |s| - |t| ==> drop(s[k])
    requires |r| <= |t| && r == t[..|r|]
    requires |r| > 0 ==> !drop(r[|r| - 1])
    requires forall k :: |r| <= k < |t| ==> drop(t[k])
    ensures TrimmedSlice(s, drop, r, |s| - |t|, |s| - |t| + |r|)
    ensures |r| > 0 ==> !drop(r[0]) && !drop(r[|r| - 1])
  {
    var i := |s| - |t|;
    SliceOfSuffix(s, i, |r|);
    if |r| > 0 {
      assert r[0] == t[0];
    }
    TrimmedTail(s, t, r, drop);
  }

  /** A character `drop` keeps survives trimming, at some place `m`. */
  lemma TrimBothKeepsAt(s: string, drop: char -> bool, k: nat) returns (m: nat)
    requires k < |s| && !drop(s[k])
    ensures m < |TrimBoth(s, drop)| && TrimBoth(s, drop)[m] == s[k]
  {
    var t := TrimBoth(s, drop);
    TrimBothIsSlice(s, drop);
    var i, j :| TrimmedSlice(s, drop, t, i, j);
    assert !(k < i) && !(j <= k);
    m := k - i;
    assert t == s[i..j] && t[m] == s[i + m];
  }

  /** A string with a character `drop` keeps trims to a non-empty one. */
  lemma TrimBothKeeps(s: string, drop: char -> bool, k: nat)
    requires k < |s| && !drop(s[k])
    ensures |TrimBoth(s, drop)| > 0
  {
    TrimBothIsSlice(s, drop);
    var i, j :| TrimmedSlice(s, drop, TrimBoth(s, drop), i, j);
    assert i <= k < j;
  }

  lemma SliceOfSuffix(s: string, i: nat, n: nat)
    requires i + n <= |s|
    ensures s[i..][..n] == s[i..i + n]
  {
  }

  /** What `TrimEnd` drops from a suffix of `s` is a suffix of `s`. */
  lemma TrimmedTail(s: string, t: string, r: string, drop: char -> bool)
    requires |t| <= |s| && t == s[|s| - |t|..]
    requires |r| <= |t| && forall k :: |r| <= k < |t| ==> drop(t[k])
    ensures forall k :: |s| - |t| + |r| <= k < |s| ==> drop(s[k])
  {
    var i := |s| - |t|;
    forall k | i + |r| <= k < |s| ensures drop(s[k]) {
      assert s[k] == t[k - i];
    }
  }

  /** Upper-cases ASCII letters; every other character is its own upper case. */
  function ToUpper(c: char): char {
    if 'a' <= c <= 'z' then (c as int - 32) as char else c
  }

  /** `StringComparison.OrdinalIgnoreCase`. */
  predicate EqualsIgnoreCase(a: string, b: string) {
    |a| == |b| && forall i :: 0 <= i < |a| ==> ToUpper(a[i]) == ToUpper(b[i])
  }

  lemma EqualsIgnoreCaseIsEquivalence()
    ensures forall a :: EqualsIgnoreCase(a, a)
    ensures forall a, b :: EqualsIgnoreCase(a, b) ==> EqualsIgnoreCase(b, a)
    ensures forall a, b, c :: EqualsIgnoreCase(a, b) && EqualsIgnoreCase(b, c) ==> EqualsIgnoreCase(a, c)
  {
  }

  /** `string.Join(sep, parts)`. */
  function Join(parts: seq<string>, sep: string): string {
    if |parts| == 0 then ""
    else if |parts| == 1 then parts[0]
    else parts[0] + sep + Join(parts[1..], sep)
  }

  /** `s.Split(new[] { sep }, StringSplitOptions.None)`: every piece is kept, empty ones included,
      and joining the pieces with the separator gives back the input. */
  function Split(s: string, sep: char): (r: seq<string>)
    ensures |r| >= 1
    ensures forall i :: 0 <= i < |r| ==> sep !in r[i]
    ensures Join(r, [sep]) == s
    decreases |s|
  {
    if |s| == 0 then [""]
    else
      var rest := Split(s[1..], sep);
      if s[0] == sep then
        assert Join([""] + rest, [sep]) == "" + [sep] + Join(rest, [sep]);
        [""] + rest
      else
        var r := [[s[0]] + rest[0]] + rest[1..];
        assert Join(r, [sep]) == [s[0]] + Join(rest, [sep]) by {
          if |rest| > 1 {
            assert rest == [rest[0]] + rest[1..];
            assert r[1..] == rest[1..];
          }
        }
        r
  }

  /** The pieces of a split carry no separator, and a single piece is the whole input. */
  lemma SplitFields(s: string, sep: char)
    ensures forall i :: 0 <= i < |Split(s, sep)| ==> sep !in Split(s, sep)[i]
    ensures |Split(s, sep)| == 1 ==> Split(s, sep)[0] == s
  {
    var r := Split(s, sep);
    if |r| == 1 {
      assert Join(r, [sep]) == r[0];
    }
  }

  /** The first separator ends the first piece. */
  lemma {:induction false} SplitAtFirst(a: string, b: string, sep: char)
    requires sep !in a
    ensures Split(a + [sep] + b, sep) == [a] + Split(b, sep)
    decreases |a|
  {
    var s := a + [sep] + b;
    if |a| == 0 {
      assert s[1..] == b;
    } else {
      assert s[1..] == a[1..] + [sep] + b;
      SplitAtFirst(a[1..], b, sep);
      assert [s[0]] + a[1..] == a;
    }
  }

  /** Splitting the concatenation of separator-terminated pieces gives the pieces and a last
      empty one. */
  lemma {:induction false} SplitTerminated(parts: seq<string>, sep: char)
    requires forall i :: 0 <= i < |parts| ==> sep !in parts[i]
    ensures Split(Terminated(parts, sep), sep) == parts + [""]
  {
    if |parts| > 0 {
      SplitTerminated(parts[1..], sep);
      assert Terminated(parts, sep) == parts[0] + [sep] + Terminated(parts[1..], sep);
      SplitAtFirst(parts[0], Terminated(parts[1..], sep), sep);
      assert parts == [parts[0]] + parts[1..];
    }
  }

  /** Every piece followed by `sep`, as in `/proc/<pid>/cmdline`. */
  function Terminated(parts: seq<string>, sep: char): string {
    if |parts| == 0 then "" else parts[0] + [sep] + Terminated(parts[1..], sep)
  }

  /** The pieces that are not empty, in order. */
  function NonEmpty(parts: seq<string>): (r: seq<string>)
    ensures forall i :: 0 <= i < |r| ==> |r[i]| > 0
    ensures forall x :: x in r <==> x in parts && |x| > 0
  {
    if |parts| == 0 then []
    else if |parts[0]| == 0 then NonEmpty(parts[1..])
    else [parts[0]] + NonEmpty(parts[1..])
  }

  /** Dropping empty pieces keeps a list that has none, and removes a trailing empty one. */
  lemma {:induction false} NonEmptyDropsLast(parts: seq<string>)
    requires forall i :: 0 <= i < |parts| ==> |parts[i]| > 0
    ensures NonEmpty(parts + [""]) == parts
  {
    var t := parts + [""];
    if |parts| == 0 {
      assert NonEmpty(t) == NonEmpty(t[1..]);
    } else {
      assert t[1..] == parts[1..] + [""];
      NonEmptyDropsLast(parts[1..]);
      assert |t[0]| > 0;
      assert NonEmpty(t) == [parts[0]] + NonEmpty(parts[1..] + [""]);
      assert parts == [parts[0]] + parts[1..];
    }
  }

  /** A character in neither the pieces nor the separator is not in the join. */
  lemma {:induction false} JoinAvoids(parts: seq<string>, sep: string, c: char)
    requires forall i :: 0 <= i < |parts| ==> c !in parts[i]
    requires c !in sep
    ensures c !in Join(parts, sep)
  {
    if |parts| > 1 {
      JoinAvoids(parts[1..], sep, c);
    }
  }

  predicate OccursAt(s: string, pat: string, i: int) {
    0 <= i && i + |pat| <= |s| && s[i..i + |pat|] == pat
  }

  predicate Contains(s: string, pat: string) {
    exists i :: 0 <= i <= |s| && OccursAt(s, pat, i)
  }

  /** `string.Replace(pat, rep)` (and `StringBuilder.Replace`): a left-to-right scan replacing
      non-overlapping occurrences; replacement text is never rescanned. */
  function Replace(s: string, pat: string, rep: string): string
    requires |pat| > 0
    decreases |s|
  {
    if |s| < |pat| then s
    else if s[..|pat|] == pat then rep + Replace(s[|pat|..], pat, rep)
    else [s[0]] + Replace(s[1..], pat, rep)
  }

  /** An occurrence in the tail is an occurrence in the whole. */
  lemma ContainsTail(s: string, pat: string)
    requires |s| > 0
    ensures Contains(s[1..], pat) ==> Contains(s, pat)
  {
    if Contains(s[1..], pat) {
      var i :| 0 <= i <= |s[1..]| && OccursAt(s[1..], pat, i);
      assert s[i + 1..i + 1 + |pat|] == s[1..][i..i + |pat|];
      assert OccursAt(s, pat, i + 1);
    }
  }

  /** A pattern that never occurs is never replaced. */
  lemma {:induction false} ReplaceAbsent(s: string, pat: string, rep: string)
    requires |pat| > 0
    requires !Contains(s, pat)
    ensures Replace(s, pat, rep) == s
    decreases |s|
  {
    if |s| >= |pat| {
      assert s[0..0 + |pat|] == s[..|pat|];
      assert !OccursAt(s, pat, 0);
      ContainsTail(s, pat);
      ReplaceAbsent(s[1..], pat, rep);
    }
  }

  /** A pattern whose first character is missing from `s` does not occur in it. */
  lemma NoOccurrenceWithoutFirstChar(s: string, pat: string)
    requires |pat| > 0 && pat[0] !in s
    ensures !Contains(s, pat)
  {
    forall i | 0 <= i <= |s| ensures !OccursAt(s, pat, i) {
      if i + |pat| <= |s| {
        assert s[i..i + |pat|][0] == s[i] != pat[0];
      }
    }
  }

  /** Nor does it start inside `a` when it follows `a`. */
  lemma NoEarlyOccurrence(a: string, pat: string)
    requires |pat| > 0 && pat[0] !in a
    ensures forall i :: 0 <= i < |a| ==> !OccursAt(a + pat, pat, i)
  {
    forall i | 0 <= i < |a| ensures !OccursAt(a + pat, pat, i) {
      assert (a + pat)[i..i + |pat|][0] == a[i] != pat[0];
    }
  }

  /** A pattern that occurs first right after `a` is replaced there, and the scan goes on
      after it. */
  lemma {:induction false} ReplaceAfter(a: string, pat: string, b: string, rep: string)
    requires |pat| > 0
    requires forall i :: 0 <= i < |a| ==> !OccursAt(a + pat, pat, i)
    ensures Replace(a + pat + b, pat, rep) == a + rep + Replace(b, pat, rep)
    decreases |a|
  {
    var s := a + pat + b;
    if |a| == 0 {
      assert s[..|pat|] == pat && s[|pat|..] == b;
    } else {
      NoOccurrenceShift(a, pat);
      ReplaceAfter(a[1..], pat, b, rep);
      ReplaceAfterStep(a, pat, b, rep, Replace(b, pat, rep));
    }
  }

  /** One step of the scan in `ReplaceAfter`: no occurrence at the head of `a + pat`, so the
      head character is kept and the scan goes on one character later. */
  lemma ReplaceAfterStep(a: string, pat: string, b: string, rep: string, r: string)
    requires |pat| > 0 && |a| > 0
    requires !OccursAt(a + pat, pat, 0)
    requires Replace(a[1..] + pat + b, pat, rep) == a[1..] + rep + r
    ensures Replace(a + pat + b, pat, rep) == a + rep + r
  {
    var s := a + pat + b;
    assert s[..|pat|] != pat by {
      assert s[..|pat|] == (a + pat)[0..0 + |pat|];
    }
    ReplaceKeepsHead(s, pat, rep);
    HeadAndRest(a, pat, b);
    HeadAndRest(a, rep, r);
  }

  /** Where the pattern does not start the string, its first character is kept as is. */
  lemma ReplaceKeepsHead(s: string, pat: string, rep: string)
    requires 0 < |pat| <= |s| && s[..|pat|] != pat
    ensures Replace(s, pat, rep) == [s[0]] + Replace(s[1..], pat, rep)
  {
  }

  /** The head of `a + x + y` is the head of `a`, and its tail is the tail of `a` followed by
      `x + y`. */
  lemma HeadAndRest(a: string, x: string, y: string)
    requires |a| > 0
    ensures (a + x + y)[0] == a[0] && (a + x + y)[1..] == a[1..] + x + y
    ensures [a[0]] + (a[1..] + x + y) == a + x + y
  {
    assert [a[0]] + a[1..] == a;
  }

  /** No early occurrence in `a + pat` means none in `a[1..] + pat` either. */
  lemma NoOccurrenceShift(a: string, pat: string)
    requires |a| > 0
    requires forall i :: 0 <= i < |a| ==> !OccursAt(a + pat, pat, i)
    ensures forall i :: 0 <= i < |a| - 1 ==> !OccursAt(a[1..] + pat, pat, i)
  {
    forall i | 0 <= i < |a| - 1 ensures !OccursAt(a[1..] + pat, pat, i) {
      assert (a[1..] + pat)[i..i + |pat|] == (a + pat)[i + 1..i + 1 + |pat|];
      assert !OccursAt(a + pat, pat, i + 1);
    }
  }


  /** A string whose ends are not white space is its own trim. */
  lemma TrimUnchanged(s: string)
    requires |s| > 0 && !IsWhiteSpace(s[0]) && !IsWhiteSpace(s[|s| - 1])
    ensures Trim(s) == s
  {
  }

  /** Puts a backslash in front of every occurrence of `c`. */
  function Escape(s: string, c: char): (r: string)
    ensures c != '\\' ==> forall i :: 0 <= i < |r| && r[i] == c ==> i > 0 && r[i - 1] == '\\'
    decreases |s|
  {
    if |s| == 0 then ""
    else
      var e := Escape(s[1..], c);
      var head := if s[0] == c then ['\\', c] else [s[0]];
      var r := head + e;
      assert c != '\\' ==> forall i :: 0 <= i < |r| && r[i] == c ==> i > 0 && r[i - 1] == '\\' by {
        if c != '\\' {
          forall i | 0 <= i < |r| && r[i] == c ensures i > 0 && r[i - 1] == '\\' {
            if i >= |head| {
              assert e[i - |head|] == c;
              if i > |head| {
                assert r[i - 1] == e[i - 1 - |head|];
              }
            }
          }
        }
      }
      r
  }

  /** Removes the backslash in front of every occurrence of `c`: the inverse of `Escape`. */
  function Unescape(s: string, c: char): string
    decreases |s|
  {
    if |s| == 0 then ""
    else if |s| >= 2 && s[0] == '\\' && s[1] == c then [c] + Unescape(s[2..], c)
    else [s[0]] + Unescape(s[1..], c)
  }

  lemma {:induction false} UnescapeEscape(s: string, c: char)
    requires c != '\\'
    ensures Unescape(Escape(s, c), c) == s
    decreases |s|
  {
    if |s| > 0 {
      UnescapeEscape(s[1..], c);
      var e := Escape(s[1..], c);
      if s[0] == c {
        assert Escape(s, c)[2..] == e;
      } else if s[0] == '\\' {
        assert |e| > 0 ==> e[0] != c;
        assert Escape(s, c)[1..] == e;
      } else {
        assert Escape(s, c)[1..] == e;
      }
    }
  }

  /** `Replace("c", "\\c")` is exactly `Escape`. */
  lemma {:induction false} ReplaceCharIsEscape(s: string, c: char)
    ensures Replace(s, [c], ['\\', c]) == Escape(s, c)
    decreases |s|
  {
    if |s| > 0 {
      ReplaceCharIsEscape(s[1..], c);
      assert s[..1] == [s[0]];
    }
  }
}

=== FILE: topshelf_helper.dfy ===
/** `TopshelfHelper`: the service-status lookup with the `@` instance separator, and the
    command-line builder whose output starts with a space so it can follow the program path. */
module TopshelfHelper {
  import opened Wrappers
  import opened Text
  import opened CommandLineGrammar
  import LinuxProcess
  import ServiceStatus

  /** `GetStatus`: Running exactly when a `mono` process announces `serviceName` as
      `name` or `name@instance`. */
  function GetStatus(serviceName: string, processes: seq<LinuxProcess.ProcessRecord>): (r: ServiceStatus.ServiceControllerStatus)
    ensures r == ServiceStatus.Running <==>
      exists i :: 0 <= i < |processes| && ServiceStatus.RunsService(processes[i], serviceName, '@')
  {
    ServiceStatus.GetStatus(serviceName, processes, '@')
  }

  /** `BuildCommandLine`: the emitted tokens, each preceded by one space; a single space for a
      null dictionary. */
  function BuildCommandLine(commandLineParams: Option<Args>): (r: string)
    ensures commandLineParams.None? ==> r == " "
    ensures commandLineParams.Some? ==> r == Spaced(EmitTokens(commandLineParams.value))
  {
    match commandLineParams
    case None => " "
    case Some(d) =>
      var sb := " " + Fragments(d);
      FragmentsAreTrailingTokens(d);
      LeadingSpaceShift(EmitTokens(d));
      assert sb[..|sb| - 1] == Spaced(EmitTokens(d));
      sb[..|sb| - 1]
  }

  /** A non-null dictionary builds to `""` when nothing survives, and otherwise to a string that
      starts with a space. */
  lemma BuildShape(d: Args)
    ensures Emitted(d) == [] <==> BuildCommandLine(Some(d)) == ""
    ensures Emitted(d) != [] ==> BuildCommandLine(Some(d))[0] == ' '
  {
    EmitTokensEmpty(d);
  }

  /** Parsing a program path followed by a built command line gives back the dictionary
      without its false switches and empty values. */
  lemma RoundTrip(program: string, d: Args)
    requires IsWord(program)
    requires RoundTrippable(d)
    ensures ParseCommandLine(program + BuildCommandLine(Some(d))) == Emitted(d)
  {
    RoundTripTokens(program, d);
  }

  /** `NormalizeCommandLine`, with the process command line as a parameter: parse, then build. */
  function NormalizeCommandLine(commandLine: string): (r: string)
    ensures IsBlank(commandLine) ==> r == ""
    ensures r == "" || r[0] == ' '
  {
    var d := ParseCommandLine(commandLine);
    BuildShape(d);
    BuildCommandLine(Some(d))
  }

  /** A command line that is already normal stays as it is. */
  lemma NormalizeBuilt(program: string, d: Args)
    requires IsWord(program)
    requires RoundTrippable(d)
    ensures NormalizeCommandLine(program + BuildCommandLine(Some(d))) == BuildCommandLine(Some(d))
  {
    RoundTrip(program, d);
    FragmentsOfEmitted(d);
  }

  /** The example dictionary `-name "My Service" --verbose start` denotes. */
  function ExampleArgs(): Args {
    [("name", Str("My Service")), ("verbose", Flag(true)), ("start", Null)]
  }

  lemma ExampleTokens()
    ensures EmitTokens(ExampleArgs()) == ["-name", "\"My Service\"", "--verbose", "start"]
    ensures Emitted(ExampleArgs()) == ExampleArgs()
  {
    var d := ExampleArgs();
    var d2 := d[1..];
    var d3 := d2[1..];
    assert d3 == [("start", Null)] && d3[1..] == [];
    assert EmitTokens(d3) == ["start"];
    assert "--" + "verbose" == "--verbose";
    assert EmitTokens(d2) == ["--verbose"] + ["start"];
    assert "-" + "name" == "-name";
    assert "\"" + "My Service" + "\"" == "\"My Service\"";
    assert EntryTokens("name", Str("My Service")) == ["-name", "\"My Service\""];
    assert EmitTokens(d) == ["-name", "\"My Service\""] + ["--verbose", "start"];
    assert Emitted(d3) == d3;
    assert Emitted(d2) == d2;
  }

  lemma SpacedCons(t: string, ts: seq<string>)
    ensures Spaced([t] + ts) == " " + t + Spaced(ts)
  {
    assert ([t] + ts)[1..] == ts;
  }

  /** Four tokens, each preceded by one space. */
  lemma SpacedFour(a: string, b: string, c: string, d: string)
    ensures Spaced([a, b, c, d]) == " " + a + " " + b + " " + c + " " + d
  {
    assert [a, b, c, d] == [a] + [b, c, d] && [b, c, d] == [b] + [c, d] && [c, d] == [c] + [d];
    SpacedCons(a, [b, c, d]);
    SpacedCons(b, [c, d]);
    SpacedCons(c, [d]);
    SpacedCons(d, []);
  }

  /** The command line `-name "My Service" --verbose start`, each token preceded by one
      space. */
  function ExampleLine(): string {
    " " + "-name" + " " + "\"My Service\"" + " " + "--verbose" + " " + "start"
  }

  lemma ExampleSpaced()
    ensures Spaced(["-name", "\"My Service\"", "--verbose", "start"]) == ExampleLine()
  {
    SpacedFour("-name", "\"My Service\"", "--verbose", "start");
  }

  /** `-name "My Service" --verbose start` after the program path parses to the three entries
      in order, and building them gives the same text back. */
  lemma ParseAndBuildExample()
    ensures ParseCommandLine("app.exe" + ExampleLine()) == ExampleArgs()
    ensures BuildCommandLine(Some(ExampleArgs())) == ExampleLine()
  {
    ExampleTokens();
    ExampleSpaced();
    ExampleRoundTrippable();
    RoundTrip("app.exe", ExampleArgs());
  }

  lemma ExampleRoundTrippable()
    ensures RoundTrippable(ExampleArgs())
  {
    assert IsWord("name") && IsWord("verbose") && IsWord("start");
  }
}

=== FILE: transaction_manager.dfy ===
/** `TransactionManager<TContext>`: an ordered list of stages, each an optional action with an
    optional compensating action. `Execute` runs the actions in order; on the first failure it
    rolls back every stage entered so far, the failed one first, and raises one aggregate error.
    The actions are functions from the context to how they ended, so a run is a pure function
    of the stages and the context; the result records which stage methods were called, the
    events handed to the log function, and how the run ended. */
module TransactionManager {
  import opened Wrappers
  import opened Errors

  /** The messages `WriteLog` formats. */
  datatype LogEvent =
    | ExecutingStageIsStarted(stage: string)
    | ExecutingStageIsSuccessfullyCompleted(stage: string)
    | ExecutingStageIsCompletedWithErrors(stage: string, error: Error)
    | RollbackStageIsStarted(stage: string)
    | RollbackStageIsSuccessfullyCompleted(stage: string)
    | RollbackStageIsCompletedWithErrors(stage: string, error: Error)

  /** `StageInfo`: a name and two actions that may be null. */
  datatype StageInfo<!C> = StageInfo(name: string, execute: Option<C -> Outcome>, rollback: Option<C -> Outcome>)

  /** A manager: the optional log function and the stages in declaration order. */
  datatype Manager<!C> = Manager(log: Option<LogEvent -> Outcome>, stages: seq<StageInfo<C>>)

  /** A call of `StageInfo.Execute` or `StageInfo.Rollback` on the stage at an index. */
  datatype Call = Executed(stage: nat) | RolledBack(stage: nat)

  /** What a run did: the stage calls in order, the events logged in order, how it ended. */
  datatype Report = Report(calls: seq<Call>, logged: seq<LogEvent>, outcome: Outcome)

  /** `new TransactionManager<TContext>(logFunc)`. */
  function New<C>(log: Option<LogEvent -> Outcome>): (m: Manager<C>)
    ensures m.log == log && m.stages == []
  {
    Manager(log, [])
  }

  /** `Stage`: appends one stage and hands back the manager for the next call. */
  function Stage<C>(m: Manager<C>, name: string, execute: Option<C -> Outcome>, rollback: Option<C -> Outcome>): (r: Manager<C>)
    ensures r.log == m.log
    ensures |r.stages| == |m.stages| + 1 && r.stages[..|m.stages|] == m.stages
    ensures r.stages[|m.stages|] == StageInfo(name, execute, rollback)
  {
    Manager(m.log, m.stages + [StageInfo(name, execute, rollback)])
  }

  /** `WriteLog`: the event reaches the log function when there is one. Whatever that call does,
      throwing included, is swallowed, so only the delivery is recorded. */
  function WriteLog(log: Option<LogEvent -> Outcome>, event: LogEvent): (r: seq<LogEvent>)
    ensures log.None? ==> r == []
    ensures log.Some? ==> r == [event]
  {
    if log.Some? then [event] else []
  }

  /** `StageInfo.Execute`: a missing action succeeds; a failure is wrapped with the stage name. */
  function StageExecute<C>(stage: StageInfo<C>, context: C): (r: Outcome)
    ensures stage.execute.None? ==> r == Done
    ensures r.Threw? ==>
      && stage.execute.Some? && stage.execute.value(context).Threw?
      && r.error == CantExecuteStage(stage.name, stage.execute.value(context).error)
  {
    match stage.execute
    case None => Done
    case Some(f) => match f(context)
      case Done => Done
      case Threw(e) => Threw(CantExecuteStage(stage.name, e))
  }

  /** `StageInfo.Rollback`: a missing action succeeds; a failure is wrapped with the stage name. */
  function StageRollback<C>(stage: StageInfo<C>, context: C): (r: Outcome)
    ensures stage.rollback.None? ==> r == Done
    ensures r.Threw? ==>
      && stage.rollback.Some? && stage.rollback.value(context).Threw?
      && r.error == CantRollbackStage(stage.name, stage.rollback.value(context).error)
  {
    match stage.rollback
    case None => Done
    case Some(f) => match f(context)
      case Done => Done
      case Threw(e) => Threw(CantRollbackStage(stage.name, e))
  }

  // ---------------------------------------------------------------------------------------
  // Reference definitions

  /** The error an outcome adds to an aggregate, if any. */
  function ErrorOf(o: Outcome): (r: seq<Error>)
    ensures |r| <= 1
    ensures r == [] <==> o == Done
  {
    if o.Threw? then [o.error] else []
  }

  /** The errors among some outcomes, in order. */
  function ErrorsOf(outcomes: seq<Outcome>): (r: seq<Error>)
    ensures |r| <= |outcomes|
    ensures r == [] <==> forall j :: 0 <= j < |outcomes| ==> outcomes[j] == Done
  {
    if |outcomes| == 0 then []
    else
      var rest := ErrorsOf(outcomes[1..]);
      assert forall j :: 1 <= j < |outcomes| ==> outcomes[j] == outcomes[1..][j - 1];
      ErrorOf(outcomes[0]) + rest
  }

  /** The stage indexes from `n - 1` down to 0: the reverse of declaration order. */
  function Reversed(n: nat): (r: seq<nat>)
    ensures |r| == n
    ensures forall j :: 0 <= j < n ==> r[j] == n - 1 - j
  {
    if n == 0 then [] else [n - 1] + Reversed(n - 1)
  }

  predicate ValidPath<C>(stages: seq<StageInfo<C>>, path: seq<nat>) {
    forall j :: 0 <= j < |path| ==> path[j] < |stages|
  }

  /** What the rollbacks along a path return, in path order. */
  function RollbackOutcomes<C>(stages: seq<StageInfo<C>>, context: C, path: seq<nat>): (r: seq<Outcome>)
    requires ValidPath(stages, path)
    ensures |r| == |path|
    ensures forall j :: 0 <= j < |path| ==> r[j] == StageRollback(stages[path[j]], context)
  {
    seq(|path|, j requires 0 <= j < |path| => StageRollback(stages[path[j]], context))
  }

  /** The first stage at or after `from` whose execution fails, if any. */
  function FirstFailure<C>(stages: seq<StageInfo<C>>, context: C, from: nat): (r: Option<nat>)
    ensures r.None? ==> forall i :: from <= i < |stages| ==> StageExecute(stages[i], context) == Done
    ensures r.Some? ==> from <= r.value < |stages| && StageExecute(stages[r.value], context).Threw?
    ensures r.Some? ==> forall i :: from <= i < r.value ==> StageExecute(stages[i], context) == Done
    decreases |stages| - from
  {
    if from >= |stages| then None
    else if StageExecute(stages[from], context).Threw? then Some(from)
    else FirstFailure(stages, context, from + 1)
  }

  // ---------------------------------------------------------------------------------------
  // Running

  /** The rollback outcomes along a path are the first stage's followed by the rest's. */
  lemma RollbackOutcomesTail<C>(stages: seq<StageInfo<C>>, context: C, path: seq<nat>)
    requires ValidPath(stages, path) && |path| > 0
    ensures ErrorsOf(RollbackOutcomes(stages, context, path))
         == ErrorOf(StageRollback(stages[path[0]], context)) + ErrorsOf(RollbackOutcomes(stages, context, path[1..]))
  {
    var outcomes := RollbackOutcomes(stages, context, path);
    assert outcomes[1..] == RollbackOutcomes(stages, context, path[1..]);
  }

  /** The private `Rollback(context, rollbackPath)`: every stage on the path is rolled back in
      path order, whatever the earlier ones did, and the failures are collected. */
  function RollbackAlong<C>(m: Manager<C>, context: C, path: seq<nat>): (r: (seq<Call>, seq<LogEvent>, seq<Error>))
    requires ValidPath(m.stages, path)
    ensures |r.0| == |path| && forall j :: 0 <= j < |path| ==> r.0[j] == RolledBack(path[j])
    ensures r.2 == ErrorsOf(RollbackOutcomes(m.stages, context, path))
    ensures m.log.None? ==> r.1 == []
  {
    if |path| == 0 then ([], [], [])
    else
      var stage := m.stages[path[0]];
      var rest := RollbackAlong(m, context, path[1..]);
      var outcome := StageRollback(stage, context);
      var finished := if outcome.Threw? then RollbackStageIsCompletedWithErrors(stage.name, outcome.error)
                      else RollbackStageIsSuccessfullyCompleted(stage.name);
      RollbackOutcomesTail(m.stages, context, path);
      RolledBackCons(path, rest.0);
      ([RolledBack(path[0])] + rest.0,
       WriteLog(m.log, RollbackStageIsStarted(stage.name)) + WriteLog(m.log, finished) + rest.1,
       ErrorOf(outcome) + rest.2)
  }

  /** Rolling back the head of a path, then the rest of it, rolls back along the path. */
  lemma RolledBackCons(path: seq<nat>, rest: seq<Call>)
    requires |path| > 0 && |rest| == |path| - 1
    requires forall j :: 0 <= j < |rest| ==> rest[j] == RolledBack(path[1..][j])
    ensures forall j :: 0 <= j < |path| ==> ([RolledBack(path[0])] + rest)[j] == RolledBack(path[j])
  {
    forall j | 0 <= j < |path| ensures ([RolledBack(path[0])] + rest)[j] == RolledBack(path[j]) {
      if j > 0 {
        assert rest[j - 1] == RolledBack(path[1..][j - 1]);
      }
    }
  }

  /** Stages `lo` up to but excluding `hi` executed in declaration order. */
  function ExecutedRange(lo: nat, hi: nat): (r: seq<Call>)
    requires lo <= hi
    ensures |r| == hi - lo
    ensures forall j :: 0 <= j < hi - lo ==> r[j] == Executed(lo + j)
  {
    seq(hi - lo, j requires 0 <= j < hi - lo => Executed(lo + j))
  }

  /** Stages `n - 1` down to 0 rolled back. */
  function RolledBackDown(n: nat): (r: seq<Call>)
    ensures |r| == n
    ensures forall j :: 0 <= j < n ==> r[j] == RolledBack(n - 1 - j)
  {
    seq(n, j requires 0 <= j < n => RolledBack(n - 1 - j))
  }

  /** The aggregate raised when stage `k` is the first to fail: its own error, then the errors of
      rolling back stages `k` down to 0, in that order. */
  function Aggregate<C>(stages: seq<StageInfo<C>>, context: C, k: nat): (r: Error)
    requires k < |stages| && StageExecute(stages[k], context).Threw?
    ensures r.TransactionFailed? && |r.inner| >= 1
    ensures r.inner[0] == StageExecute(stages[k], context).error
  {
    TransactionFailed([StageExecute(stages[k], context).error]
                      + ErrorsOf(RollbackOutcomes(stages, context, Reversed(k + 1))))
  }

  lemma ExecutedRangeCons(lo: nat, hi: nat)
    requires lo < hi
    ensures ExecutedRange(lo, hi) == [Executed(lo)] + ExecutedRange(lo + 1, hi)
  {
  }

  /** A stage that succeeds passes the search for the first failure on to the next one, and
      its execution heads the executions after it. */
  lemma DoneStep<C>(stages: seq<StageInfo<C>>, context: C, from: nat)
    requires from < |stages| && StageExecute(stages[from], context) == Done
    ensures FirstFailure(stages, context, from) == FirstFailure(stages, context, from + 1)
    ensures FirstFailure(stages, context, from).None? ==>
      ExecutedRange(from, |stages|) == [Executed(from)] + ExecutedRange(from + 1, |stages|)
    ensures FirstFailure(stages, context, from).Some? ==>
      var k := FirstFailure(stages, context, from).value;
      k >= from + 1 && ExecutedRange(from, k + 1) == [Executed(from)] + ExecutedRange(from + 1, k + 1)
  {
    var k := FirstFailure(stages, context, from);
    if k.Some? {
      ExecutedRangeCons(from, k.value + 1);
    } else {
      ExecutedRangeCons(from, |stages|);
    }
  }

  /** A stage that fails is the first failure from itself on, and the rollback from it runs
      down to stage 0. */
  lemma FailsHere<C>(m: Manager<C>, context: C, from: nat)
    requires from < |m.stages| && StageExecute(m.stages[from], context).Threw?
    ensures FirstFailure(m.stages, context, from) == Some(from)
    ensures ExecutedRange(from, from + 1) == [Executed(from)]
    ensures RollbackAlong(m, context, Reversed(from + 1)).0 == RolledBackDown(from + 1)
  {
    ExecutedRangeCons(from, from + 1);
    RollbackDownCalls(m, context, from + 1);
  }

  /** Rolling back along the reversed path calls the stages from `n - 1` down to 0. */
  lemma RollbackDownCalls<C>(m: Manager<C>, context: C, n: nat)
    requires n <= |m.stages|
    ensures RollbackAlong(m, context, Reversed(n)).0 == RolledBackDown(n)
  {
    CallsAlongReversed(RollbackAlong(m, context, Reversed(n)).0, Reversed(n));
  }

  lemma CallsAlongReversed(calls: seq<Call>, path: seq<nat>)
    requires path == Reversed(|path|) && |calls| == |path|
    requires forall j :: 0 <= j < |path| ==> calls[j] == RolledBack(path[j])
    ensures calls == RolledBackDown(|path|)
  {
    var down := RolledBackDown(|path|);
    forall j | 0 <= j < |path| ensures calls[j] == down[j] {
      assert path[j] == |path| - 1 - j;
    }
  }

  /** What a run from stage `from` on does, the stages before it having succeeded: every stage
      executed in order when none fails, otherwise the stages up to the first failure executed,
      then that one down to stage 0 rolled back, and the aggregate raised. Nothing is logged
      without a log function. */
  ghost predicate RunsFrom<C>(m: Manager<C>, context: C, from: nat, r: Report)
    requires from <= |m.stages|
  {
    && (FirstFailure(m.stages, context, from).None? ==>
          r.outcome == Done && r.calls == ExecutedRange(from, |m.stages|))
    && (FirstFailure(m.stages, context, from).Some? ==>
          var k := FirstFailure(m.stages, context, from).value;
          r.outcome == Threw(Aggregate(m.stages, context, k))
          && r.calls == ExecutedRange(from, k + 1) + RolledBackDown(k + 1))
    && (m.log.None? ==> r.logged == [])
  }

  lemma ConcatAssoc<T>(a: seq<T>, b: seq<T>, c: seq<T>)
    ensures a + (b + c) == (a + b) + c
  {
  }

  /** A succeeding stage in front of a run from the next one makes a run from itself. */
  lemma RunsFromDone<C>(m: Manager<C>, context: C, from: nat, rest: Report, logged: seq<LogEvent>)
    requires from < |m.stages| && StageExecute(m.stages[from], context) == Done
    requires RunsFrom(m, context, from + 1, rest)
    requires m.log.None? ==> logged == []
    ensures RunsFrom(m, context, from, Report([Executed(from)] + rest.calls, logged + rest.logged, rest.outcome))
  {
    DoneStep(m.stages, context, from);
    var k := FirstFailure(m.stages, context, from);
    if k.Some? {
      ConcatAssoc([Executed(from)], ExecutedRange(from + 1, k.value + 1), RolledBackDown(k.value + 1));
    }
  }

  /** A failing stage followed by the rollback down from it makes a run from that stage. */
  lemma RunsFromThrew<C>(m: Manager<C>, context: C, from: nat, logged: seq<LogEvent>)
    requires from < |m.stages| && StageExecute(m.stages[from], context).Threw?
    requires m.log.None? ==> logged == []
    ensures var rollback := RollbackAlong(m, context, Reversed(from + 1));
      RunsFrom(m, context, from, Report([Executed(from)] + rollback.0, logged,
                                        Threw(TransactionFailed([StageExecute(m.stages[from], context).error] + rollback.2))))
  {
    FailsHere(m, context, from);
  }

  /** The loop of `Execute` from stage `from` on, the stages before it having succeeded. */
  function ExecuteFrom<C>(m: Manager<C>, context: C, from: nat): (r: Report)
    requires from <= |m.stages|
    ensures RunsFrom(m, context, from, r)
    decreases |m.stages| - from
  {
    if from == |m.stages| then Report([], [], Done)
    else
      var stage := m.stages[from];
      var started := WriteLog(m.log, ExecutingStageIsStarted(stage.name));
      match StageExecute(stage, context)
      case Done =>
        var rest := ExecuteFrom(m, context, from + 1);
        var logged := started + WriteLog(m.log, ExecutingStageIsSuccessfullyCompleted(stage.name));
        RunsFromDone(m, context, from, rest, logged);
        Report([Executed(from)] + rest.calls, logged + rest.logged, rest.outcome)
      case Threw(e) =>
        var rollback := RollbackAlong(m, context, Reversed(from + 1));
        var logged := started + WriteLog(m.log, ExecutingStageIsCompletedWithErrors(stage.name, e)) + rollback.1;
        RunsFromThrew(m, context, from, logged);
        Report([Executed(from)] + rollback.0, logged, Threw(TransactionFailed([e] + rollback.2)))
  }

  /** `Execute`. When every stage succeeds, each is executed once in declaration order and
      nothing is rolled back. When stage `k` is the first to fail, no later stage is executed,
      stages `k` down to 0 are rolled back in that order, and one aggregate is raised holding
      stage `k`'s error followed by the rollback errors in the order they occurred. */
  function Execute<C>(m: Manager<C>, context: C): (r: Report)
    ensures FirstFailure(m.stages, context, 0).None? ==>
      r.outcome == Done && r.calls == ExecutedRange(0, |m.stages|)
    ensures FirstFailure(m.stages, context, 0).Some? ==>
      var k := FirstFailure(m.stages, context, 0).value;
      r.outcome == Threw(Aggregate(m.stages, context, k))
      && r.calls == ExecutedRange(0, k + 1) + RolledBackDown(k + 1)
    ensures m.log.None? ==> r.logged == []
  {
    ExecuteFrom(m, context, 0)
  }

  /** The rollbacks along the reversed path all succeed exactly when every stage's does. */
  lemma AllRollbacksDone<C>(stages: seq<StageInfo<C>>, context: C)
    ensures ErrorsOf(RollbackOutcomes(stages, context, Reversed(|stages|))) == []
        <==> forall i :: 0 <= i < |stages| ==> StageRollback(stages[i], context) == Done
  {
    var n := |stages|;
    var path := Reversed(n);
    var outcomes := RollbackOutcomes(stages, context, path);
    if forall j :: 0 <= j < n ==> outcomes[j] == Done {
      forall i | 0 <= i < n ensures StageRollback(stages[i], context) == Done {
        assert path[n - 1 - i] == i;
        assert outcomes[n - 1 - i] == Done;
      }
    }
    if forall i :: 0 <= i < n ==> StageRollback(stages[i], context) == Done {
      forall j | 0 <= j < n ensures outcomes[j] == Done {
        assert outcomes[j] == StageRollback(stages[path[j]], context);
      }
    }
  }

  /** The public `Rollback`: every stage is rolled back, last declared first, and an aggregate is
      raised exactly when at least one rollback failed. */
  function Rollback<C>(m: Manager<C>, context: C): (r: Report)
    ensures |r.calls| == |m.stages|
    ensures forall j :: 0 <= j < |m.stages| ==> r.calls[j] == RolledBack(|m.stages| - 1 - j)
    ensures r.outcome == Done <==> forall i :: 0 <= i < |m.stages| ==> StageRollback(m.stages[i], context) == Done
    ensures r.outcome.Threw? ==> r.outcome.error == RollbackTransactionFailed(ErrorsOf(RollbackOutcomes(m.stages, context, Reversed(|m.stages|))))
    ensures m.log.None? ==> r.logged == []
  {
    var path := Reversed(|m.stages|);
    var run := RollbackAlong(m, context, path);
    RollbackDownCalls(m, context, |m.stages|);
    AllRollbacksDone(m.stages, context);
    Report(run.0, run.1, if |run.2| > 0 then Threw(RollbackTransactionFailed(run.2)) else Done)
  }

  // ---------------------------------------------------------------------------------------
  // Properties

  /** The log function, present or not, throwing or not, never changes which stages are
      called or how a run ends. */
  lemma LogDoesNotMatter<C>(stages: seq<StageInfo<C>>, log1: Option<LogEvent -> Outcome>,
                            log2: Option<LogEvent -> Outcome>, context: C)
    ensures Execute(Manager(log1, stages), context).calls == Execute(Manager(log2, stages), context).calls
    ensures Execute(Manager(log1, stages), context).outcome == Execute(Manager(log2, stages), context).outcome
    ensures Rollback(Manager(log1, stages), context).calls == Rollback(Manager(log2, stages), context).calls
    ensures Rollback(Manager(log1, stages), context).outcome == Rollback(Manager(log2, stages), context).outcome
  {
  }

  /** A stage added with `Stage` runs after all the earlier ones: when they all succeed, the
      new manager's calls are the old ones followed by the new stage's execution. */
  lemma StageRunsLast<C>(m: Manager<C>, name: string, execute: Option<C -> Outcome>, rollback: Option<C -> Outcome>, context: C)
    requires FirstFailure(m.stages, context, 0).None?
    requires StageExecute(StageInfo(name, execute, rollback), context) == Done
    ensures Execute(Stage(m, name, execute, rollback), context).calls == Execute(m, context).calls + [Executed(|m.stages|)]
    ensures Execute(Stage(m, name, execute, rollback), context).outcome == Done
  {
    var m' := Stage(m, name, execute, rollback);
    assert forall i :: 0 <= i < |m.stages| ==> m'.stages[i] == m.stages[i];
    assert FirstFailure(m'.stages, context, 0).None?;
  }

  /** The error a stage's rollback adds to an aggregate, if any. */
  function RollbackErrors<C>(stage: StageInfo<C>, context: C): (r: seq<Error>)
    ensures |r| <= 1
    ensures r == [] <==> StageRollback(stage, context) == Done
  {
    ErrorOf(StageRollback(stage, context))
  }

  lemma ErrorsOfTwo(a: Outcome, b: Outcome)
    ensures ErrorsOf([a, b]) == ErrorOf(a) + ErrorOf(b)
  {
    assert [a, b][1..] == [b];
    assert [b][1..] == [];
  }

  lemma ErrorsOfThree(a: Outcome, b: Outcome, c: Outcome)
    ensures ErrorsOf([a, b, c]) == ErrorOf(a) + ErrorOf(b) + ErrorOf(c)
  {
    assert [a, b, c][1..] == [b, c];
    ErrorsOfTwo(b, c);
  }

  /** The rollback outcomes along the path from stage `n - 1` down to 0, for two and three
      stages. */
  lemma RollbackPathOfTwo<C>(stages: seq<StageInfo<C>>, context: C)
    requires |stages| >= 2
    ensures RollbackOutcomes(stages, context, Reversed(2)) == [StageRollback(stages[1], context), StageRollback(stages[0], context)]
  {
  }

  lemma RollbackPathOfThree<C>(stages: seq<StageInfo<C>>, context: C)
    requires |stages| == 3
    ensures RollbackOutcomes(stages, context, Reversed(3))
         == [StageRollback(stages[2], context), StageRollback(stages[1], context), StageRollback(stages[0], context)]
  {
  }

  /** Three stages where the second fails: the third is never executed, the second and then the
      first are rolled back, and the aggregate holds the second stage's error, then the errors
      of those two rollbacks. */
  lemma SecondOfThreeFails<C>(m: Manager<C>, context: C)
    requires |m.stages| == 3
    requires StageExecute(m.stages[0], context) == Done
    requires StageExecute(m.stages[1], context).Threw?
    ensures Execute(m, context).calls == [Executed(0), Executed(1), RolledBack(1), RolledBack(0)]
    ensures Execute(m, context).outcome == Threw(TransactionFailed(
      [StageExecute(m.stages[1], context).error]
      + RollbackErrors(m.stages[1], context) + RollbackErrors(m.stages[0], context)))
  {
    assert FirstFailure(m.stages, context, 0) == Some(1);
    AggregateOfSecond(m.stages, context);
    TwoCalls();
  }

  lemma AggregateOfSecond<C>(stages: seq<StageInfo<C>>, context: C)
    requires |stages| == 3 && StageExecute(stages[1], context).Threw?
    ensures Aggregate(stages, context, 1) == TransactionFailed([StageExecute(stages[1], context).error]
      + RollbackErrors(stages[1], context) + RollbackErrors(stages[0], context))
  {
    RollbackPathOfTwo(stages, context);
    ErrorsOfTwo(StageRollback(stages[1], context), StageRollback(stages[0], context));
  }

  lemma TwoCalls()
    ensures ExecutedRange(0, 2) + RolledBackDown(2) == [Executed(0), Executed(1), RolledBack(1), RolledBack(0)]
  {
  }

  /** Three stages where the last fails: all three are rolled back, last first. */
  lemma ThirdOfThreeFails<C>(m: Manager<C>, context: C)
    requires |m.stages| == 3
    requires StageExecute(m.stages[0], context) == Done
    requires StageExecute(m.stages[1], context) == Done
    requires StageExecute(m.stages[2], context).Threw?
    ensures Execute(m, context).calls == [Executed(0), Executed(1), Executed(2), RolledBack(2), RolledBack(1), RolledBack(0)]
    ensures Execute(m, context).outcome == Threw(TransactionFailed(
      [StageExecute(m.stages[2], context).error]
      + RollbackErrors(m.stages[2], context) + RollbackErrors(m.stages[1], context) + RollbackErrors(m.stages[0], context)))
  {
    FailsAtThird(m.stages, context);
    AggregateOfThird(m.stages, context);
    ThreeCalls();
  }

  lemma FailsAtThird<C>(stages: seq<StageInfo<C>>, context: C)
    requires |stages| == 3
    requires StageExecute(stages[0], context) == Done
    requires StageExecute(stages[1], context) == Done
    requires StageExecute(stages[2], context).Threw?
    ensures FirstFailure(stages, context, 0) == Some(2)
  {
    assert FirstFailure(stages, context, 2) == Some(2);
  }

  lemma AggregateOfThird<C>(stages: seq<StageInfo<C>>, context: C)
    requires |stages| == 3 && StageExecute(stages[2], context).Threw?
    ensures Aggregate(stages, context, 2) == TransactionFailed([StageExecute(stages[2], context).error]
      + RollbackErrors(stages[2], context) + RollbackErrors(stages[1], context) + RollbackErrors(stages[0], context))
  {
    RollbackPathOfThree(stages, context);
    var a, b, c := RollbackErrors(stages[2], context), RollbackErrors(stages[1], context), RollbackErrors(stages[0], context);
    ErrorsOfThree(StageRollback(stages[2], context), StageRollback(stages[1], context), StageRollback(stages[0], context));
    ConcatAssoc([StageExecute(stages[2], context).error], a + b, c);
    ConcatAssoc([StageExecute(stages[2], context).error], a, b);
  }

  lemma ThreeCalls()
    ensures ExecutedRange(0, 3) + RolledBackDown(3)
         == [Executed(0), Executed(1), Executed(2), RolledBack(2), RolledBack(1), RolledBack(0)]
  {
  }

  /** Rolling back three stages calls them last first and fails exactly when one of them does. */
  lemma RollbackOfThree<C>(m: Manager<C>, context: C)
    requires |m.stages| == 3
    ensures Rollback(m, context).calls == [RolledBack(2), RolledBack(1), RolledBack(0)]
    ensures Rollback(m, context).outcome == Done <==>
      StageRollback(m.stages[0], context) == Done && StageRollback(m.stages[1], context) == Done
      && StageRollback(m.stages[2], context) == Done
  {
  }

  /** Three stages run to completion exactly when each of them executes successfully. */
  lemma ExecuteOfThree<C>(m: Manager<C>, context: C)
    requires |m.stages| == 3
    ensures Execute(m, context).outcome == Done <==>
      StageExecute(m.stages[0], context) == Done && StageExecute(m.stages[1], context) == Done
      && StageExecute(m.stages[2], context) == Done
  {
    FirstFailureOfThree(m, context);
  }

  /** Three stages run through exactly when each of them succeeds. */
  lemma FirstFailureOfThree<C>(m: Manager<C>, context: C)
    requires |m.stages| == 3
    ensures FirstFailure(m.stages, context, 0).None? <==>
      StageExecute(m.stages[0], context) == Done && StageExecute(m.stages[1], context) == Done
      && StageExecute(m.stages[2], context) == Done
  {
  }

  /** A present action is what a stage runs; its failure comes back wrapped with the stage name. */
  lemma PresentActions<C>(name: string, execute: C -> Outcome, rollback: C -> Outcome, context: C)
    ensures StageExecute(StageInfo(name, Some(execute), Some(rollback)), context)
         == if execute(context).Threw? then Threw(CantExecuteStage(name, execute(context).error)) else Done
    ensures StageRollback(StageInfo(name, Some(execute), Some(rollback)), context)
         == if rollback(context).Threw? then Threw(CantRollbackStage(name, rollback(context).error)) else Done
  {
  }
}

=== FILE: wrappers.dfy ===
/** Option and Result, standing in for C# null references and thrown exceptions. */
module Wrappers {

  /** A reference that may be null. */
  datatype Option<+T> = None | Some(value: T) {

    /** The value, or `default` for null. */
    function GetOr(default: T): T {
      match this
      case Some(v) => v
      case None => default
    }
  }

  /** A call that either returns a value or throws an error. */
  datatype Result<+T, +E> = Success(value: T) | Failure(error: E)
}
